=== FILE: README.md ===
# ScenTest orchestration core, modelled in Dafny

ScenTest runs CARLA driving scenarios in large batches and keeps track of
what happened to each one. This project models the decision logic of those
batch scripts and proves properties about it. CARLA, the file system,
subprocesses and the wall clock all appear as oracle inputs.

The model covers:

- **Ledger**: the resumable outcome ledger, a map from scenario filename to
  status string. Both batch runners load it at start-up and write it back in
  full after every new entry.
- **Scheduler**: the batch loop the two runners share. It skips entries that
  are already recorded or not eligible, attempts the rest in catalog order,
  and records each status at once. It stops the batch where an attempt
  raises.
- **RunnerBatch**: the scenario_runner batch (`batch_scenario_srunner.py`).
  Each attempt checks, in order, the simulator restart, the scenario file and
  the destination, then launches scenario_runner and drives.
- **DriveLoop**: the agent drive loop with its fallen and stuck detectors,
  the 180-second ceiling, and the `finally` cleanup.
- **DebugBatch** and **ScriptStatus**: the debug-script batch
  (`batch_scenarios_xodr.py`) and the classifier that turns the script's
  stdout and return code into a status. It includes a model of the
  `FINAL_STATUS:\s*(.+)` search.
- **LogName**: the expected recording-log path. It uses `os.path.splitext`
  and replaces every character outside `[A-Za-z0-9_.-]`.
- **SpawnValidation**: the bookkeeping of the spawn-route validator. It
  covers snap-failure classes, the shape of the distance file, a status per
  pair, the counters, the early stop, and skipping maps that already have
  results.
- **SpawnCleanup**: spawn-point deduplication. One entry is kept per pose,
  the one with the lowest id, and the result is sorted by id.
- **DistinctMaps**: the map identifier taken from scenario filenames by
  `^([^_]+_[^_]+_[^_]+)(?:_.*)?\.xosc$`, and the sorted set of identifiers.
- **MapProcessing**: the processed/missing partition of `.xodr` maps.
- **Recorder**: the recorder state machine of `run_single_carla_100fps.py`,
  covering its `start_recorder`/`stop_recorder` calls across a whole session.

Shared helpers:

- `Common` holds `Option`.
- `Strings` holds suffix tests, `str.replace(pat, '')`, `str(int)` with its
  parser, and the code-point order and sort that `sorted()` uses.

Where the code and its own comments disagree, the model follows the code:

- The distinct-maps docstring promises four name parts; the regex captures
  three (`DistinctMaps.FourthPartDropped`).
- The runner restarts the simulator before it checks that the scenario file
  exists, so missing files still cost a restart.

## Model

| member | source | states |
|---|---|---|
| Ledger.LoadForRunner | batch_scenario_srunner.py:36-44 | an absent, unreadable or undecodable ledger file loads as the empty map; any other error escapes; a decoded file loads its entries unchanged |
| Ledger.LoadForDebug | batch_scenarios_xodr.py:129-141 | every failure to read or decode loads as the empty map; a decoded file loads its entries |
| Ledger.LoadersAgree | batch_scenarios_xodr.py:129-141 | whenever the runner's loader returns, both loaders give the same ledger; where the runner's loader raises, the debug loader starts empty |
| Ledger.Record | batch_scenario_srunner.py:243-244 | recording a status gives the key exactly that status, adds only that key, keeps earlier entries for a new key, and is followed at once by a save of the whole new ledger |
| Ledger.LastSavedAppend | batch_scenarios_xodr.py:230-231 | the ledger on disk after two runs of events is what the second run leaves from the first run's result |
| Ledger.SavedImmediatelyAppend | batch_scenarios_xodr.py:230-231 | "every record is saved in the next step" survives joining two event traces |
| Scheduler.Batch | batch_scenario_srunner.py:169-172 | an entry already in the ledger is never rewritten; a stopped batch stops at a catalog key that has no entry before or after |
| Scheduler.SavesImmediately | batch_scenario_srunner.py:237-245 | every recorded entry is saved right after it is made, and the last ledger saved is the ledger the batch ends with |
| Scheduler.RecordsOnce | batch_scenario_srunner.py:169-245 | each key is recorded at most once per run, only when it was absent at the start; the final ledger holds exactly the old keys plus the recorded ones |
| Scheduler.RecordsAttempted | batch_scenario_srunner.py:169-245 | every new entry is the status an attempt produced for an eligible catalog item with that key |
| Scheduler.FinishedCoversCatalog | batch_scenario_srunner.py:169-245 | a batch that runs to the end leaves every eligible catalog key in the ledger |
| Scheduler.NothingDueChangesNothing | batch_scenario_srunner.py:169-172 | when nothing is due, the batch finishes, records nothing and leaves the ledger as it was |
| Scheduler.ResumeAfterFinish | batch_scenario_srunner.py:159-172 | rerunning after a completed batch attempts nothing and changes nothing |
| Scheduler.StopRepeats | batch_scenario_srunner.py:205-210 | resuming after a batch stopped by an exception stops again at the same scenario |
| Scheduler.StopsAtFailedAttempt | batch_scenarios_xodr.py:218-223 | a batch stops only at an item that was due and whose attempt raised |
| Scheduler.FinishesWithoutFailedAttempt | batch_scenarios_xodr.py:218-223 | when no item that is due at the start raises, the batch runs to the end |
| Scheduler.StopsAtRaisingItem | batch_scenarios_xodr.py:218-223 | an item that is due at the start and raises stops the batch, unless an earlier item with the same key recorded it first |
| Scheduler.Pending | batch_scenarios_xodr.py:180-188 | the pending keys are exactly the keys of eligible items missing from the ledger |
| Scheduler.PendingIgnoresAbsent | batch_scenarios_xodr.py:186-188 | a ledger entry for a key outside the catalog changes nothing about what is pending |
| Scheduler.ExactlyOnce | batch_scenarios_xodr.py:180-231 | with distinct keys, a completed batch records exactly the pending keys, each once, in catalog order |
| RunnerBatch.AttemptScenario | batch_scenario_srunner.py:176-245 | each status holds exactly under its own condition: `failed_server_start` when the restart fails; `failed_file_not_found` when the restart works and the file is missing; an uncaught exception when both pass and `[0]` raises on the destination (an empty list or string, null, a number, a boolean or an object); `failed_missing_destination` when the key is absent or the first list element is falsy; `success` when the drive is reached and returns (stuck, fallen, reached or timed out); `failed` when the launch or the drive raises |
| RunnerBatch.Batch | batch_scenario_srunner.py:169-172 | entries already in the ledger survive the batch unchanged |
| RunnerBatch.BatchStatuses | batch_scenario_srunner.py:186-245 | every new entry is one of the five statuses the runner writes, and is the attempt's status for a catalog scenario of that name |
| RunnerBatch.BatchStopsAtUnindexableDestination | batch_scenario_srunner.py:205-210 | the batch stops only at an unrecorded scenario whose server and file checks passed and on whose destination `[0]` raises |
| RunnerBatch.UnindexableDestinationStops | batch_scenario_srunner.py:205-210 | conversely, such a scenario stops the batch, unless an earlier catalog entry of the same name was recorded first |
| RunnerBatch.RunnerMain | batch_scenario_srunner.py:153-245 | for a catalog that decodes to an object, start-up fails only when loading the ledger raises; otherwise the decoded entries are kept, and a fresh ledger gains only catalog names |
| RunnerBatch.CrashRepeats | batch_scenario_srunner.py:205-210 | a scenario whose destination cannot be indexed makes every resumed run stop at that same scenario |
| RunnerBatch.ReachedScenarioSucceeds | batch_scenario_srunner.py:216-228 | a scenario whose vehicle moves and then reaches its destination is recorded as `success` |
| DriveLoop.Step | batch_scenario_srunner.py:113-132 | a tick stops as fallen exactly when it is below ground; stuck fires exactly when the vehicle is tracked, above ground, within 0.1 of the reference and more than 2 s past the reset; reached fires exactly when the vehicle is above ground, the agent is done and stuck does not fire; a continuing tick is above ground and not done; a move beyond 0.1 or a fresh detector resets the reference to this tick |
| DriveLoop.Loop | batch_scenario_srunner.py:111-134 | the loop reports a time-out only when some tick's clock reached the 180 s ceiling |
| DriveLoop.CeilingEnforced | batch_scenario_srunner.py:103-134 | when the vehicle keeps moving and nothing else stops the loop, it ends exactly as timed out at the first tick past 180 s |
| DriveLoop.StuckFires | batch_scenario_srunner.py:106-126 | a vehicle that stays within 0.1 of its reference until more than 2 s have passed is reported stuck |
| DriveLoop.Drive | batch_scenario_srunner.py:68-141 | on every path the world ends with its original settings, and a started recording is stopped exactly once; the recorder starts exactly when the loop is entered and the path is truthy (non-empty), and is stopped exactly when a client exists and the path is truthy; without a connection, a ready setup and a non-zero fps the call raises, and otherwise it returns exactly when the loop exits, with the loop's exit reason; a time-out needs a tick past the ceiling |
| DriveLoop.StopWithoutStart | batch_scenario_srunner.py:136-141 | when the world cannot be fetched, the cleanup calls `stop_recorder` although no recording was started |
| DebugBatch.Batch | batch_scenarios_xodr.py:180-188 | entries already in the ledger survive the batch unchanged |
| DebugBatch.BatchStatuses | batch_scenarios_xodr.py:180-231 | every new entry belongs to a `.xosc` key of the catalog whose server started, and holds the classified output of its debug run |
| DebugBatch.OtherKeysUntouched | batch_scenarios_xodr.py:181-183 | a key not ending in `.xosc` is in the final ledger exactly when it was in the loaded one |
| DebugBatch.BatchStopsOnServerFailure | batch_scenarios_xodr.py:212-223 | the batch stops only at an unrecorded `.xosc` key whose server failed to start, and records nothing for it |
| DebugBatch.DebugMain | batch_scenarios_xodr.py:155-241 | a missing debug script and an empty catalog end the run early; otherwise the loaded entries are kept, and a fresh ledger gains only `.xosc` catalog keys |
| DebugBatch.ExitStatusOfMain | batch_scenarios_xodr.py:161-223 | in terms of the inputs: a missing script exits with 1; otherwise the exit status is 1 exactly when some `.xosc` key of the catalog without an entry in the loaded ledger fails to get a simulator |
| DebugBatch.FinishedMeansAllStarted | batch_scenarios_xodr.py:212-230 | a batch that ran to the end started a simulator for every `.xosc` key that had no entry at the start |
| DebugBatch.PrintedStatusLands | batch_scenarios_xodr.py:227-231 | a script that prints `FINAL_STATUS: <status>` gets exactly that status in the ledger |
| ScriptStatus.Strip | batch_scenarios_xodr.py:101 | the result has no whitespace at either end and is a slice of the input with only whitespace around it |
| ScriptStatus.StripIdempotent | batch_scenarios_xodr.py:101 | stripping twice is stripping once |
| ScriptStatus.Search | batch_scenarios_xodr.py:99 | the search finds the leftmost index where the whole pattern matches, and finds nothing only when no index matches |
| ScriptStatus.FinalStatusIffMatch | batch_scenarios_xodr.py:99-100 | a status is read exactly when the pattern matches somewhere in the output |
| ScriptStatus.Classify | batch_scenarios_xodr.py:89-125 | a missing executable gives `SCRIPT_NOT_FOUND` and any other exception gives `BATCH_PROCESSING_ERROR`; output without a match gives `UNKNOWN_SCRIPT_OUTPUT` whatever the return code; a matched status is a single line; empty output gives `COMPLETED_NO_STATUS_PARSE` exactly for code 0 and `SCRIPT_ERROR_CODE_` plus an integer otherwise |
| ScriptStatus.UnknownIffNoMatch | batch_scenarios_xodr.py:104-109 | non-empty output is reported unknown through the no-match branch exactly when the pattern matches nowhere |
| ScriptStatus.ErrorCodeRoundTrip | batch_scenarios_xodr.py:116-118 | the return code can be parsed back out of an error-code status, sign included |
| ScriptStatus.PrintedStatusIsRecovered | batch_scenarios_xodr.py:98-103 | a status printed on its own line after the first `FINAL_STATUS:` comes back exactly, whatever comes before or after and whatever the return code |
| ScriptStatus.PrintedStatusAlone | batch_scenarios_xodr.py:98-103 | a script whose whole output is one status line gets that status |
| ScriptStatus.BlankStatusIsEmpty | batch_scenarios_xodr.py:99-103 | a tag followed only by spaces still matches, and gives the empty status rather than `UNKNOWN_SCRIPT_OUTPUT` |
| LogName.LastIndex | batch_scenarios_xodr.py:60 | the result is the last position holding the character, or -1 when there is none |
| LogName.SplitExt | batch_scenarios_xodr.py:60 | root and extension concatenate to the path; a non-empty extension is one dot with no later dot or slash, and the final component has a non-dot character before it |
| LogName.ExtensionFound | batch_scenarios_xodr.py:60 | a dot after a non-dot character in the final component always gives an extension |
| LogName.LeadingDotIsNoExtension | batch_scenarios_xodr.py:60 | a name that is only a leading dot plus letters, such as `.xosc`, has no extension |
| LogName.Sanitize | batch_scenarios_xodr.py:61 | the length is kept, allowed characters are kept in place, and every other character becomes `_` |
| LogName.SanitizeIsSafe | batch_scenarios_xodr.py:61 | the result holds only allowed characters, so it has no `/` |
| LogName.SanitizeFixesSafe | batch_scenarios_xodr.py:61 | sanitising changes nothing exactly when every character is already allowed |
| LogName.SanitizeIdempotent | batch_scenarios_xodr.py:61 | sanitising twice is sanitising once |
| LogName.Join | batch_scenarios_xodr.py:63 | the result ends with the name and is the base followed by the name, with one `/` inserted when the base does not end in one |
| LogName.LogFileName | batch_scenarios_xodr.py:60-62 | the file name ends in `_recording.log`, has no `/`, and what precedes the suffix is the scenario name without its extension, sanitised character by character |
| LogName.ExpectedLogPath | batch_scenarios_xodr.py:60-63 | the path is the log file name inside the base directory, and the part of it just before `_recording.log` is the sanitised extension-less scenario name |
| LogName.SafeStemRecovered | batch_scenarios_xodr.py:60-62 | a root that uses only allowed characters is recovered from the log file name by dropping the suffix |
| SpawnValidation.FailureType | helper/validate_spawn_routes.py:86-93 | there is no failure exactly when both ends snapped, and otherwise `both`, `start` or `end` according to which ends failed |
| SpawnValidation.FailureTypeDetermines | helper/validate_spawn_routes.py:86-93 | the failure type tells exactly which ends snapped |
| SpawnValidation.StatusNamesDistinct | helper/validate_spawn_routes.py:339-397 | no two pair statuses share a name |
| SpawnValidation.Position | helper/validate_spawn_routes.py:322-323 | an id in range reads the spawn point at that index, and a negative id reads from the end as Python indexing does |
| SpawnValidation.ProcessPair | helper/validate_spawn_routes.py:311-401 | a pair that is not an object crashes the script; each status holds exactly under its own condition: `SKIPPED_PROCESSING_ERROR` for an object with a missing or out-of-range id or a raising snap; with both ends snapped, `VALID`, `INVALID_NO_ROUTE` or `INVALID_GRP_ERROR` by what the planner gives; otherwise `INVALID_SNAP_FAIL_START`, `_END` or `_BOTH` by which end failed to snap |
| SpawnValidation.ValidatePairs | helper/validate_spawn_routes.py:309-401 | each processed pair gets one detail in order with its index and status; valid + invalid == total; the valid count matches the details; the run stops early exactly when the limit is reached, the valid count never exceeds a positive limit, and no earlier prefix reached it; a crash happens at the first non-object pair, and only when no prefix before that pair brought the valid count to the limit |
| SpawnValidation.ReadShape | helper/validate_spawn_routes.py:276-307 | a scalar top level crashes; a bare list or a listed `sorted_spawn_point_distances` gives those pairs; the key holding a non-list is reported as such; anything else is an unexpected structure |
| SpawnValidation.FinishedBeforeNonObject | helper/validate_spawn_routes.py:384-388 | a run that finished over a list holding a non-object pair stopped early at the limit, before that pair |
| SpawnValidation.CrashExcludesFinish | helper/validate_spawn_routes.py:309-407 | the same pairs cannot both crash the loop and have it finish: an early stop means the later non-object pair is never read |
| SpawnValidation.FinishedRunUnique | helper/validate_spawn_routes.py:309-401 | two finished runs over the same pairs, spawn points and limit have the same summary and the same details |
| SpawnValidation.CountValidMatches | helper/validate_spawn_routes.py:339-341 | details carrying, in order, the statuses of the first pairs count as many valid routes as those pairs hold |
| SpawnValidation.MapNameRoundTrip | helper/validate_spawn_routes.py:131 | removing `_distances.json` from `<map>_distances.json` gives back `<map>` when the map name does not itself contain the suffix |
| SpawnValidation.ProcessFile | helper/validate_spawn_routes.py:129-407 | the report is the one `Handled` admits, in the source's order: an existing results file means nothing else happens; a map that is not loaded or has no spawn points writes nothing; a read or decode failure exactly logs an error; a non-list `sorted_spawn_point_distances` or an unexpected top-level structure writes the bad-format summary; a list whose pairs are all objects writes results whose details are the per-pair statuses, in order, with the counters and the early stop of the pair loop; a scalar file or a non-object pair crashes |
| SpawnValidation.HandledDetermined | helper/validate_spawn_routes.py:129-407 | handling one distance file admits exactly one report, so a crash and written results never both fit the same inputs |
| SpawnValidation.ValidateAll | helper/validate_spawn_routes.py:129-140 | files are handled in order, one report each, until the first crash, which ends the script; each report says "already done" exactly when its results file exists, and each report is the single report that handling that file alone admits |
| SpawnCleanup.Deduplicate | helper/cleanup_spawn_points.py:25-50 | the kept entries have distinct poses and number at most the complete entries; each is the lowest-id, earliest complete input entry for its pose; every complete entry's pose is kept |
| SpawnCleanup.InsertById | helper/cleanup_spawn_points.py:52 | inserting into an id-sorted list keeps it sorted, and the result is the old list's entries plus the new one, as a multiset |
| SpawnCleanup.InsertByIdAfterTies | helper/cleanup_spawn_points.py:52 | the new entry goes right after every entry whose id is no larger and before every larger one, so ties keep their order as in Python's stable sort |
| SpawnCleanup.InsertByIdDistinct | helper/cleanup_spawn_points.py:52 | inserting an entry with a new pose keeps poses distinct |
| SpawnCleanup.SortById | helper/cleanup_spawn_points.py:52 | the result is sorted by id and is a permutation of the input (same multiset) |
| SpawnCleanup.SortByIdDistinct | helper/cleanup_spawn_points.py:52 | sorting keeps poses distinct |
| SpawnCleanup.KeptFromComplete | helper/cleanup_spawn_points.py:29-38 | only complete entries are ever kept |
| SpawnCleanup.Clean | helper/cleanup_spawn_points.py:9-52 | a non-list file gives nothing; otherwise the result is sorted by id, one entry per pose of a complete input entry, each the unmodified lowest-id (earliest on a tie) entry for its pose, no longer than the complete entries |
| DistinctMaps.Find | helper/analyze_distinct_maps.py:21 | the result is the first position of the character at or after the start, or none when it does not occur there |
| DistinctMaps.IdentifierComplete | helper/analyze_distinct_maps.py:21-31 | every name of the form `p1_p2_p3[_tail].xosc`, with three non-empty underscore-free parts and a single-line tail, is given identifier `p1_p2_p3` |
| DistinctMaps.IdentifierSound | helper/analyze_distinct_maps.py:21-31 | every identifier found is `p1_p2_p3` for some such reading of the name |
| DistinctMaps.Classify | helper/analyze_distinct_maps.py:27-33 | names not ending in `.xosc` are ignored, and an identified name always has a reading whose first three parts form the identifier |
| DistinctMaps.Identifiers | helper/analyze_distinct_maps.py:27-31 | the set holds exactly the identifiers of the names in the listing |
| DistinctMaps.DistinctIdentifiers | helper/analyze_distinct_maps.py:17-35 | a missing directory gives the empty set; otherwise the set of identifiers of the listing |
| DistinctMaps.SortedNames | helper/analyze_distinct_maps.py:50 | the list is strictly increasing and has exactly the set's elements, so its length is the set's size |
| DistinctMaps.Analyze | helper/analyze_distinct_maps.py:49-55 | the report lists every distinct identifier once, in increasing order, and the count equals the list length |
| DistinctMaps.SharedPrefixOneMap | helper/analyze_distinct_maps.py:17-31 | two scenario files whose names share their first three parts count as one map |
| DistinctMaps.SameIdentifierOnce | helper/analyze_distinct_maps.py:17-31 | a repeated identifier appears in the set once |
| DistinctMaps.FourthPartDropped | helper/analyze_distinct_maps.py:8-21 | a name with a fourth part, such as `A_B_C_D.xosc`, gives the three-part identifier `A_B_C`, not the four parts the docstring describes |
| MapProcessing.ExpectedJsonName | helper/verify_map_processing.py:29-30 | the expected name always ends in `_spawn_points.json` and is never longer than the basename plus that suffix |
| MapProcessing.ExpectedNameOfPlainMap | helper/verify_map_processing.py:30 | for a map named `<stem>.xodr`, with no other `.xodr` in it, the expected file is `<stem>_spawn_points.json` |
| MapProcessing.Select | helper/verify_map_processing.py:28-37 | the selection holds only input elements with the wanted answer and is no longer than the input |
| MapProcessing.SelectPartition | helper/verify_map_processing.py:33-37 | the processed and missing selections together are a permutation of the input |
| MapProcessing.SelectSorted | helper/verify_map_processing.py:17-28 | selecting from a sorted list keeps it sorted |
| MapProcessing.Maps | helper/verify_map_processing.py:16 | exactly the listed names that end in `.xodr` and do not start with a dot are globbed |
| MapProcessing.Partition | helper/verify_map_processing.py:28-37 | the loop puts each map whose JSON file exists in the processed list and every other map in the missing list, in order |
| MapProcessing.VerifyProcessing | helper/verify_map_processing.py:11-67 | there is no summary exactly when mapInfo is absent; otherwise both lists keep the sorted order, each map is in exactly one, the counts equal the list lengths and add up to the number of maps |
| MapProcessing.ProcessedIffFound | helper/verify_map_processing.py:33-37 | a map is reported processed exactly when its JSON file exists, and missing exactly when it does not |
| Recorder.StartRecording | run_single_carla_100fps.py:25-32 | after a start the recorder is recording; one `start_recorder` call is added only when it was idle; earlier calls are kept and alternation is preserved |
| Recorder.StopRecording | run_single_carla_100fps.py:34-40 | after a stop the recorder is idle; one `stop_recorder` call is added only when it was recording; earlier calls are kept and alternation is preserved |
| Recorder.StartIdempotent | run_single_carla_100fps.py:26 | a second start changes nothing |
| Recorder.StopIdempotent | run_single_carla_100fps.py:35 | a second stop changes nothing |
| Recorder.OnKey | run_single_carla_100fps.py:161-166 | `r` or `R` flips the recording state, and any other key changes nothing |
| Recorder.RunLoop | run_single_carla_100fps.py:126-168 | the loop keeps the call sequence alternating, and an arrival leaves the recorder idle |
| Recorder.SessionBalanced | run_single_carla_100fps.py:115-177 | however the session ends, nothing is left recording and the calls alternate start, stop, start, stop and end with a stop |
| Recorder.AlternatingCounts | run_single_carla_100fps.py:25-40 | an alternating call sequence has as many starts as stops, plus one while recording |
| Recorder.OneStopPerStart | run_single_carla_100fps.py:131-137 | over a session, `stop_recorder` is called exactly as often as `start_recorder`, including when the arrival path stops before `finally` |
| Recorder.RecordOnlyOnce | run_single_carla_100fps.py:118-177 | with `--record` and no toggle key, the session makes exactly one start and one stop |

## Left out

- Simulator, agent and planner calls are oracle inputs:
  - `world.tick`, `get_location`, `BasicAgent`, waypoint snapping, `GlobalRoutePlanner`, `generate_opendrive_world`;
  - spectator placement;
  - the float coordinate and yaw conversion of `create_carla_transform`.
- File and JSON I/O:
  - reading, decoding and writing files, directory creation, globbing and printing;
  - a decoded file is a datatype input, and a save is a `Saved` event carrying the whole ledger.
- Timing and concurrency:
  - sleeps, the scenario_runner process that runs alongside, and the init wait;
  - the drive loop's clock readings are real-valued inputs;
  - `distance > 0.1` is compared squared, since CARLA computes it in floating point.
- utility.py is not part of this model. It covers simulator processes, killing and restarting. The validator calls `check_carla`, `is_carla_alive` and `restart_carla` with arguments that utility.py does not define under those names. The validator's server health check and map loading are therefore one "map loaded" oracle.
- The validator's `SERVER_CONNECT_FAIL` branch (helper/validate_spawn_routes.py:156) is not modelled: `carla_ok` is true and `client` is truthy there.
- `INVALID_SNAP_FAIL_UNKNOWN` is not modelled: whenever a waypoint is missing, `failure_type` is set.
- extract_log_data_standalone.py, helper/analyze_logic_files.py and helper/automatic_control_srunner.py are not part of this model. They are replay parsing, an XML wrapper and an agent loop with no decision logic of their own.
- The `run_single_carla_100fps.py` set-up before the recorder exists is not modelled. That covers connecting, loading the OpenDRIVE map and spawning. The recorder model starts where the `Recorder` is created.
- The validator's output directory is assumed to be given. With `output_results_dir=None`, `os.path.join` at helper/validate_spawn_routes.py:135 raises before any map is handled.
- RunnerBatch.RunnerMain: the scenario catalog arrives already decoded, as a JSON object. A catalog file that cannot be read or decoded ends the script at batch_scenario_srunner.py:153-157, before the ledger is loaded. A catalog that decodes to anything other than an object is not represented: `scenario_data.items()` raises at batch_scenario_srunner.py:169, after the ledger is loaded and before any scenario runs.
- DebugBatch.DebugMain: the scenario catalog arrives already decoded, as a JSON object. A missing or undecodable catalog exits with status 1 at batch_scenarios_xodr.py:42-47. A catalog that decodes to anything other than an object is not represented. For `null`, a number or a boolean, `len(...)` at batch_scenarios_xodr.py:40 raises a `TypeError` that the handlers at :42-47 do not catch, so the process ends with status 1. An empty list or string ends the run at :166-168 like an empty catalog. A non-empty list or string raises at `.keys()` at :170.
- Ledger.LoadForRunner: a ledger file that decodes to JSON other than an object is not represented. In the source, `null`, a number or a boolean makes `len(...)` raise at batch_scenario_srunner.py:160. A list or string passes the `in` test (a string as a substring test) and raises at the first assignment of a status.
- Ledger.LoadForDebug: the same holds for the debug runner. The raise is at batch_scenarios_xodr.py:176, or at the first assignment at :230.
- SpawnValidation.ProcessFile: bad-format results carry no details. The source writes one error-object detail, which the model does not represent.
- SpawnValidation.ProcessPair: ids are present or absent integers. An id that `int()` accepts from a string or float is not represented.
- SpawnCleanup.Clean: entries that are not objects, and non-integer ids, are not represented. An entry's pose is present or absent.
- SpawnCleanup.SortById: stability is stated one insertion at a time by `SpawnCleanup.InsertByIdAfterTies`. The sort inserts each entry after all earlier entries with an equal id. No single whole-list statement of stability is proved.
- DriveLoop.Drive: the `finally` calls `stop_recorder` and `apply_settings` are taken never to raise. An exception there would replace the call's own result, and the model does not represent it.
- RunnerBatch.AttemptScenario: a non-empty string as `acquire_position_actions` counts as a present destination. Its first character is truthy. What the drive then makes of that string is up to the drive oracle.
- ScriptStatus.Classify: the "no match anywhere" direction is stated by `ScriptStatus.UnknownIffNoMatch` and `ScriptStatus.FinalStatusIffMatch`, not in `Classify`'s own contract.
- MapProcessing.VerifyProcessing: globbing is over one flat listing of basenames. Sorting the full paths of one directory orders them as their basenames.
- DistinctMaps.Identifier: `[^_]` is modelled as matching newlines, and `.*` as not matching them, as in Python's `re` without flags.

=== FILE: common.dfy ===
/** Small helper datatypes shared by every module of the model. */
module Common {

  /** A value that may be absent: Python's `None` or a missing dictionary key. */
  datatype Option<+T> = None | Some(value: T)
}

=== FILE: debug_batch.dfy ===
/**
 The `main` loop of batch_scenarios_xodr.py: for every key of the catalog, in
 order, skip it unless it names an `.xosc` file without a ledger entry;
 otherwise restart the simulator and run the per-scenario debug script,
 record the classified status and save the ledger at once. A simulator that
 cannot be started ends the whole process with exit status 1.

 The simulator start and the debug-script run are oracles indexed by key.
 */
module DebugBatch {
  import opened Common
  import opened Ledger
  import opened Strings
  import Scheduler
  import ScriptStatus

  const ScenarioSuffix := ".xosc"

  datatype Env = Env(
    serverStarts: string -> bool,                    // the CARLA `Popen` did not raise
    run: string -> ScriptStatus.RunOutcome)          // what running the debug script on that key produced

  /** Keys the loop considers at all. */
  predicate IsScenarioKey(k: string) { EndsWith(k, ScenarioSuffix) }

  function Key(k: string): string { k }

  /** A failed simulator start aborts the batch; otherwise the script's output is classified. */
  function Outcome(env: Env): string -> Option<string> {
    k => if env.serverStarts(k) then Some(ScriptStatus.Classify(env.run(k))) else None
  }

  /** The skip/record loop from a loaded ledger; entries already in the ledger are kept as they are. */
  function Batch(keys: seq<string>, ledger: Outcomes, env: Env): (r: Scheduler.BatchEnd)
    ensures Extends(ledger, r.run.ledger)
  {
    Scheduler.Batch(keys, Key, IsScenarioKey, Outcome(env), ledger)
  }

  /**
   Every entry a run adds belongs to a catalog key ending in `.xosc` for
   which the simulator came up, and holds the classification of that key's
   script run.
   */
  lemma BatchStatuses(keys: seq<string>, ledger: Outcomes, env: Env)
    ensures var r := Batch(keys, ledger, env);
      forall k :: k in r.run.ledger && k !in ledger ==>
        && k in keys && IsScenarioKey(k) && env.serverStarts(k)
        && r.run.ledger[k] == ScriptStatus.Classify(env.run(k))
  {
    Scheduler.RecordsAttempted(keys, Key, IsScenarioKey, Outcome(env), ledger);
  }

  /** Keys that do not end in `.xosc` never gain an entry. */
  lemma OtherKeysUntouched(keys: seq<string>, ledger: Outcomes, env: Env, k: string)
    requires !IsScenarioKey(k)
    ensures k in Batch(keys, ledger, env).run.ledger <==> k in ledger
  {
    BatchStatuses(keys, ledger, env);
  }

  /**
   The batch stops only where the simulator could not be started, at a
   scenario key without an entry; that key stays without one.
   */
  lemma BatchStopsOnServerFailure(keys: seq<string>, ledger: Outcomes, env: Env)
    requires Batch(keys, ledger, env).Stopped?
    ensures var at := Batch(keys, ledger, env).at;
      at in keys && IsScenarioKey(at) && at !in ledger && !env.serverStarts(at) &&
      at !in Batch(keys, ledger, env).run.ledger
  {
    Scheduler.StopsAtFailedAttempt(keys, Key, IsScenarioKey, Outcome(env), ledger);
  }

  /** How `main` ended. */
  datatype MainEnd =
    | ScriptMissing                    // the debug script is not a file: exit 1 before anything else
    | NoScenarios                      // the catalog is empty: plain return
    | Ran(batch: Scheduler.BatchEnd)

  /** `main` after the catalog is read, with the outcome file as `file`. */
  function DebugMain(scriptExists: bool, keys: seq<string>, file: LedgerFile, env: Env): (r: MainEnd)
    ensures r.ScriptMissing? <==> !scriptExists
    ensures r.NoScenarios? <==> scriptExists && |keys| == 0
    ensures r.Ran? ==> Extends(LoadForDebug(file), r.batch.run.ledger)
    ensures r.Ran? && !file.Decoded? ==> forall k :: k in r.batch.run.ledger ==> k in keys && IsScenarioKey(k)
  {
    if !scriptExists then ScriptMissing
    else if |keys| == 0 then NoScenarios
    else
      BatchStatuses(keys, LoadForDebug(file), env);
      Ran(Batch(keys, LoadForDebug(file), env))
  }

  /** The process exit status: 1 for a missing script or an aborted batch, 0 otherwise. */
  function ExitStatus(m: MainEnd): (code: int)
    ensures code == 1 <==> m.ScriptMissing? || (m.Ran? && m.batch.Stopped?)
    ensures code == 0 || code == 1
  {
    match m
    case ScriptMissing => 1
    case NoScenarios => 0
    case Ran(b) => if b.Stopped? then 1 else 0
  }

  /**
   The exit status in terms of the inputs: 1 for a missing script; otherwise
   1 exactly when some `.xosc` key of the catalog without an entry in the
   loaded ledger could not get a simulator.
   */
  lemma ExitStatusOfMain(scriptExists: bool, keys: seq<string>, file: LedgerFile, env: Env)
    ensures !scriptExists ==> ExitStatus(DebugMain(scriptExists, keys, file, env)) == 1
    ensures scriptExists ==>
              (ExitStatus(DebugMain(scriptExists, keys, file, env)) == 1 <==>
                 exists k :: k in keys && IsScenarioKey(k) && k !in LoadForDebug(file) && !env.serverStarts(k))
  {
    if scriptExists && |keys| > 0 {
      var ledger := LoadForDebug(file);
      var b := Batch(keys, ledger, env);
      if b.Stopped? {
        BatchStopsOnServerFailure(keys, ledger, env);
      } else {
        FinishedMeansAllStarted(keys, ledger, env);
      }
      if forall k :: k in keys && IsScenarioKey(k) && k !in ledger ==> env.serverStarts(k) {
        forall i | 0 <= i < |keys| && Scheduler.Due(keys[i], Key, IsScenarioKey, ledger) ensures Outcome(env)(keys[i]).Some? {
          assert keys[i] in keys;
        }
        Scheduler.FinishesWithoutFailedAttempt(keys, Key, IsScenarioKey, Outcome(env), ledger);
      }
    }
  }

  /**
   A finished batch holds an entry for every `.xosc` key of the catalog, and
   every entry it added came from a simulator that started: so no key that
   was without an entry at the start failed to get one.
   */
  lemma FinishedMeansAllStarted(keys: seq<string>, ledger: Outcomes, env: Env)
    requires Batch(keys, ledger, env).Finished?
    ensures forall k :: k in keys && IsScenarioKey(k) && k !in ledger ==> env.serverStarts(k)
  {
    var r := Batch(keys, ledger, env);
    Scheduler.FinishedCoversCatalog(keys, Key, IsScenarioKey, Outcome(env), ledger);
    BatchStatuses(keys, ledger, env);
    forall k | k in keys && IsScenarioKey(k) && k !in ledger ensures env.serverStarts(k) {
      var i :| 0 <= i < |keys| && keys[i] == k;
      assert Key(keys[i]) in r.run.ledger;
    }
  }

  /**
   End to end: a single new scenario whose script prints `FINAL_STATUS: <st>`
   on its own line gets exactly `st` in the ledger.
   */
  lemma PrintedStatusLands(k: string, st: string, env: Env)
    requires IsScenarioKey(k) && env.serverStarts(k)
    requires |st| > 0 && !ScriptStatus.IsSpace(st[0]) && !ScriptStatus.IsSpace(st[|st| - 1]) && '\n' !in st
    requires env.run(k) == ScriptStatus.Completed(ScriptStatus.Tag + " " + st + "\n", 0)
    ensures Batch([k], map[], env).run.ledger == map[k := st]
  {
    assert Outcome(env)(k) == Some(st) by {
      ScriptStatus.PrintedStatusAlone(st, 0);
    }
    var keys := [k];
    assert keys[1..] == [];
    assert Scheduler.Batch(keys[1..], Key, IsScenarioKey, Outcome(env), map[k := st]).run.ledger == map[k := st];
  }
}

=== FILE: distinct_maps.dfy ===
/**
 helper/analyze_distinct_maps.py: the map identifier of a scenario file name
 is what the pattern `^([^_]+_[^_]+_[^_]+)(?:_.*)?\.xosc$` captures (the
 first three underscore-separated parts), and the report lists the distinct
 identifiers in sorted order with their count.
 */
module DistinctMaps {
  import opened Common
  import opened Strings

  const Suffix := ".xosc"

  /** The first position at or after `from` that holds `c`. */
  function Find(s: string, c: char, from: nat): (r: Option<nat>)
    requires from <= |s|
    ensures r.Some? ==> from <= r.value < |s| && s[r.value] == c && c !in s[from..r.value]
    ensures r.None? ==> c !in s[from..]
    decreases |s| - from
  {
    if from == |s| then None
    else if s[from] == c then Some(from)
    else
      var r := Find(s, c, from + 1);
      assert r.Some? ==> s[from..r.value] == [s[from]] + s[from + 1..r.value];
      assert s[from..] == [s[from]] + s[from + 1..];
      r
  }

  /** `Find` is determined by where the first `c` is. */
  lemma FindIs(s: string, c: char, from: nat, k: nat)
    requires from <= k < |s| && s[k] == c
    requires forall j :: from <= j < k ==> s[j] != c
    ensures Find(s, c, from) == Some(k)
  {
  }

  /** When the text from `from` on is `p`, a `c`, then more, and `p` has no `c`, the first `c` is right after `p`. */
  lemma FindAfterPart(s: string, c: char, from: nat, p: string, more: string)
    requires from <= |s| && s[from..] == p + [c] + more && c !in p
    ensures Find(s, c, from) == Some(from + |p|)
  {
    forall j | from <= j < from + |p| ensures s[j] != c {
      assert s[j] == s[from..][j - from] == p[j - from];
    }
    assert s[from + |p|] == s[from..][|p|];
    FindIs(s, c, from, from + |p|);
  }

  /**
   The capture of the pattern, for a name that ends in `.xosc`: the first
   two parts run up to the first two underscores and must be non-empty; the
   third runs to the next underscore, after which `.*` must not cross a
   newline, or, when there is no further underscore, up to the suffix.
   */
  function Identifier(s: string): (r: Option<string>)
    requires EndsWith(s, Suffix)
  {
    match Find(s, '_', 0)
    case None => None
    case Some(u1) =>
      if u1 == 0 then None
      else match Find(s, '_', u1 + 1)
        case None => None
        case Some(u2) => if u2 == u1 + 1 then None else ThirdPart(s, u2)
  }

  /** No underscore is part of the suffix. */
  lemma SuffixHasNoSeparator(s: string)
    requires EndsWith(s, Suffix)
    ensures forall i :: |s| - |Suffix| <= i < |s| ==> s[i] != '_'
  {
    forall i | |s| - |Suffix| <= i < |s| ensures s[i] != '_' {
      assert s[i] == s[|s| - |Suffix|..][i - (|s| - |Suffix|)];
    }
  }

  /** The capture once the second underscore is at `u2`. */
  function ThirdPart(s: string, u2: nat): (r: Option<string>)
    requires EndsWith(s, Suffix) && u2 < |s| && s[u2] == '_'
  {
    SuffixHasNoSeparator(s);
    match Find(s, '_', u2 + 1)
    case Some(u3) =>
      if u3 == u2 + 1 || '\n' in s[u3 + 1..|s| - |Suffix|] then None else Some(s[..u3])
    case None =>
      if |s| - |Suffix| <= u2 + 1 then None else Some(s[..|s| - |Suffix|])
  }

  /**
   The pattern's own reading of a name: three non-empty parts without
   underscores joined by underscores, then either nothing or an underscore
   followed by anything but a newline, then the suffix.
   */
  predicate Decomposes(s: string, p1: string, p2: string, p3: string, tail: string) {
    && s == p1 + "_" + (p2 + "_" + (p3 + tail + Suffix))
    && |p1| > 0 && |p2| > 0 && |p3| > 0
    && '_' !in p1 && '_' !in p2 && '_' !in p3
    && (tail == [] || (tail[0] == '_' && '\n' !in tail[1..]))
  }

  /** The first two underscores of `p1_p2_rest`, when `p1` and `p2` have none, are the ones after `p1` and `p2`. */
  lemma FirstTwoSeparators(s: string, p1: string, p2: string, rest: string)
    requires s == p1 + "_" + (p2 + "_" + rest) && '_' !in p1 && '_' !in p2
    ensures Find(s, '_', 0) == Some(|p1|)
    ensures Find(s, '_', |p1| + 1) == Some(|p1| + 1 + |p2|)
    ensures s[|p1| + 1 + |p2| + 1..] == rest
  {
    FirstSeparator(s, p1, p2 + "_" + rest);
    SecondSeparator(s, p1, p2, rest);
  }

  lemma FirstSeparator(s: string, p1: string, t2: string)
    requires s == p1 + "_" + t2 && '_' !in p1
    ensures Find(s, '_', 0) == Some(|p1|)
  {
    assert s[0..] == p1 + ['_'] + t2;
    FindAfterPart(s, '_', 0, p1, t2);
  }

  lemma SecondSeparator(s: string, p1: string, p2: string, rest: string)
    requires s == p1 + "_" + (p2 + "_" + rest) && '_' !in p2
    ensures Find(s, '_', |p1| + 1) == Some(|p1| + 1 + |p2|)
  {
    assert s[|p1| + 1..] == p2 + ['_'] + rest;
    FindAfterPart(s, '_', |p1| + 1, p2, rest);
  }

  /** Once the first two underscores are known and both parts are non-empty, the capture is decided after the second. */
  lemma IdentifierFromSeparators(s: string, u1: nat, u2: nat)
    requires EndsWith(s, Suffix) && 0 < u1 && u1 + 1 < u2
    requires Find(s, '_', 0) == Some(u1) && Find(s, '_', u1 + 1) == Some(u2)
    ensures Identifier(s) == ThirdPart(s, u2)
  {
  }

  /** How a reading lays out the name: the identifier first, then the tail, then the suffix. */
  lemma Layout(s: string, p1: string, p2: string, p3: string, tail: string)
    requires Decomposes(s, p1, p2, p3, tail)
    ensures EndsWith(s, Suffix)
    ensures s[..|p1| + 1 + |p2| + 1 + |p3|] == p1 + "_" + p2 + "_" + p3
    ensures ThirdShape(p3 + tail + Suffix, p3, tail)
  {
    var id := p1 + "_" + p2 + "_" + p3;
    assert s == id + (tail + Suffix);
    assert s[|s| - |Suffix|..] == Suffix;
  }

  /** Every name the pattern reads as parts is given the identifier made of those parts. */
  lemma IdentifierComplete(s: string, p1: string, p2: string, p3: string, tail: string)
    requires Decomposes(s, p1, p2, p3, tail)
    ensures EndsWith(s, Suffix)
    ensures Identifier(s) == Some(p1 + "_" + p2 + "_" + p3)
  {
    Layout(s, p1, p2, p3, tail);
    LeadingParts(s, p1, p2, p3, tail);
  }

  /** The first two parts fix the second underscore, after which the capture is decided by the rest. */
  lemma LeadingParts(s: string, p1: string, p2: string, p3: string, tail: string)
    requires s == p1 + "_" + (p2 + "_" + (p3 + tail + Suffix)) && EndsWith(s, Suffix)
    requires |p1| > 0 && |p2| > 0 && '_' !in p1 && '_' !in p2
    requires ThirdShape(p3 + tail + Suffix, p3, tail)
    ensures Identifier(s) == Some(s[..|p1| + 1 + |p2| + 1 + |p3|])
  {
    var u2 := |p1| + 1 + |p2|;
    FirstTwoSeparators(s, p1, p2, p3 + tail + Suffix);
    IdentifierFromSeparators(s, |p1|, u2);
    ThirdOfShape(s, u2, p3, tail);
  }

  /** After the second underscore, a third part and a tail give the capture ending with the third part. */
  lemma ThirdOfShape(s: string, u2: nat, p3: string, tail: string)
    requires EndsWith(s, Suffix) && u2 < |s| && s[u2] == '_'
    requires ThirdShape(s[u2 + 1..], p3, tail)
    ensures ThirdPart(s, u2) == Some(s[..u2 + 1 + |p3|])
  {
    if tail == [] {
      assert p3 + tail + Suffix == p3 + Suffix;
      ThirdNoTail(s, u2, p3);
    } else {
      ThirdWithTail(s, u2, p3, tail);
    }
  }

  /** With no tail, the third part runs up to the suffix. */
  lemma ThirdNoTail(s: string, u2: nat, p3: string)
    requires EndsWith(s, Suffix) && u2 < |s| && s[u2] == '_'
    requires s[u2 + 1..] == p3 + Suffix && |p3| > 0 && '_' !in p3
    ensures ThirdPart(s, u2) == Some(s[..u2 + 1 + |p3|])
  {
    ThirdPartLast(s, u2 + 1, p3);
  }

  /** With a tail, the third part runs up to the tail's underscore. */
  lemma ThirdWithTail(s: string, u2: nat, p3: string, tail: string)
    requires EndsWith(s, Suffix) && u2 < |s| && s[u2] == '_'
    requires s[u2 + 1..] == p3 + tail + Suffix && |p3| > 0 && '_' !in p3
    requires |tail| > 0 && tail[0] == '_' && '\n' !in tail[1..]
    ensures ThirdPart(s, u2) == Some(s[..u2 + 1 + |p3|])
  {
    var e := u2 + 1 + |p3|;
    assert s[u2 + 1..] == p3 + ['_'] + (tail[1..] + Suffix);
    FindAfterPart(s, '_', u2 + 1, p3, tail[1..] + Suffix);
    assert s[e + 1..] == tail[1..] + Suffix;
    assert s[e + 1..|s| - |Suffix|] == tail[1..];
  }

  /** With no tail, no underscore follows the second separator. */
  lemma ThirdPartLast(s: string, start: nat, p3: string)
    requires start <= |s| && s[start..] == p3 + Suffix && '_' !in p3
    ensures Find(s, '_', start).None?
  {
    assert '_' !in s[start..] by {
      forall i | 0 <= i < |s[start..]| ensures s[start..][i] != '_' {
        if i < |p3| { assert s[start..][i] == p3[i]; } else { assert s[start..][i] == Suffix[i - |p3|]; }
      }
    }
  }

  /** The third part and the tail that the capture after the second underscore at `u2` implies. */
  function ThirdSplit(s: string, u2: nat): (string, string)
    requires EndsWith(s, Suffix) && u2 < |s| && s[u2] == '_'
  {
    SuffixHasNoSeparator(s);
    var n := |s| - |Suffix|;
    match Find(s, '_', u2 + 1)
    case Some(u3) => (s[u2 + 1..u3], s[u3..n])
    case None => (s[u2 + 1..n], [])
  }

  /** The text after the second underscore is the third part, the tail and the suffix. */
  predicate ThirdShape(rest: string, p3: string, tail: string) {
    && rest == p3 + tail + Suffix
    && |p3| > 0 && '_' !in p3
    && (tail == [] || (tail[0] == '_' && '\n' !in tail[1..]))
  }

  lemma ThirdPartSound(s: string, u2: nat)
    requires EndsWith(s, Suffix) && u2 < |s| && s[u2] == '_' && ThirdPart(s, u2).Some?
    ensures ThirdShape(s[u2 + 1..], ThirdSplit(s, u2).0, ThirdSplit(s, u2).1)
    ensures ThirdPart(s, u2).value == s[..u2 + 1] + ThirdSplit(s, u2).0
  {
    SuffixHasNoSeparator(s);
    var n := |s| - |Suffix|;
    assert s[n..] == Suffix;
    var (p3, tail) := ThirdSplit(s, u2);
    match Find(s, '_', u2 + 1)
    case Some(u3) =>
      assert s[u2 + 1..] == p3 + tail + Suffix;
      assert tail[1..] == s[u3 + 1..n];
      assert s[..u3] == s[..u2 + 1] + p3;
    case None =>
      assert '_' !in p3 by {
        forall i | 0 <= i < |p3| ensures p3[i] != '_' {
          assert p3[i] == s[u2 + 1..][i];
        }
      }
      assert s[u2 + 1..] == p3 + tail + Suffix;
      assert s[..n] == s[..u2 + 1] + p3;
  }

  /** Two underscore-free non-empty parts, each followed by an underscore, then a third-part shape, make a reading. */
  lemma PartsDecompose(s: string, u1: nat, u2: nat, p3: string, tail: string)
    requires 0 < u1 && u1 + 1 < u2 < |s| && s[u1] == '_' && s[u2] == '_'
    requires '_' !in s[0..u1] && '_' !in s[u1 + 1..u2]
    requires ThirdShape(s[u2 + 1..], p3, tail)
    ensures Decomposes(s, s[..u1], s[u1 + 1..u2], p3, tail)
    ensures s[..u2 + 1] + p3 == s[..u1] + "_" + s[u1 + 1..u2] + "_" + p3
  {
    var p1, p2 := s[..u1], s[u1 + 1..u2];
    assert s[..u1] == s[0..u1];
    assert s[..u2 + 1] == p1 + "_" + p2 + "_";
    assert s == s[..u2 + 1] + s[u2 + 1..];
  }

  /** Every identifier is the pattern's capture for some reading of the name. */
  lemma IdentifierSound(s: string)
    requires EndsWith(s, Suffix) && Identifier(s).Some?
    ensures exists p1, p2, p3, tail :: Decomposes(s, p1, p2, p3, tail) && Identifier(s).value == p1 + "_" + p2 + "_" + p3
  {
    var u1 := Find(s, '_', 0).value;
    var u2 := Find(s, '_', u1 + 1).value;
    assert Identifier(s) == ThirdPart(s, u2);
    ThirdPartSound(s, u2);
    var (p3, tail) := ThirdSplit(s, u2);
    PartsDecompose(s, u1, u2, p3, tail);
    var p1, p2 := s[..u1], s[u1 + 1..u2];
    assert Decomposes(s, p1, p2, p3, tail) && Identifier(s).value == p1 + "_" + p2 + "_" + p3;
  }

  /** What the loop does with one directory entry. */
  datatype Verdict = NotScenario | Unmatched | Identified(id: string)

  /** Names not ending in `.xosc` are ignored; the others either give an identifier or are skipped with a warning. */
  function Classify(name: string): (v: Verdict)
    ensures v.NotScenario? <==> !EndsWith(name, Suffix)
    ensures v.Identified? ==> exists p1, p2, p3, tail :: Decomposes(name, p1, p2, p3, tail) && v.id == p1 + "_" + p2 + "_" + p3
  {
    if !EndsWith(name, Suffix) then NotScenario
    else match Identifier(name)
      case None => Unmatched
      case Some(id) => IdentifierSound(name); Identified(id)
  }

  /** The identifiers of a listing, as the set the loop fills. */
  function Identifiers(names: seq<string>): (ids: set<string>)
    ensures forall x :: x in ids <==> exists i :: 0 <= i < |names| && Classify(names[i]) == Identified(x)
  {
    if |names| == 0 then {}
    else
      var rest := Identifiers(names[..|names| - 1]);
      assert forall i :: 0 <= i < |names| - 1 ==> names[..|names| - 1][i] == names[i];
      match Classify(names[|names| - 1])
      case Identified(id) => rest + {id}
      case _ => rest
  }

  /** `extract_distinct_map_identifiers`: a missing directory gives the empty set. */
  function DistinctIdentifiers(dirExists: bool, names: seq<string>): (ids: set<string>)
    ensures !dirExists ==> ids == {}
    ensures forall x :: x in ids <==> dirExists && exists i :: 0 <= i < |names| && Classify(names[i]) == Identified(x)
  {
    if dirExists then Identifiers(names) else {}
  }

  /** The JSON report: `total_distinct_maps` and `distinct_map_names`. */
  datatype Report = Report(total: nat, names: seq<string>)

  /** `sorted(list(ids))`: every identifier once, in increasing order. */
  method SortedNames(ids: set<string>) returns (sorted: seq<string>)
    ensures StrictlySorted(sorted)
    ensures Elems(sorted) == ids
    ensures |sorted| == |ids|
  {
    sorted := [];
    var rest := ids;
    while rest != {}
      invariant StrictlySorted(sorted)
      invariant Elems(sorted) + rest == ids
      invariant Elems(sorted) !! rest
      decreases |rest|
    {
      var x :| x in rest;
      sorted := InsertUnique(x, sorted);
      rest := rest - {x};
    }
    StrictlySortedCard(sorted);
  }

  /** `main` without the file write: the identifiers sorted, each once, and their count. */
  method Analyze(dirExists: bool, names: seq<string>) returns (r: Report)
    ensures StrictlySorted(r.names)
    ensures Elems(r.names) == DistinctIdentifiers(dirExists, names)
    ensures r.total == |r.names| == |DistinctIdentifiers(dirExists, names)|
  {
    var sorted := SortedNames(DistinctIdentifiers(dirExists, names));
    r := Report(|sorted|, sorted);
  }

  /** Two files whose names share the first three parts count as one map. */
  lemma SharedPrefixOneMap(a: string, b: string, p1: string, p2: string, p3: string, tail1: string, tail2: string)
    requires Decomposes(a, p1, p2, p3, tail1) && Decomposes(b, p1, p2, p3, tail2)
    ensures DistinctIdentifiers(true, [a, b]) == {p1 + "_" + p2 + "_" + p3}
  {
    var id := p1 + "_" + p2 + "_" + p3;
    IdentifierComplete(a, p1, p2, p3, tail1);
    IdentifierComplete(b, p1, p2, p3, tail2);
    SameIdentifierOnce(a, b, id);
  }

  lemma SameIdentifierOnce(a: string, b: string, id: string)
    requires Classify(a) == Identified(id) && Classify(b) == Identified(id)
    ensures Identifiers([a, b]) == {id}
  {
    assert [a, b][..1] == [a] && [a][..0] == [];
    assert Identifiers([a]) == {id};
  }

  /** The identifier keeps three parts even when the name has a fourth before the suffix: `A_B_C_D.xosc` is map `A_B_C`. */
  lemma FourthPartDropped(p1: string, p2: string, p3: string, p4: string)
    requires |p1| > 0 && |p2| > 0 && |p3| > 0
    requires '_' !in p1 && '_' !in p2 && '_' !in p3 && '\n' !in p4
    ensures Classify(p1 + "_" + (p2 + "_" + (p3 + ("_" + p4) + Suffix))) == Identified(p1 + "_" + p2 + "_" + p3)
  {
    var tail := "_" + p4;
    assert tail[1..] == p4;
    IdentifierComplete(p1 + "_" + (p2 + "_" + (p3 + tail + Suffix)), p1, p2, p3, tail);
  }
}

=== FILE: drive_loop.dfy ===
/**
 The per-tick control loop of `drive_scenario_with_agent` in
 batch_scenario_srunner.py: connect, find the ego vehicle, optionally start
 the recorder, then tick until the vehicle falls through the map, gets stuck,
 reaches its destination or the 180-second ceiling passes; and the `finally`
 block that stops the recorder and restores the captured world settings.

 Wall-clock readings, vehicle locations and the agent's `done()` answer are
 observations supplied by the caller. Distances are compared squared, so
 `distance > 0.1` becomes `DistSq > 0.01`.
 */
module DriveLoop {
  import opened Common

  /** Movement (in simulator length units) above which the stuck timer restarts. */
  const StuckDistance: real := 0.1
  /** Seconds without movement after which the vehicle counts as stuck. */
  const StuckSeconds: real := 2.0
  /** Hard ceiling on the loop's wall-clock duration, in seconds. */
  const MaxDuration: real := 180.0

  datatype Location = Location(x: real, y: real, z: real)

  function DistSq(a: Location, b: Location): real {
    (a.x - b.x) * (a.x - b.x) + (a.y - b.y) * (a.y - b.y) + (a.z - b.z) * (a.z - b.z)
  }

  /** `a.distance(b) > 0.1`, stated without the square root. */
  predicate MovedBeyond(a: Location, b: Location) {
    DistSq(a, b) > StuckDistance * StuckDistance
  }

  /** The stuck detector's memory: nothing yet, or a reference location and the time it was taken. */
  datatype Detector = Fresh | Tracking(reference: Location, since: real)

  /** What one iteration observes after `world.tick()`: the ego location, the clock read by the stuck detector, and `agent.done()`. */
  datatype Observation = Observation(location: Location, now: real, done: bool)

  /** One loop iteration: the clock read by the `while` condition, then the tick's observation, or `None` when the tick or a read raised. */
  datatype Tick = Tick(clock: real, observation: Option<Observation>)

  datatype Exit = Fallen | Stuck | Reached | TimedOut

  datatype StepResult = Continue(next: Detector) | Stop(reason: Exit)

  /**
   One pass through the body of the `while` loop after the tick: the fallen
   check, then the stuck detector, then `agent.done()`. `Continue` is the
   path on which control is applied to the vehicle.
   */
  function Step(d: Detector, o: Observation): (r: StepResult)
    ensures r == Stop(Fallen) <==> o.location.z < 0.0
    ensures r == Stop(Stuck) <==>
              && o.location.z >= 0.0 && d.Tracking?
              && !MovedBeyond(o.location, d.reference) && o.now - d.since > StuckSeconds
    ensures r == Stop(Reached) <==>
              && o.location.z >= 0.0 && o.done
              && !(d.Tracking? && !MovedBeyond(o.location, d.reference) && o.now - d.since > StuckSeconds)
    ensures r.Continue? ==> !o.done && o.location.z >= 0.0
    ensures d.Fresh? && o.location.z >= 0.0 && !o.done ==> r == Continue(Tracking(o.location, o.now))
    ensures d.Tracking? && o.location.z >= 0.0 && MovedBeyond(o.location, d.reference) && !o.done ==>
              r == Continue(Tracking(o.location, o.now))
    ensures r.Continue? && d.Tracking? && !MovedBeyond(o.location, d.reference) ==> r.next == d
  {
    if o.location.z < 0.0 then Stop(Fallen)
    else
      var reset := d.Fresh? || MovedBeyond(o.location, d.reference);
      if !reset && o.now - d.since > StuckSeconds then Stop(Stuck)
      else if o.done then Stop(Reached)
      else Continue(if reset then Tracking(o.location, o.now) else d)
  }

  /** The trace reaches an iteration that must end the loop: the ceiling has passed, or the tick raised. */
  predicate Ends(start: real, ticks: seq<Tick>) {
    exists i :: 0 <= i < |ticks| && (ticks[i].clock - start >= MaxDuration || ticks[i].observation.None?)
  }

  datatype LoopEnd = Exited(reason: Exit) | LoopRaised

  /** The `while time.time() - start_time < max_duration` loop, fed one tick at a time. */
  function Loop(start: real, d: Detector, ticks: seq<Tick>): (r: LoopEnd)
    requires Ends(start, ticks)
    ensures r == Exited(TimedOut) ==> exists i :: 0 <= i < |ticks| && ticks[i].clock - start >= MaxDuration
    decreases |ticks|
  {
    var t := ticks[0];
    if !(t.clock - start < MaxDuration) then Exited(TimedOut)
    else if t.observation.None? then LoopRaised
    else match Step(d, t.observation.value)
      case Stop(reason) => Exited(reason)
      case Continue(d') =>
        assert Ends(start, ticks[1..]) by {
          var i :| 0 <= i < |ticks| && (ticks[i].clock - start >= MaxDuration || ticks[i].observation.None?);
          assert i > 0;
          assert ticks[1..][i - 1] == ticks[i];
        }
        var r := Loop(start, d', ticks[1..]);
        assert r == Exited(TimedOut) ==> exists i :: 0 <= i < |ticks| && ticks[i].clock - start >= MaxDuration by {
          if r == Exited(TimedOut) {
            var i :| 0 <= i < |ticks[1..]| && ticks[1..][i].clock - start >= MaxDuration;
            assert ticks[i + 1].clock - start >= MaxDuration;
          }
        }
        r
  }

  /** An iteration that sees no reason to stop: before the ceiling, a successful tick, on the ground, and not at the destination. */
  predicate Quiet(start: real, t: Tick) {
    && t.clock - start < MaxDuration
    && t.observation.Some?
    && t.observation.value.location.z >= 0.0
    && !t.observation.value.done
  }

  /** Tick `t` saw the vehicle more than 0.1 away from where tick `prev` saw it. */
  predicate MovedSince(t: Tick, prev: Tick) {
    t.observation.Some? && prev.observation.Some? &&
    MovedBeyond(t.observation.value.location, prev.observation.value.location)
  }

  /** Tick `t` saw the vehicle within 0.1 of `reference`. */
  predicate StillNear(t: Tick, reference: Location) {
    t.observation.Some? && !MovedBeyond(t.observation.value.location, reference)
  }

  /** Tick `t`'s detector clock is more than 2 s after `since`. */
  predicate OverdueAt(t: Tick, since: real) {
    t.observation.Some? && t.observation.value.now - since > StuckSeconds
  }

  /**
   The ceiling is honoured: when every iteration before the first one at or
   past 180 s sees no reason to stop and the vehicle keeps moving more than
   0.1 between ticks, the loop ends `TimedOut` at that iteration.
   */
  lemma {:induction false} CeilingEnforced(start: real, d: Detector, ticks: seq<Tick>, k: nat)
    requires k < |ticks| && ticks[k].clock - start >= MaxDuration
    requires forall i :: 0 <= i < k ==> Quiet(start, ticks[i])
    requires forall i :: 0 < i < k ==> MovedSince(ticks[i], ticks[i - 1])
    requires k > 0 && d.Tracking? ==> !StillNear(ticks[0], d.reference)
    ensures Ends(start, ticks)
    ensures Loop(start, d, ticks) == Exited(TimedOut)
    decreases k
  {
    if k > 0 {
      var o := ticks[0].observation.value;
      assert Quiet(start, ticks[0]);
      assert Step(d, o) == Continue(Tracking(o.location, o.now));
      var tail := ticks[1..];
      forall i | 0 <= i < k - 1
        ensures Quiet(start, tail[i])
      {
        assert tail[i] == ticks[i + 1];
      }
      forall i | 0 < i < k - 1
        ensures MovedSince(tail[i], tail[i - 1])
      {
        assert tail[i] == ticks[i + 1] && tail[i - 1] == ticks[i];
      }
      if k > 1 {
        assert MovedSince(ticks[1], ticks[0]);
      }
      CeilingEnforced(start, Tracking(o.location, o.now), tail, k - 1);
    }
  }

  /**
   Stuck-detector correctness: once tracking a reference, a vehicle that stays
   within 0.1 of it (on the ground, not at its destination, before the
   ceiling) ends the loop as `Stuck` as soon as a reading is more than 2 s
   after the reference time.
   */
  lemma {:induction false} StuckFires(start: real, reference: Location, since: real, ticks: seq<Tick>, k: nat)
    requires k < |ticks|
    requires forall i :: 0 <= i <= k ==> Quiet(start, ticks[i])
    requires forall i :: 0 <= i <= k ==> StillNear(ticks[i], reference)
    requires OverdueAt(ticks[k], since)
    requires Ends(start, ticks)
    ensures Loop(start, Tracking(reference, since), ticks) == Exited(Stuck)
    decreases k
  {
    var o := ticks[0].observation.value;
    if o.now - since <= StuckSeconds {
      assert k > 0;
      assert Step(Tracking(reference, since), o) == Continue(Tracking(reference, since));
      assert Ends(start, ticks[1..]) by {
        var i :| 0 <= i < |ticks| && (ticks[i].clock - start >= MaxDuration || ticks[i].observation.None?);
        assert i > 0 by { assert Quiet(start, ticks[0]); }
        assert ticks[1..][i - 1] == ticks[i];
      }
      forall i | 0 <= i <= k - 1
        ensures Quiet(start, ticks[1..][i]) && StillNear(ticks[1..][i], reference)
      {
        assert ticks[1..][i] == ticks[i + 1];
      }
      StuckFires(start, reference, since, ticks[1..], k - 1);
    }
  }

  // ---------------------------------------------------------------------
  // The whole call: connection, setup, loop, and the `finally` cleanup.

  /** World settings as the session sees them: synchronous mode and the fixed tick length. */
  datatype Settings = Settings(synchronous: bool, fixedDelta: Option<real>)

  /** How far connecting got: the step that raised, or `Connected` with the original settings captured. */
  datatype Connection = ClientFailed | WorldFailed | SettingsFailed | Connected

  /**
   After connecting: `ApplyRaised` when `apply_settings` for synchronous mode
   raised, leaving the settings as they were; `SetupRaised` when, after it, the
   search for the ego vehicle (a `RuntimeError` when it never appears) or the
   agent's setup raised; `Ready` when the loop is entered.
   */
  datatype Setup = ApplyRaised | SetupRaised | Ready

  datatype Session = Session(
    initial: Settings,          // the world's settings before the call
    fps: real,                  // `args.fps`
    connection: Connection,
    setup: Setup,
    recordPath: Option<string>, // `record_file_path`
    start: real,                // `start_time`
    ticks: seq<Tick>)

  /** Whether `drive_scenario_with_agent` returned (and through which exit) or raised. */
  datatype DriveResult = Raised | Returned(reason: Exit)

  datatype DriveReport = DriveReport(
    result: DriveResult,
    recorderStarted: bool,  // `client.start_recorder` was called
    recorderStops: nat,     // calls of `client.stop_recorder`
    finalSettings: Settings)

  /** A session that reaches the loop brings a trace on which the loop ends. */
  predicate Completes(s: Session) {
    s.connection.Connected? && s.setup.Ready? ==> Ends(s.start, s.ticks)
  }

  /** Connecting and setting up succeeded, so the `while` loop is entered. */
  predicate Entered(s: Session) {
    s.connection.Connected? && s.setup.Ready? && s.fps != 0.0
  }

  /** `if record_file_path:` — a missing path and the empty path are both falsy. */
  predicate Recording(s: Session) {
    s.recordPath.Some? && |s.recordPath.value| > 0
  }

  /**
   Settings in force when the `finally` block starts: synchronous mode at
   `fps` once the call's own `apply_settings` took effect, which needs the
   settings captured and a non-zero `fps` (`1.0 / 0` raises first).
   */
  function SettingsBeforeCleanup(s: Session): (st: Settings)
    ensures st != s.initial ==> s.connection.Connected?
  {
    if s.connection.Connected? && s.fps != 0.0 && !s.setup.ApplyRaised? then Settings(true, Some(1.0 / s.fps))
    else s.initial
  }

  /**
   `drive_scenario_with_agent`. The cleanup guarantee: on every path (the
   cleanup calls themselves never raise here) the world ends with the
   settings it had before, and a recording that was started is stopped
   exactly once. A zero `fps` raises `ZeroDivisionError` while setting up.
   */
  function Drive(s: Session): (r: DriveReport)
    requires Completes(s)
    ensures r.finalSettings == s.initial
    ensures r.recorderStarted ==> r.recorderStops == 1
    ensures r.recorderStops <= 1
    ensures r.recorderStarted <==> Entered(s) && Recording(s)
    ensures r.recorderStops == 1 <==> !s.connection.ClientFailed? && Recording(s)
    ensures !Entered(s) ==> r.result == Raised
    ensures Entered(s) ==> (r.result.Returned? <==> Loop(s.start, Fresh, s.ticks).Exited?)
    ensures Entered(s) && r.result.Returned? ==> r.result.reason == Loop(s.start, Fresh, s.ticks).reason
    ensures r.result == Returned(TimedOut) ==>
              exists i :: 0 <= i < |s.ticks| && s.ticks[i].clock - s.start >= MaxDuration
  {
    var result :=
      if !Entered(s) then Raised
      else match Loop(s.start, Fresh, s.ticks)
        case Exited(reason) => Returned(reason)
        case LoopRaised => Raised;
    var started := Entered(s) && Recording(s);
    // finally: the recorder is stopped whenever a client exists and a non-empty path was
    // given, and the captured settings are applied back when they were captured.
    var stops := if !s.connection.ClientFailed? && Recording(s) then 1 else 0;
    var final := if s.connection.Connected? then s.initial else SettingsBeforeCleanup(s);
    DriveReport(result, started, stops, final)
  }

  /**
   The `finally` block calls `stop_recorder` whenever a client exists and a
   record path was given, even when the recorder was never started: here
   `get_world` raised before anything was recorded.
   */
  lemma StopWithoutStart(initial: Settings)
    ensures var r := Drive(Session(initial, 100.0, WorldFailed, Ready, Some("A.log"), 0.0, []));
      !r.recorderStarted && r.recorderStops == 1 && r.result == Raised
  {
  }
}

=== FILE: ledger.dfy ===
/**
 The resumable outcome ledger shared by both batch runners: a map from
 scenario filename to status string, loaded once at start-up and written back
 in full after every new entry.
 */
module Ledger {

  type Outcomes = map<string, string>

  /** What opening and decoding the outcome file produced. */
  datatype LedgerFile =
    | Absent                    // `os.path.exists` is false
    | ReadFailed                // `open` or `read` raised an `IOError`
    | DecodeFailed              // `json.load` raised `JSONDecodeError`
    | OtherFailure              // any other exception while loading
    | Decoded(entries: Outcomes)

  datatype Loaded = Loaded(outcomes: Outcomes) | LoadRaised

  /**
   `load_outcomes` of batch_scenario_srunner.py: an absent, unreadable or
   undecodable file gives an empty ledger; only an exception outside
   `IOError` and `JSONDecodeError` escapes.
   */
  function LoadForRunner(f: LedgerFile): (r: Loaded)
    ensures r.LoadRaised? <==> f.OtherFailure?
    ensures r.Loaded? && f.Decoded? ==> r.outcomes == f.entries
    ensures r.Loaded? && !f.Decoded? ==> r.outcomes == map[]
  {
    match f
    case Decoded(entries) => Loaded(entries)
    case OtherFailure => LoadRaised
    case _ => Loaded(map[])
  }

  /** `load_outcomes` of batch_scenarios_xodr.py: every failure gives an empty ledger. */
  function LoadForDebug(f: LedgerFile): (r: Outcomes)
    ensures f.Decoded? ==> r == f.entries
    ensures !f.Decoded? ==> r == map[]
  {
    if f.Decoded? then f.entries else map[]
  }

  /** The two loaders agree wherever the runner's loader does not raise. */
  lemma LoadersAgree(f: LedgerFile)
    ensures LoadForRunner(f).Loaded? ==> LoadForRunner(f).outcomes == LoadForDebug(f)
    ensures LoadForRunner(f).LoadRaised? ==> LoadForDebug(f) == map[]
  {
  }

  /** Something a batch run did, in order: skipped a key, set an entry, or wrote the whole ledger to disk. */
  datatype Event = Skipped(key: string) | Recorded(key: string, status: string) | Saved(snapshot: Outcomes)

  /** Every `Recorded` event is immediately followed by a save of a ledger that holds it. */
  predicate SavedImmediately(trace: seq<Event>) {
    forall i :: 0 <= i < |trace| && trace[i].Recorded? ==>
      i + 1 < |trace| && trace[i + 1].Saved? &&
      trace[i].key in trace[i + 1].snapshot && trace[i + 1].snapshot[trace[i].key] == trace[i].status
  }

  /** The keys that received an entry during a run, in order. */
  function RecordedKeys(trace: seq<Event>): (ks: seq<string>)
    ensures |ks| <= |trace|
  {
    if |trace| == 0 then []
    else (if trace[0].Recorded? then [trace[0].key] else []) + RecordedKeys(trace[1..])
  }

  lemma {:induction false} RecordedKeysAppend(a: seq<Event>, b: seq<Event>)
    ensures RecordedKeys(a + b) == RecordedKeys(a) + RecordedKeys(b)
    decreases |a|
  {
    if |a| > 0 {
      assert (a + b)[1..] == a[1..] + b;
      RecordedKeysAppend(a[1..], b);
    } else {
      assert a + b == b;
    }
  }

  /** `m2` keeps every entry of `m1` unchanged. */
  predicate Extends(m1: Outcomes, m2: Outcomes) {
    forall k :: k in m1 ==> k in m2 && m2[k] == m1[k]
  }

  /** No element occurs twice. */
  predicate Distinct(s: seq<string>) {
    forall i, j :: 0 <= i < j < |s| ==> s[i] != s[j]
  }

  /** Recording `key` with `status` and writing the ledger out: the `processed_outcomes[k] = s; save_outcomes(...)` pair. */
  function Record(ledger: Outcomes, key: string, status: string): (r: (Outcomes, seq<Event>))
    ensures key in r.0 && r.0[key] == status
    ensures r.0.Keys == ledger.Keys + {key}
    ensures key !in ledger ==> Extends(ledger, r.0)
    ensures SavedImmediately(r.1) && RecordedKeys(r.1) == [key]
    ensures |r.1| == 2 && r.1[1] == Saved(r.0)
    ensures forall disk :: LastSaved(r.1, disk) == r.0
  {
    var l := ledger[key := status];
    var ev := [Recorded(key, status), Saved(l)];
    assert RecordedKeys(ev) == [key] by {
      assert ev[1..] == [Saved(l)];
      assert RecordedKeys(ev[1..]) == [] by { assert ev[1..][1..] == []; }
    }
    forall disk ensures LastSaved(ev, disk) == l {
      assert ev[1..] == [Saved(l)];
      assert LastSaved(ev, disk) == LastSaved([Saved(l)], disk);
      assert [Saved(l)][1..] == [];
    }
    (l, ev)
  }

  /** The ledger on disk after a run's saves, starting from `disk`: the last snapshot written, if any. */
  function LastSaved(trace: seq<Event>, disk: Outcomes): Outcomes
    decreases |trace|
  {
    if |trace| == 0 then disk
    else LastSaved(trace[1..], if trace[0].Saved? then trace[0].snapshot else disk)
  }

  lemma {:induction false} LastSavedAppend(a: seq<Event>, b: seq<Event>, disk: Outcomes)
    ensures LastSaved(a + b, disk) == LastSaved(b, LastSaved(a, disk))
    decreases |a|
  {
    if |a| > 0 {
      assert (a + b)[1..] == a[1..] + b;
      LastSavedAppend(a[1..], b, if a[0].Saved? then a[0].snapshot else disk);
    } else {
      assert a + b == b;
    }
  }

  lemma SavedImmediatelyAppend(a: seq<Event>, b: seq<Event>)
    requires SavedImmediately(a) && SavedImmediately(b)
    ensures SavedImmediately(a + b)
  {
    var t := a + b;
    forall i | 0 <= i < |t| && t[i].Recorded?
      ensures i + 1 < |t| && t[i + 1].Saved? && t[i].key in t[i + 1].snapshot && t[i + 1].snapshot[t[i].key] == t[i].status
    {
      if i < |a| {
        assert t[i] == a[i] && t[i + 1] == a[i + 1];
      } else {
        assert t[i] == b[i - |a|] && t[i + 1] == b[i + 1 - |a|];
      }
    }
  }
}

=== FILE: log_name.dfy ===
/**
 `get_expected_log_path` of batch_scenarios_xodr.py: the recording log a
 scenario is expected to leave behind, named after the scenario file with
 its extension dropped and every character outside `[A-Za-z0-9_.-]` turned
 into `_`. Paths follow POSIX `os.path` rules.
 */
module LogName {
  import opened Strings

  const LogSuffix := "_recording.log"

  /** The last index of `c` in `s`, or -1 (`str.rfind`). */
  function LastIndex(s: string, c: char): (r: int)
    ensures -1 <= r < |s|
    ensures r >= 0 ==> s[r] == c
    ensures forall j :: r < j < |s| ==> s[j] != c
    decreases |s|
  {
    if |s| == 0 then -1
    else if s[|s| - 1] == c then |s| - 1
    else LastIndex(s[..|s| - 1], c)
  }

  /** Some character of `s` is not a dot. */
  predicate HasNonDot(s: string) {
    exists j :: 0 <= j < |s| && s[j] != '.'
  }

  /**
   `os.path.splitext`: the extension is the last dot of the final path
   component and what follows it, unless every character before that dot in
   the component is also a dot (so `.bashrc` has no extension).
   */
  function SplitExt(p: string): (r: (string, string))
    ensures r.0 + r.1 == p
    ensures r.1 != [] ==> r.1[0] == '.' && '/' !in r.1 && '.' !in r.1[1..]
    ensures r.1 != [] ==> HasNonDot(r.0[LastIndex(r.0, '/') + 1..])
  {
    var sep := LastIndex(p, '/');
    var dot := LastIndex(p, '.');
    if dot > sep && HasNonDot(p[sep + 1..dot]) then
      SplitAtDot(p, sep, dot);
      (p[..dot], p[dot..])
    else (p, [])
  }

  /** What splitting `p` at its last dot, which follows its last slash, leaves on either side. */
  lemma SplitAtDot(p: string, sep: int, dot: int)
    requires sep == LastIndex(p, '/') && dot == LastIndex(p, '.') && sep < dot
    ensures p[..dot] + p[dot..] == p
    ensures p[dot..][0] == '.' && '/' !in p[dot..] && '.' !in p[dot..][1..]
    ensures LastIndex(p[..dot], '/') == sep && p[..dot][sep + 1..] == p[sep + 1..dot]
  {
    ExtensionShape(p, sep, dot);
    PrefixSep(p, sep, dot);
  }

  /** Cutting `p` at its last dot keeps its last slash and the text between the two. */
  lemma PrefixSep(p: string, sep: int, dot: int)
    requires sep == LastIndex(p, '/') && dot == LastIndex(p, '.') && sep < dot
    ensures LastIndex(p[..dot], '/') == sep && p[..dot][sep + 1..] == p[sep + 1..dot]
  {
    assert p[..dot][sep + 1..] == p[sep + 1..dot];
    LastIndexPrefix(p, dot, '/');
  }

  /** From the last dot on, there is no slash and no further dot. */
  lemma ExtensionShape(p: string, sep: int, dot: int)
    requires sep == LastIndex(p, '/') && dot == LastIndex(p, '.') && sep < dot
    ensures p[dot..][0] == '.' && '/' !in p[dot..] && '.' !in p[dot..][1..]
  {
    var ext := p[dot..];
    forall k | 0 <= k < |ext| ensures ext[k] != '/' {
      assert ext[k] == p[dot + k];
    }
    forall k | 0 <= k < |ext[1..]| ensures ext[1..][k] != '.' {
      assert ext[1..][k] == p[dot + 1 + k];
    }
  }

  /** Cutting `s` short before its last `c` does not move an earlier occurrence of another character. */
  lemma LastIndexPrefix(s: string, n: nat, c: char)
    requires LastIndex(s, c) < n <= |s|
    ensures LastIndex(s[..n], c) == LastIndex(s, c)
    decreases |s|
  {
    if n < |s| {
      assert s[..n] == s[..|s| - 1][..n];
      LastIndexPrefix(s[..|s| - 1], n, c);
    }
  }

  /** The characters `[a-zA-Z0-9_\.-]` kept as they are. */
  predicate SafeChar(c: char) {
    ('a' <= c <= 'z') || ('A' <= c <= 'Z') || ('0' <= c <= '9') || c == '_' || c == '.' || c == '-'
  }

  /** `re.sub(r'[^a-zA-Z0-9_\.-]', '_', s)`. */
  function Sanitize(s: string): (r: string)
    ensures |r| == |s|
    ensures forall i :: 0 <= i < |s| ==> r[i] == (if SafeChar(s[i]) then s[i] else '_')
  {
    seq(|s|, i requires 0 <= i < |s| => if SafeChar(s[i]) then s[i] else '_')
  }

  /** Every character of a sanitised name is safe; in particular it has no path separator. */
  lemma SanitizeIsSafe(s: string)
    ensures forall i :: 0 <= i < |s| ==> SafeChar(Sanitize(s)[i])
    ensures '/' !in Sanitize(s)
  {
  }

  /** A name is left unchanged exactly when it is already made of safe characters. */
  lemma SanitizeFixesSafe(s: string)
    ensures Sanitize(s) == s <==> forall i :: 0 <= i < |s| ==> SafeChar(s[i])
  {
    if forall i :: 0 <= i < |s| ==> SafeChar(s[i]) {
      assert Sanitize(s) == s;
    }
  }

  lemma SanitizeIdempotent(s: string)
    ensures Sanitize(Sanitize(s)) == Sanitize(s)
  {
    SanitizeFixesSafe(Sanitize(s));
  }

  /** POSIX `os.path.join(base, name)` for a `name` that does not start with `/`. */
  function Join(base: string, name: string): (r: string)
    requires |name| > 0 ==> name[0] != '/'
    ensures EndsWith(r, name)
    ensures r == base + name || r == base + "/" + name
    ensures |base| > 0 && base[|base| - 1] != '/' ==> r[..|r| - |name|] == base + "/"
  {
    if |base| == 0 || base[|base| - 1] == '/' then base + name else
      var r := base + "/" + name;
      assert r[|r| - |name|..] == name;
      r
  }

  /** The file name part of the expected log path. */
  function LogFileName(scenario: string): (r: string)
    ensures EndsWith(r, LogSuffix)
    ensures |r| == |SplitExt(scenario).0| + |LogSuffix|
    ensures r[..|r| - |LogSuffix|] == Sanitize(SplitExt(scenario).0)
    ensures '/' !in r
  {
    var name := Sanitize(SplitExt(scenario).0) + LogSuffix;
    SanitizeIsSafe(SplitExt(scenario).0);
    assert name[|name| - |LogSuffix|..] == LogSuffix;
    assert name[..|name| - |LogSuffix|] == Sanitize(SplitExt(scenario).0);
    name
  }

  /**
   `get_expected_log_path(scenario, dir)`: the log lies directly in `dir`,
   its name ends in `_recording.log`, and what precedes that suffix is the
   scenario's extension-less name, sanitised.
   */
  function ExpectedLogPath(scenario: string, dir: string): (r: string)
    ensures EndsWith(r, LogSuffix)
    ensures EndsWith(r, LogFileName(scenario)) && '/' !in LogFileName(scenario)
    ensures r == dir + LogFileName(scenario) || r == dir + "/" + LogFileName(scenario)
    ensures StemBeforeSuffix(r, Sanitize(SplitExt(scenario).0))
  {
    LogPathEnds(scenario, dir);
    Join(dir, LogFileName(scenario))
  }

  /** `p` ends in `stem + LogSuffix`. */
  predicate StemBeforeSuffix(p: string, stem: string) {
    |p| >= |stem| + |LogSuffix| && p[|p| - |LogSuffix| - |stem|..|p| - |LogSuffix|] == stem
  }

  /** The joined log path ends in the suffix, with the sanitised stem right before it. */
  lemma LogPathEnds(scenario: string, dir: string)
    ensures var p := Join(dir, LogFileName(scenario));
      EndsWith(p, LogSuffix) && StemBeforeSuffix(p, Sanitize(SplitExt(scenario).0))
  {
    var name := LogFileName(scenario);
    SuffixCarriesStem(Join(dir, name), name, Sanitize(SplitExt(scenario).0));
  }

  /** A string ending in `stem + LogSuffix` carries both on to anything that ends in it. */
  lemma SuffixCarriesStem(p: string, name: string, stem: string)
    requires EndsWith(p, name) && |name| == |stem| + |LogSuffix|
    requires name[..|stem|] == stem && name[|stem|..] == LogSuffix
    ensures EndsWith(p, LogSuffix) && StemBeforeSuffix(p, stem)
  {
    var tail := p[|p| - |name|..];
    assert tail == name;
    assert p[|p| - |LogSuffix|..] == tail[|stem|..];
    assert p[|p| - |LogSuffix| - |stem|..|p| - |LogSuffix|] == tail[..|stem|];
  }

  /** Safe names round-trip: the stem before the suffix is the scenario's name without its extension. */
  lemma SafeStemRecovered(scenario: string, dir: string)
    requires forall i :: 0 <= i < |SplitExt(scenario).0| ==> SafeChar(SplitExt(scenario).0[i])
    ensures var name := LogFileName(scenario);
      name[..|name| - |LogSuffix|] == SplitExt(scenario).0
  {
    SanitizeFixesSafe(SplitExt(scenario).0);
    var name := LogFileName(scenario);
    assert name[..|name| - |LogSuffix|] == Sanitize(SplitExt(scenario).0);
  }

  /**
   Conversely, a final path component with a dot somewhere after a non-dot
   character always yields an extension.
   */
  lemma ExtensionFound(p: string, j: int, d: int)
    requires LastIndex(p, '/') < j < d < |p| && p[j] != '.' && p[d] == '.'
    ensures SplitExt(p).1 != []
  {
    var sep := LastIndex(p, '/');
    var dot := LastIndex(p, '.');
    assert d <= dot;
    assert HasNonDot(p[sep + 1..dot]) by {
      assert p[sep + 1..dot][j - sep - 1] == p[j];
    }
    assert SplitExt(p) == (p[..dot], p[dot..]);
  }

  /** A leading dot does not start an extension: `.xosc` has none. */
  lemma LeadingDotIsNoExtension()
    ensures SplitExt(".xosc") == (".xosc", "")
  {
    assert ".xosc"[0] == '.';
    assert LastIndex(".xosc", '.') == 0;
  }
}

=== FILE: map_processing.dfy ===
/**
 `verify_processing` of helper/verify_map_processing.py: every `.xodr` map of
 the maps directory, in sorted order, is reported as processed when the
 mapInfo directory holds its `_spawn_points.json` file and as missing
 otherwise. The directory listing and the existence test are inputs.
 */
module MapProcessing {
  import opened Common
  import opened Strings

  const MapSuffix := ".xodr"
  const JsonSuffix := "_spawn_points.json"

  /** `glob('*.xodr')` in one directory: the name ends in `.xodr` and, as `*` never matches a leading dot, is not hidden. */
  predicate Globbed(name: string) {
    EndsWith(name, MapSuffix) && name[0] != '.'
  }

  /** `map_basename.replace('.xodr', '') + '_spawn_points.json'`. */
  function ExpectedJsonName(basename: string): (r: string)
    ensures EndsWith(r, JsonSuffix)
    ensures |r| <= |basename| + |JsonSuffix|
  {
    var stem := RemoveAll(basename, MapSuffix);
    assert (stem + JsonSuffix)[|stem|..] == JsonSuffix;
    stem + JsonSuffix
  }

  /** For a map named `<stem>.xodr` with no other `.xodr` in it, the expected file is `<stem>_spawn_points.json`. */
  lemma ExpectedNameOfPlainMap(stem: string)
    requires forall i :: 0 <= i < |stem| ==> !OccursAt(stem + MapSuffix, MapSuffix, i)
    ensures ExpectedJsonName(stem + MapSuffix) == stem + JsonSuffix
  {
    RemoveAppended(stem, MapSuffix);
  }

  /** The elements of `s` for which `keep` gives `want`, in order. */
  function Select(s: seq<string>, keep: string -> bool, want: bool): (r: seq<string>)
    ensures |r| <= |s|
    ensures forall x :: x in r ==> x in s && keep(x) == want
  {
    if |s| == 0 then []
    else Select(s[..|s| - 1], keep, want) + (if keep(s[|s| - 1]) == want then [s[|s| - 1]] else [])
  }

  /** The two selections split the input: every element lands in exactly one, and the lengths add up. */
  lemma {:induction false} SelectPartition(s: seq<string>, keep: string -> bool)
    ensures |Select(s, keep, true)| + |Select(s, keep, false)| == |s|
    ensures multiset(Select(s, keep, true)) + multiset(Select(s, keep, false)) == multiset(s)
  {
    if |s| > 0 {
      var init, last := s[..|s| - 1], s[|s| - 1];
      SelectPartition(init, keep);
      PartitionStep(s, Select(init, keep, true), Select(init, keep, false),
        Select(s, keep, true), Select(s, keep, false));
    }
  }

  /** Adding the last element of `s` to one side of a split of the rest splits `s`. */
  lemma PartitionStep(s: seq<string>, t: seq<string>, f: seq<string>, t': seq<string>, f': seq<string>)
    requires |s| > 0
    requires |t| + |f| == |s| - 1 && multiset(t) + multiset(f) == multiset(s[..|s| - 1])
    requires (t' == t + [s[|s| - 1]] && f' == f) || (t' == t && f' == f + [s[|s| - 1]])
    ensures |t'| + |f'| == |s|
    ensures multiset(t') + multiset(f') == multiset(s)
  {
    var last := s[|s| - 1];
    assert s == s[..|s| - 1] + [last];
    assert multiset(s) == multiset(s[..|s| - 1]) + multiset{last};
    if t' == t + [last] && f' == f {
      assert multiset(t + [last]) == multiset(t) + multiset{last};
    } else {
      assert multiset(f + [last]) == multiset(f) + multiset{last};
    }
  }

  /** The summary written to map_processing_summary.json. */
  datatype Summary = Summary(
    total: nat, processedCount: nat, missingCount: nat,
    processed: seq<string>, missing: seq<string>)

  /**
   The report, or `None` when the mapInfo directory does not exist. Maps are
   visited in sorted order; `jsonExists` answers `os.path.exists` for a name
   in the mapInfo directory.
   */
  method VerifyProcessing(listing: seq<string>, mapInfoExists: bool, jsonExists: string -> bool)
    returns (r: Option<Summary>)
    ensures r.None? <==> !mapInfoExists
    ensures r.Some? ==> r.value.processed == Select(Sort(Maps(listing)), Found(jsonExists), true)
    ensures r.Some? ==> r.value.missing == Select(Sort(Maps(listing)), Found(jsonExists), false)
    ensures r.Some? ==> Sorted(r.value.processed) && Sorted(r.value.missing)
    ensures r.Some? ==> r.value.processedCount == |r.value.processed| && r.value.missingCount == |r.value.missing|
    ensures r.Some? ==> r.value.processedCount + r.value.missingCount == r.value.total == |Maps(listing)|
    ensures r.Some? ==> multiset(r.value.processed) + multiset(r.value.missing) == multiset(Maps(listing))
  {
    var maps := Sort(Maps(listing));
    if !mapInfoExists {
      return None;
    }
    var processed, missing := Partition(maps, jsonExists);
    SelectPartition(maps, Found(jsonExists));
    SelectSorted(maps, Found(jsonExists), true);
    SelectSorted(maps, Found(jsonExists), false);
    assert |maps| == |Maps(listing)| by {
      assert |multiset(maps)| == |multiset(Maps(listing))|;
    }
    return Some(Summary(|maps|, |processed|, |missing|, processed, missing));
  }

  /** The `for` loop: each map goes to the processed list when its JSON file exists and to the missing list otherwise. */
  method Partition(maps: seq<string>, jsonExists: string -> bool) returns (processed: seq<string>, missing: seq<string>)
    ensures processed == Select(maps, Found(jsonExists), true)
    ensures missing == Select(maps, Found(jsonExists), false)
  {
    processed, missing := [], [];
    var i := 0;
    while i < |maps|
      invariant i <= |maps|
      invariant processed == Select(maps[..i], Found(jsonExists), true)
      invariant missing == Select(maps[..i], Found(jsonExists), false)
    {
      assert maps[..i + 1][..i] == maps[..i];
      if jsonExists(ExpectedJsonName(maps[i])) {
        processed := processed + [maps[i]];
      } else {
        missing := missing + [maps[i]];
      }
      i := i + 1;
    }
    assert maps[..|maps|] == maps;
  }

  /** The globbed names of a directory listing. */
  function Maps(listing: seq<string>): (r: seq<string>)
    ensures forall x :: x in r <==> x in listing && Globbed(x)
  {
    if |listing| == 0 then []
    else
      var rest := Maps(listing[1..]);
      assert forall x :: x in listing <==> x == listing[0] || x in listing[1..];
      if Globbed(listing[0]) then [listing[0]] + rest else rest
  }

  /** Whether a map's JSON file exists. */
  function Found(jsonExists: string -> bool): string -> bool {
    m => jsonExists(ExpectedJsonName(m))
  }

  /** Selecting from a sorted list keeps it sorted. */
  lemma {:induction false} SelectSorted(s: seq<string>, keep: string -> bool, want: bool)
    requires Sorted(s)
    ensures Sorted(Select(s, keep, want))
    ensures forall j :: 0 <= j < |Select(s, keep, want)| ==> exists k :: 0 <= k < |s| && s[k] == Select(s, keep, want)[j]
  {
    if |s| > 0 {
      var init := s[..|s| - 1];
      SelectSorted(init, keep, want);
      var r := Select(init, keep, want);
      forall j | 0 <= j < |r| ensures LessEq(r[j], s[|s| - 1]) {
        var k :| 0 <= k < |init| && init[k] == r[j];
        assert init[k] == s[k];
      }
    }
  }

  /** A map is reported as processed exactly when its JSON file exists. */
  lemma ProcessedIffFound(listing: seq<string>, jsonExists: string -> bool, x: string)
    requires x in listing && Globbed(x)
    ensures x in Select(Sort(Maps(listing)), Found(jsonExists), true) <==> jsonExists(ExpectedJsonName(x))
    ensures x in Select(Sort(Maps(listing)), Found(jsonExists), false) <==> !jsonExists(ExpectedJsonName(x))
  {
    var maps := Sort(Maps(listing));
    assert x in multiset(Maps(listing));
    assert x in maps;
    SelectPartition(maps, Found(jsonExists));
    assert x in multiset(Select(maps, Found(jsonExists), true)) || x in multiset(Select(maps, Found(jsonExists), false));
  }
}

=== FILE: recorder.dfy ===
/**
 The `Recorder` class of run_single_carla_100fps.py and the way `main` drives
 it: an optional start, the 'r' key toggling recording on every tick, the
 explicit stop when the agent arrives, and the stop in `finally`. The
 recorder's effects are the `start_recorder` and `stop_recorder` calls it
 makes on the client, kept in order.
 */
module Recorder {

  datatype Call = StartRecorder | StopRecorder

  /** `is_recording` and the client calls made so far. */
  datatype State = State(isRecording: bool, calls: seq<Call>)

  const Initial := State(false, [])

  /** The calls begin with a start and then alternate. */
  predicate Alternating(calls: seq<Call>) {
    forall i :: 0 <= i < |calls| ==> calls[i] == (if i % 2 == 0 then StartRecorder else StopRecorder)
  }

  /** The recorder is recording exactly when a start has not yet been followed by a stop. */
  predicate Consistent(st: State) {
    Alternating(st.calls) && (st.isRecording <==> |st.calls| % 2 == 1)
  }

  /** `start_recording`: a no-op while recording; otherwise one `start_recorder` call. */
  function StartRecording(st: State): (r: State)
    ensures r.isRecording
    ensures Consistent(st) ==> Consistent(r)
    ensures |r.calls| == |st.calls| + (if st.isRecording then 0 else 1)
    ensures r.calls[..|st.calls|] == st.calls
  {
    if st.isRecording then st else State(true, st.calls + [StartRecorder])
  }

  /** `stop_recording`: a no-op while not recording; otherwise one `stop_recorder` call. */
  function StopRecording(st: State): (r: State)
    ensures !r.isRecording
    ensures Consistent(st) ==> Consistent(r)
    ensures |r.calls| == |st.calls| + (if st.isRecording then 1 else 0)
    ensures r.calls[..|st.calls|] == st.calls
  {
    if st.isRecording then State(false, st.calls + [StopRecorder]) else st
  }

  lemma StartIdempotent(st: State)
    ensures StartRecording(StartRecording(st)) == StartRecording(st)
  {
  }

  lemma StopIdempotent(st: State)
    ensures StopRecording(StopRecording(st)) == StopRecording(st)
  {
  }

  /** A key that `key.lower() == 'r'` accepts. */
  predicate IsToggleKey(c: char) { c == 'r' || c == 'R' }

  /** The key handling of one tick: the 'r' key flips the recording state; other keys do nothing. */
  function OnKey(st: State, c: char): (r: State)
    ensures IsToggleKey(c) ==> r.isRecording == !st.isRecording
    ensures !IsToggleKey(c) ==> r == st
    ensures Consistent(st) ==> Consistent(r)
  {
    if !IsToggleKey(c) then st
    else if st.isRecording then StopRecording(st)
    else StartRecording(st)
  }

  /** What one loop iteration observed: a key press, no key, or the agent's arrival. */
  datatype Tick = KeyPressed(key: char) | NoKey | Arrived

  /** The state when the loop ends: at an arrival (after its explicit stop), or when the ticks run out (an interrupt or error). */
  function RunLoop(st: State, ticks: seq<Tick>): (r: State)
    ensures Consistent(st) ==> Consistent(r)
    ensures (exists i :: 0 <= i < |ticks| && ticks[i] == Arrived) ==> !r.isRecording
    decreases |ticks|
  {
    if |ticks| == 0 then st
    else match ticks[0]
      case Arrived => StopRecording(st)
      case NoKey =>
        assert forall i :: 1 <= i < |ticks| ==> ticks[1..][i - 1] == ticks[i];
        RunLoop(st, ticks[1..])
      case KeyPressed(c) =>
        assert forall i :: 1 <= i < |ticks| ==> ticks[1..][i - 1] == ticks[i];
        RunLoop(OnKey(st, c), ticks[1..])
  }

  /** `main` from the recorder's creation: the optional start, the loop, and the stop in `finally`. */
  function Session(record: bool, ticks: seq<Tick>): State {
    var started := if record then StartRecording(Initial) else Initial;
    StopRecording(RunLoop(started, ticks))
  }

  /**
   However the session ends, no recording is left active, and every
   `start_recorder` call is followed by exactly one `stop_recorder` call
   before the next start.
   */
  lemma SessionBalanced(record: bool, ticks: seq<Tick>)
    ensures !Session(record, ticks).isRecording
    ensures Alternating(Session(record, ticks).calls)
    ensures |Session(record, ticks).calls| % 2 == 0
  {
    assert Consistent(Initial);
  }

  /** The number of calls of one kind. */
  function Count(calls: seq<Call>, c: Call): nat {
    if |calls| == 0 then 0 else Count(calls[..|calls| - 1], c) + (if calls[|calls| - 1] == c then 1 else 0)
  }

  /** Alternating calls of even length hold as many stops as starts. */
  lemma {:induction false} AlternatingCounts(calls: seq<Call>)
    requires Alternating(calls)
    ensures Count(calls, StartRecorder) == Count(calls, StopRecorder) + |calls| % 2
  {
    if |calls| > 0 {
      var init := calls[..|calls| - 1];
      assert Alternating(init) by {
        forall i | 0 <= i < |init| ensures init[i] == (if i % 2 == 0 then StartRecorder else StopRecorder) {
          assert init[i] == calls[i];
        }
      }
      AlternatingCounts(init);
    }
  }

  /** `stop_recorder` is called exactly once per `start_recorder` over a session. */
  lemma OneStopPerStart(record: bool, ticks: seq<Tick>)
    ensures var calls := Session(record, ticks).calls;
      Count(calls, StopRecorder) == Count(calls, StartRecorder)
  {
    SessionBalanced(record, ticks);
    AlternatingCounts(Session(record, ticks).calls);
  }

  /** With `--record` and no key presses, the session records once from start to end. */
  lemma RecordOnlyOnce(ticks: seq<Tick>)
    requires forall i :: 0 <= i < |ticks| ==> ticks[i] != KeyPressed('r') && ticks[i] != KeyPressed('R')
    ensures Session(true, ticks).calls == [StartRecorder, StopRecorder]
  {
    RecordingKept(State(true, [StartRecorder]), ticks);
  }

  /** Without toggle keys, the loop either keeps the state or, at an arrival, stops it. */
  lemma {:induction false} RecordingKept(st: State, ticks: seq<Tick>)
    requires forall i :: 0 <= i < |ticks| ==> ticks[i] != KeyPressed('r') && ticks[i] != KeyPressed('R')
    ensures RunLoop(st, ticks) == st || RunLoop(st, ticks) == StopRecording(st)
    decreases |ticks|
  {
    if |ticks| > 0 && !ticks[0].Arrived? {
      assert forall i :: 1 <= i < |ticks| ==> ticks[1..][i - 1] == ticks[i];
      if ticks[0].KeyPressed? {
        assert !IsToggleKey(ticks[0].key);
      }
      RecordingKept(st, ticks[1..]);
    }
  }
}

=== FILE: runner_batch.dfy ===
/**
 The `main` loop of batch_scenario_srunner.py: for every scenario of the
 catalog, in catalog order, skip it when the ledger already has it; otherwise
 restart the simulator, check the scenario file and its destination, launch
 scenario_runner, drive the ego vehicle, and record exactly one status,
 saving the ledger straight away.

 The simulator restart, the file check, the scenario_runner launch and the
 drive are oracles indexed by scenario name.
 */
module RunnerBatch {
  import opened Ledger
  import opened Common
  import Scheduler
  import DriveLoop

  const ServerStartFailed := "failed_server_start"
  const FileNotFound := "failed_file_not_found"
  const MissingDestination := "failed_missing_destination"
  const Failed := "failed"
  const Success := "success"

  /**
   A catalog entry's `acquire_position_actions` value, as far as
   `data.get('acquire_position_actions', [None])[0]` can tell: the key is
   absent, a list whose elements are given by their Python truthiness, a
   string, or any other JSON value (null, a number, a boolean, an object),
   on which `[0]` raises `TypeError` or `KeyError`.
   */
  datatype Destination = NoActions | Actions(truthy: seq<bool>) | Text(chars: string) | Unindexable

  datatype Scenario = Scenario(name: string, destination: Destination)

  /** What `Popen` of scenario_runner and the `poll()` after the init wait showed. */
  datatype Launch = LaunchRaised | ExitedDuringInit | Running

  datatype Env = Env(
    serverStarts: string -> bool,   // the CARLA `Popen` did not raise
    fileExists: string -> bool,     // the scenario file is in the scenarios folder
    launch: string -> Launch,
    drive: string -> DriveLoop.DriveResult)

  /** One attempt's result: a status for the ledger, or the uncaught exception raised by `[0]`. */
  datatype Attempt = Status(status: string) | Uncaught

  /** `[0]` raises: an empty list or string, or a value that cannot be indexed by `0`. */
  predicate HeadRaises(d: Destination) {
    d.Unindexable? || d == Actions([]) || d == Text("")
  }

  /** The element `[0]` picks out is falsy; the default `[None]` gives `None`, a one-character string is truthy. */
  predicate DestinationMissing(d: Destination)
    requires !HeadRaises(d)
  {
    match d
    case NoActions => true
    case Actions(truthy) => !truthy[0]
    case Text(_) => false
  }

  /** The prerequisites that are checked before scenario_runner is launched all pass. */
  predicate ReadyToLaunch(sc: Scenario, env: Env) {
    && env.serverStarts(sc.name)
    && env.fileExists(sc.name)
    && !HeadRaises(sc.destination)
    && !DestinationMissing(sc.destination)
  }

  /** The statuses this runner ever writes. */
  predicate KnownStatus(s: string) {
    s in {ServerStartFailed, FileNotFound, MissingDestination, Failed, Success}
  }

  /**
   One attempted scenario: server restart, then file existence, then
   destination, then the launch and the drive. Any normal return of the
   drive is a success, whichever exit ended the loop; any exception is a
   failure.
   */
  function AttemptScenario(sc: Scenario, env: Env): (r: Attempt)
    ensures r.Status? ==> KnownStatus(r.status)
    ensures !env.serverStarts(sc.name) <==> r == Status(ServerStartFailed)
    ensures r == Status(FileNotFound) <==> env.serverStarts(sc.name) && !env.fileExists(sc.name)
    ensures r == Uncaught <==>
              && env.serverStarts(sc.name) && env.fileExists(sc.name)
              && (sc.destination.Unindexable? || sc.destination == Actions([]) || sc.destination == Text(""))
    ensures r == Status(MissingDestination) <==>
              && env.serverStarts(sc.name) && env.fileExists(sc.name)
              && (sc.destination.NoActions? || (sc.destination.Actions? && |sc.destination.truthy| > 0 && !sc.destination.truthy[0]))
    ensures r == Status(Success) <==>
              ReadyToLaunch(sc, env) && env.launch(sc.name) == Running && env.drive(sc.name).Returned?
    ensures r == Status(Failed) <==>
              ReadyToLaunch(sc, env) && (env.launch(sc.name) != Running || env.drive(sc.name).Raised?)
  {
    if !env.serverStarts(sc.name) then Status(ServerStartFailed)
    else if !env.fileExists(sc.name) then Status(FileNotFound)
    else if HeadRaises(sc.destination) then Uncaught
    else if DestinationMissing(sc.destination) then Status(MissingDestination)
    else if env.launch(sc.name) != Running then Status(Failed)
    else if env.drive(sc.name).Returned? then Status(Success)
    else Status(Failed)
  }

  function Name(sc: Scenario): string { sc.name }

  /** Every catalog scenario is eligible; only the ledger makes the loop skip one. */
  predicate AnyScenario(sc: Scenario) { true }

  /** The attempt as the scheduler sees it: a status, or nothing when the batch stops. */
  function Outcome(env: Env): Scenario -> Option<string> {
    sc => match AttemptScenario(sc, env) case Status(st) => Some(st) case Uncaught => None
  }

  /** The scheduler loop from a loaded ledger; entries already in the ledger are kept as they are. */
  function Batch(catalog: seq<Scenario>, ledger: Outcomes, env: Env): (r: Scheduler.BatchEnd)
    ensures Extends(ledger, r.run.ledger)
  {
    Scheduler.Batch(catalog, Name, AnyScenario, Outcome(env), ledger)
  }

  /**
   Every entry a run adds is one of the runner's statuses and is what
   attempting a catalog scenario of that name produced.
   */
  lemma BatchStatuses(catalog: seq<Scenario>, ledger: Outcomes, env: Env)
    ensures var r := Batch(catalog, ledger, env);
      forall k :: k in r.run.ledger && k !in ledger ==>
        && KnownStatus(r.run.ledger[k])
        && exists i :: 0 <= i < |catalog| && catalog[i].name == k && AttemptScenario(catalog[i], env) == Status(r.run.ledger[k])
  {
    var r := Batch(catalog, ledger, env);
    Scheduler.RecordsAttempted(catalog, Name, AnyScenario, Outcome(env), ledger);
    forall k | k in r.run.ledger && k !in ledger
      ensures KnownStatus(r.run.ledger[k])
      ensures exists i :: 0 <= i < |catalog| && catalog[i].name == k && AttemptScenario(catalog[i], env) == Status(r.run.ledger[k])
    {
      var i :| 0 <= i < |catalog| && Name(catalog[i]) == k && AnyScenario(catalog[i]) && Outcome(env)(catalog[i]) == Some(r.run.ledger[k]);
      assert AttemptScenario(catalog[i], env) == Status(r.run.ledger[k]);
    }
  }

  /**
   The batch stops only at a scenario without an entry whose destination
   cannot be indexed by `[0]`, after the simulator restart and the file check passed.
   */
  lemma BatchStopsAtUnindexableDestination(catalog: seq<Scenario>, ledger: Outcomes, env: Env)
    requires Batch(catalog, ledger, env).Stopped?
    ensures var at := Batch(catalog, ledger, env).at;
      && at !in ledger
      && env.serverStarts(at) && env.fileExists(at)
      && exists i :: 0 <= i < |catalog| && catalog[i].name == at && HeadRaises(catalog[i].destination)
  {
    Scheduler.StopsAtFailedAttempt(catalog, Name, AnyScenario, Outcome(env), ledger);
  }

  /**
   Conversely, a scenario without an entry whose simulator restart and file
   check pass and whose destination cannot be indexed stops the batch, unless
   an earlier catalog entry of the same name was recorded first.
   */
  lemma UnindexableDestinationStops(catalog: seq<Scenario>, ledger: Outcomes, env: Env, i: nat)
    requires i < |catalog| && catalog[i].name !in ledger
    requires env.serverStarts(catalog[i].name) && env.fileExists(catalog[i].name) && HeadRaises(catalog[i].destination)
    requires forall j :: 0 <= j < i ==> catalog[j].name != catalog[i].name
    ensures Batch(catalog, ledger, env).Stopped?
  {
    assert Outcome(env)(catalog[i]).None?;
    Scheduler.StopsAtRaisingItem(catalog, Name, AnyScenario, Outcome(env), ledger, i);
  }

  /**
   `main` after the catalog is read: load the ledger (an `OSError` other than
   `IOError` or a decoding error other than `JSONDecodeError` escapes before
   any scenario runs), then the scheduler loop.
   */
  function RunnerMain(catalog: seq<Scenario>, file: LedgerFile, env: Env): (r: Option<Scheduler.BatchEnd>)
    ensures r.None? <==> file.OtherFailure?
    ensures r.Some? && file.Decoded? ==> Extends(file.entries, r.value.run.ledger)
    ensures r.Some? && !file.Decoded? ==> forall k :: k in r.value.run.ledger ==> exists i :: 0 <= i < |catalog| && catalog[i].name == k
  {
    match LoadForRunner(file)
    case LoadRaised => None
    case Loaded(outcomes) =>
      Scheduler.RecordsOnce(catalog, Name, AnyScenario, Outcome(env), outcomes);
      Scheduler.RecordsAttempted(catalog, Name, AnyScenario, Outcome(env), outcomes);
      Some(Batch(catalog, outcomes, env))
  }

  /**
   A scenario whose `acquire_position_actions` cannot be indexed (an empty
   list, say) stops the batch, and because it never gets an entry, a resumed batch (same oracles)
   stops at the same scenario again: the batch can never get past it.
   */
  lemma CrashRepeats(catalog: seq<Scenario>, ledger: Outcomes, env: Env)
    requires Batch(catalog, ledger, env).Stopped?
    ensures var r := Batch(catalog, ledger, env);
      Batch(catalog, r.run.ledger, env).Stopped? && Batch(catalog, r.run.ledger, env).at == r.at
  {
    Scheduler.StopRepeats(catalog, Name, AnyScenario, Outcome(env), ledger);
  }

  /**
   End to end: one scenario, an empty ledger, a simulator and scenario_runner
   that come up, and an agent that reports arrival on its third tick, leave
   the ledger holding "success" for that scenario.
   */
  lemma ReachedScenarioSucceeds(env: Env, s: DriveLoop.Session)
    requires env.serverStarts("A.xosc") && env.fileExists("A.xosc") && env.launch("A.xosc") == Running
    requires DriveLoop.Completes(s) && env.drive("A.xosc") == DriveLoop.Drive(s).result
    requires s.connection.Connected? && s.setup.Ready? && s.fps == 100.0 && |s.ticks| >= 3
    requires forall i :: 0 <= i < 3 ==> s.ticks[i].clock - s.start < DriveLoop.MaxDuration && s.ticks[i].observation.Some?
    requires forall i :: 0 <= i < 3 ==> s.ticks[i].observation.value.location == DriveLoop.Location(10.0 * i as real, 0.0, 0.0)
    requires forall i :: 0 <= i < 3 ==> s.ticks[i].observation.value.done == (i == 2)
    ensures Batch([Scenario("A.xosc", Actions([true]))], map[], env).run.ledger == map["A.xosc" := Success]
  {
    var t := s.ticks;
    var o0, o1, o2 := t[0].observation.value, t[1].observation.value, t[2].observation.value;
    assert DriveLoop.Step(DriveLoop.Fresh, o0) == DriveLoop.Continue(DriveLoop.Tracking(o0.location, o0.now));
    assert DriveLoop.MovedBeyond(o1.location, o0.location);
    assert DriveLoop.Step(DriveLoop.Tracking(o0.location, o0.now), o1) == DriveLoop.Continue(DriveLoop.Tracking(o1.location, o1.now));
    assert DriveLoop.MovedBeyond(o2.location, o1.location);
    assert DriveLoop.Step(DriveLoop.Tracking(o1.location, o1.now), o2) == DriveLoop.Stop(DriveLoop.Reached);
    var t1 := t[1..];
    var t2 := t1[1..];
    assert t1[0] == t[1] && t2[0] == t[2];
    assert DriveLoop.Ends(s.start, t1) && DriveLoop.Ends(s.start, t2) by {
      var i :| 0 <= i < |t| && (t[i].clock - s.start >= DriveLoop.MaxDuration || t[i].observation.None?);
      assert i >= 3;
      assert t1[i - 1] == t[i] && t2[i - 2] == t[i];
    }
    assert DriveLoop.Loop(s.start, DriveLoop.Tracking(o1.location, o1.now), t2) == DriveLoop.Exited(DriveLoop.Reached);
    assert DriveLoop.Loop(s.start, DriveLoop.Tracking(o0.location, o0.now), t1) == DriveLoop.Exited(DriveLoop.Reached);
    assert DriveLoop.Loop(s.start, DriveLoop.Fresh, t) == DriveLoop.Exited(DriveLoop.Reached);
    var sc := Scenario("A.xosc", Actions([true]));
    assert env.drive("A.xosc") == DriveLoop.Returned(DriveLoop.Reached);
    assert Outcome(env)(sc) == Some(Success);
    var cat := [sc];
    assert cat[1..] == [];
    var l := map["A.xosc" := Success];
    assert Scheduler.Batch(cat[1..], Name, AnyScenario, Outcome(env), l).run.ledger == l;
  }
}

=== FILE: scheduler.dfy ===
/**
 The resumable batch loop both runners share: walk the catalog in order;
 skip an entry that is not eligible or whose key the ledger already holds;
 otherwise attempt it, and either record its status and save the ledger at
 once, or stop the whole batch there (an uncaught exception or `sys.exit`).
 */
module Scheduler {
  import opened Common
  import opened Ledger

  datatype Run = Run(ledger: Outcomes, trace: seq<Event>)

  /** The loop reached the end of the catalog, or stopped at key `at` without recording it. */
  datatype BatchEnd = Finished(run: Run) | Stopped(run: Run, at: string)

  function Prepend(events: seq<Event>, e: BatchEnd): BatchEnd {
    match e
    case Finished(run) => Finished(Run(run.ledger, events + run.trace))
    case Stopped(run, at) => Stopped(Run(run.ledger, events + run.trace), at)
  }

  /** The keys of the items, in catalog order. */
  function Keys<T>(items: seq<T>, key: T -> string): (ks: seq<string>)
    ensures |ks| == |items|
    ensures forall i :: 0 <= i < |items| ==> ks[i] == key(items[i])
  {
    if |items| == 0 then [] else [key(items[0])] + Keys(items[1..], key)
  }

  /** An item the loop would attempt: eligible and not yet in the ledger. */
  predicate Due<T>(it: T, key: T -> string, eligible: T -> bool, ledger: Outcomes) {
    eligible(it) && key(it) !in ledger
  }

  /**
   The batch loop. Entries already in the ledger are never rewritten, and a
   stop leaves the item it stopped at without an entry.
   */
  function Batch<T>(items: seq<T>, key: T -> string, eligible: T -> bool, attempt: T -> Option<string>, ledger: Outcomes): (r: BatchEnd)
    ensures Extends(ledger, r.run.ledger)
    ensures r.Stopped? ==> r.at !in r.run.ledger && r.at !in ledger && r.at in Keys(items, key)
    decreases |items|
  {
    if |items| == 0 then Finished(Run(ledger, []))
    else
      var it := items[0];
      if !Due(it, key, eligible, ledger) then Prepend([Skipped(key(it))], Batch(items[1..], key, eligible, attempt, ledger))
      else match attempt(it)
        case None => Stopped(Run(ledger, []), key(it))
        case Some(status) =>
          var (l, ev) := Record(ledger, key(it), status);
          Prepend(ev, Batch(items[1..], key, eligible, attempt, l))
  }

  lemma SkipEvent(k: string, disk: Outcomes)
    ensures RecordedKeys([Skipped(k)]) == []
    ensures SavedImmediately([Skipped(k)])
    ensures LastSaved([Skipped(k)], disk) == disk
  {
    assert [Skipped(k)][1..] == [];
  }

  /** The ledger after handling the first item, when the loop goes on past it. */
  function AfterFirst<T>(items: seq<T>, key: T -> string, eligible: T -> bool, attempt: T -> Option<string>, ledger: Outcomes): Outcomes
    requires |items| > 0
  {
    var it := items[0];
    if !Due(it, key, eligible, ledger) || attempt(it).None? then ledger
    else ledger[key(it) := attempt(it).value]
  }

  /**
   Every new entry is saved at once, and what is on disk equals the ledger in
   memory whenever the loop finishes or stops.
   */
  lemma {:induction false} SavesImmediately<T>(items: seq<T>, key: T -> string, eligible: T -> bool, attempt: T -> Option<string>, ledger: Outcomes)
    ensures var r := Batch(items, key, eligible, attempt, ledger);
      SavedImmediately(r.run.trace) && LastSaved(r.run.trace, ledger) == r.run.ledger
    decreases |items|
  {
    if |items| > 0 {
      var it := items[0];
      if !Due(it, key, eligible, ledger) {
        var rest := Batch(items[1..], key, eligible, attempt, ledger);
        SavesImmediately(items[1..], key, eligible, attempt, ledger);
        SkipEvent(key(it), ledger);
        SavedImmediatelyAppend([Skipped(key(it))], rest.run.trace);
        LastSavedAppend([Skipped(key(it))], rest.run.trace, ledger);
      } else if attempt(it).Some? {
        var (l, ev) := Record(ledger, key(it), attempt(it).value);
        var rest := Batch(items[1..], key, eligible, attempt, l);
        SavesImmediately(items[1..], key, eligible, attempt, l);
        SavedImmediatelyAppend(ev, rest.run.trace);
        LastSavedAppend(ev, rest.run.trace, ledger);
      }
    }
  }

  /** Item `i` is an eligible item with key `k` whose attempt produced `status`. */
  predicate Produced<T>(items: seq<T>, key: T -> string, eligible: T -> bool, attempt: T -> Option<string>, k: string, status: string) {
    exists i :: 0 <= i < |items| && key(items[i]) == k && eligible(items[i]) && attempt(items[i]) == Some(status)
  }

  lemma ProducedTail<T>(items: seq<T>, key: T -> string, eligible: T -> bool, attempt: T -> Option<string>, k: string, status: string)
    requires |items| > 0
    requires Produced(items[1..], key, eligible, attempt, k, status)
    ensures Produced(items, key, eligible, attempt, k, status)
  {
    var i :| 0 <= i < |items[1..]| && key(items[1..][i]) == k && eligible(items[1..][i]) && attempt(items[1..][i]) == Some(status);
    assert items[1..][i] == items[i + 1];
  }

  lemma DistinctCons(k: string, ks: seq<string>)
    requires Distinct(ks) && k !in ks
    ensures Distinct([k] + ks)
  {
    var s := [k] + ks;
    forall i, j | 0 <= i < j < |s| ensures s[i] != s[j] {
      assert s[j] == ks[j - 1];
      if i > 0 { assert s[i] == ks[i - 1]; }
    }
  }

  /**
   No key gets two entries: the keys recorded during a run are distinct, were
   not in the ledger, and are exactly the keys the ledger gained.
   */
  lemma {:induction false} RecordsOnce<T>(items: seq<T>, key: T -> string, eligible: T -> bool, attempt: T -> Option<string>, ledger: Outcomes)
    ensures var r := Batch(items, key, eligible, attempt, ledger);
      && Distinct(RecordedKeys(r.run.trace))
      && (forall k :: k in RecordedKeys(r.run.trace) ==> k !in ledger)
      && (forall k :: k in r.run.ledger <==> k in ledger || k in RecordedKeys(r.run.trace))
    decreases |items|
  {
    if |items| > 0 {
      var it := items[0];
      if !Due(it, key, eligible, ledger) {
        var rest := Batch(items[1..], key, eligible, attempt, ledger);
        RecordsOnce(items[1..], key, eligible, attempt, ledger);
        SkipEvent(key(it), ledger);
        RecordedKeysAppend([Skipped(key(it))], rest.run.trace);
      } else if attempt(it).Some? {
        var (l, ev) := Record(ledger, key(it), attempt(it).value);
        var rest := Batch(items[1..], key, eligible, attempt, l);
        RecordsOnce(items[1..], key, eligible, attempt, l);
        RecordedKeysAppend(ev, rest.run.trace);
        DistinctCons(key(it), RecordedKeys(rest.run.trace));
      }
    }
  }

  /** Each entry a run adds holds the status the attempt produced for an eligible item with that key. */
  lemma {:induction false} RecordsAttempted<T>(items: seq<T>, key: T -> string, eligible: T -> bool, attempt: T -> Option<string>, ledger: Outcomes)
    ensures var r := Batch(items, key, eligible, attempt, ledger);
      forall k :: k in r.run.ledger && k !in ledger ==> Produced(items, key, eligible, attempt, k, r.run.ledger[k])
    decreases |items|
  {
    if |items| > 0 {
      var it := items[0];
      var r := Batch(items, key, eligible, attempt, ledger);
      if !Due(it, key, eligible, ledger) {
        RecordsAttempted(items[1..], key, eligible, attempt, ledger);
        forall k | k in r.run.ledger && k !in ledger
          ensures Produced(items, key, eligible, attempt, k, r.run.ledger[k])
        {
          ProducedTail(items, key, eligible, attempt, k, r.run.ledger[k]);
        }
      } else if attempt(it).Some? {
        var l := ledger[key(it) := attempt(it).value];
        var rest := Batch(items[1..], key, eligible, attempt, l);
        RecordsAttempted(items[1..], key, eligible, attempt, l);
        forall k | k in r.run.ledger && k !in ledger
          ensures Produced(items, key, eligible, attempt, k, r.run.ledger[k])
        {
          if k == key(it) {
            assert r.run.ledger[k] == attempt(it).value;
            assert key(items[0]) == k && attempt(items[0]) == Some(r.run.ledger[k]);
          } else {
            ProducedTail(items, key, eligible, attempt, k, r.run.ledger[k]);
          }
        }
      }
    }
  }

  /** A run that reaches the end of the catalog leaves an entry for every eligible item. */
  lemma {:induction false} FinishedCoversCatalog<T>(items: seq<T>, key: T -> string, eligible: T -> bool, attempt: T -> Option<string>, ledger: Outcomes)
    requires Batch(items, key, eligible, attempt, ledger).Finished?
    ensures forall i :: 0 <= i < |items| && eligible(items[i]) ==> key(items[i]) in Batch(items, key, eligible, attempt, ledger).run.ledger
    decreases |items|
  {
    if |items| > 0 {
      var l := AfterFirst(items, key, eligible, attempt, ledger);
      FinishedCoversCatalog(items[1..], key, eligible, attempt, l);
      forall i | 1 <= i < |items| && eligible(items[i])
        ensures key(items[i]) in Batch(items, key, eligible, attempt, ledger).run.ledger
      {
        assert items[1..][i - 1] == items[i];
      }
    }
  }

  /** A catalog with nothing due is skipped entirely and changes nothing. */
  lemma {:induction false} NothingDueChangesNothing<T>(items: seq<T>, key: T -> string, eligible: T -> bool, attempt: T -> Option<string>, ledger: Outcomes)
    requires forall i :: 0 <= i < |items| ==> !Due(items[i], key, eligible, ledger)
    ensures Batch(items, key, eligible, attempt, ledger).Finished?
    ensures Batch(items, key, eligible, attempt, ledger).run.ledger == ledger
    ensures RecordedKeys(Batch(items, key, eligible, attempt, ledger).run.trace) == []
    decreases |items|
  {
    if |items| > 0 {
      assert forall i :: 0 <= i < |items[1..]| ==> items[1..][i] == items[i + 1];
      NothingDueChangesNothing(items[1..], key, eligible, attempt, ledger);
      var rest := Batch(items[1..], key, eligible, attempt, ledger);
      RecordedKeysAppend([Skipped(key(items[0]))], rest.run.trace);
      SkipEvent(key(items[0]), ledger);
    }
  }

  /**
   Idempotent resumption: re-running the batch on the ledger a finished run
   left behind attempts nothing and leaves that ledger as it is.
   */
  lemma ResumeAfterFinish<T>(items: seq<T>, key: T -> string, eligible: T -> bool, attempt: T -> Option<string>, ledger: Outcomes)
    requires Batch(items, key, eligible, attempt, ledger).Finished?
    ensures var after := Batch(items, key, eligible, attempt, ledger).run.ledger;
      var again := Batch(items, key, eligible, attempt, after);
      again.Finished? && again.run.ledger == after && RecordedKeys(again.run.trace) == []
  {
    FinishedCoversCatalog(items, key, eligible, attempt, ledger);
    NothingDueChangesNothing(items, key, eligible, attempt, Batch(items, key, eligible, attempt, ledger).run.ledger);
  }

  /**
   Resumption after a stop: the item that stopped the batch never gets an
   entry, so a resumed batch (with the same oracles) stops at it again.
   */
  lemma {:induction false} StopRepeats<T>(items: seq<T>, key: T -> string, eligible: T -> bool, attempt: T -> Option<string>, ledger: Outcomes)
    requires Batch(items, key, eligible, attempt, ledger).Stopped?
    ensures var r := Batch(items, key, eligible, attempt, ledger);
      var again := Batch(items, key, eligible, attempt, r.run.ledger);
      again.Stopped? && again.at == r.at
    decreases |items|
  {
    var it := items[0];
    if !Due(it, key, eligible, ledger) {
      StopRepeats(items[1..], key, eligible, attempt, ledger);
    } else if attempt(it).Some? {
      StopRepeats(items[1..], key, eligible, attempt, ledger[key(it) := attempt(it).value]);
    }
  }

  /** A stop happens only at a due item whose attempt produced no status. */
  lemma {:induction false} StopsAtFailedAttempt<T>(items: seq<T>, key: T -> string, eligible: T -> bool, attempt: T -> Option<string>, ledger: Outcomes)
    requires Batch(items, key, eligible, attempt, ledger).Stopped?
    ensures exists i :: 0 <= i < |items| && key(items[i]) == Batch(items, key, eligible, attempt, ledger).at &&
                        Due(items[i], key, eligible, ledger) && attempt(items[i]).None?
    decreases |items|
  {
    var it := items[0];
    var r := Batch(items, key, eligible, attempt, ledger);
    if !Due(it, key, eligible, ledger) || attempt(it).Some? {
      var l := AfterFirst(items, key, eligible, attempt, ledger);
      StopsAtFailedAttempt(items[1..], key, eligible, attempt, l);
      var i :| 0 <= i < |items[1..]| && key(items[1..][i]) == r.at && Due(items[1..][i], key, eligible, l) && attempt(items[1..][i]).None?;
      assert items[1..][i] == items[i + 1];
      assert r.at !in ledger;
    } else {
      assert Due(items[0], key, eligible, ledger) && attempt(items[0]).None?;
    }
  }

  /** When every item that is due at the start produces a status, the loop runs to the end. */
  lemma {:induction false} FinishesWithoutFailedAttempt<T>(items: seq<T>, key: T -> string, eligible: T -> bool, attempt: T -> Option<string>, ledger: Outcomes)
    requires forall i :: 0 <= i < |items| && Due(items[i], key, eligible, ledger) ==> attempt(items[i]).Some?
    ensures Batch(items, key, eligible, attempt, ledger).Finished?
    decreases |items|
  {
    if |items| > 0 {
      var l := AfterFirst(items, key, eligible, attempt, ledger);
      forall i | 0 <= i < |items[1..]| && Due(items[1..][i], key, eligible, l) ensures attempt(items[1..][i]).Some? {
        assert items[1..][i] == items[i + 1];
      }
      FinishesWithoutFailedAttempt(items[1..], key, eligible, attempt, l);
    }
  }

  /**
   Conversely, an item that is due at the start and whose attempt raises
   stops the batch, unless an earlier item with the same key recorded it
   first.
   */
  lemma {:induction false} StopsAtRaisingItem<T>(items: seq<T>, key: T -> string, eligible: T -> bool, attempt: T -> Option<string>, ledger: Outcomes, i: nat)
    requires i < |items| && Due(items[i], key, eligible, ledger) && attempt(items[i]).None?
    requires forall j :: 0 <= j < i ==> key(items[j]) != key(items[i])
    ensures Batch(items, key, eligible, attempt, ledger).Stopped?
    decreases i
  {
    if i > 0 && (!Due(items[0], key, eligible, ledger) || attempt(items[0]).Some?) {
      var l := AfterFirst(items, key, eligible, attempt, ledger);
      assert items[1..][i - 1] == items[i];
      forall j | 0 <= j < i - 1 ensures key(items[1..][j]) != key(items[1..][i - 1]) {
        assert items[1..][j] == items[j + 1];
      }
      StopsAtRaisingItem(items[1..], key, eligible, attempt, l, i - 1);
    }
  }

  /** The keys of the items that are due, in catalog order. */
  function Pending<T>(items: seq<T>, key: T -> string, eligible: T -> bool, ledger: Outcomes): (ps: seq<string>)
    ensures forall k :: k in ps <==> exists i :: 0 <= i < |items| && key(items[i]) == k && Due(items[i], key, eligible, ledger)
    decreases |items|
  {
    if |items| == 0 then []
    else
      var rest := Pending(items[1..], key, eligible, ledger);
      assert forall i :: 0 <= i < |items[1..]| ==> items[1..][i] == items[i + 1];
      (if Due(items[0], key, eligible, ledger) then [key(items[0])] else []) + rest
  }

  lemma {:induction false} PendingIgnoresAbsent<T>(items: seq<T>, key: T -> string, eligible: T -> bool, ledger: Outcomes, k: string, status: string)
    requires k !in Keys(items, key)
    ensures Pending(items, key, eligible, ledger[k := status]) == Pending(items, key, eligible, ledger)
    decreases |items|
  {
    if |items| > 0 {
      assert Keys(items, key) == [key(items[0])] + Keys(items[1..], key);
      PendingIgnoresAbsent(items[1..], key, eligible, ledger, k, status);
    }
  }

  /**
   Exactly once: with distinct keys (the catalog is a JSON object), a
   finished run records exactly the items that were due, each once, in
   catalog order.
   */
  lemma {:induction false} ExactlyOnce<T>(items: seq<T>, key: T -> string, eligible: T -> bool, attempt: T -> Option<string>, ledger: Outcomes)
    requires Distinct(Keys(items, key))
    requires Batch(items, key, eligible, attempt, ledger).Finished?
    ensures RecordedKeys(Batch(items, key, eligible, attempt, ledger).run.trace) == Pending(items, key, eligible, ledger)
    decreases |items|
  {
    if |items| > 0 {
      var it := items[0];
      var ks := Keys(items, key);
      assert ks == [key(it)] + Keys(items[1..], key);
      assert Distinct(Keys(items[1..], key)) by {
        forall i, j | 0 <= i < j < |Keys(items[1..], key)| ensures Keys(items[1..], key)[i] != Keys(items[1..], key)[j] {
          assert ks[i + 1] != ks[j + 1];
        }
      }
      if !Due(it, key, eligible, ledger) {
        var rest := Batch(items[1..], key, eligible, attempt, ledger);
        ExactlyOnce(items[1..], key, eligible, attempt, ledger);
        RecordedKeysAppend([Skipped(key(it))], rest.run.trace);
        SkipEvent(key(it), ledger);
      } else {
        var (l, ev) := Record(ledger, key(it), attempt(it).value);
        var rest := Batch(items[1..], key, eligible, attempt, l);
        ExactlyOnce(items[1..], key, eligible, attempt, l);
        RecordedKeysAppend(ev, rest.run.trace);
        assert key(it) !in Keys(items[1..], key) by {
          forall j | 0 <= j < |Keys(items[1..], key)| ensures Keys(items[1..], key)[j] != key(it) {
            assert ks[0] != ks[j + 1];
          }
        }
        PendingIgnoresAbsent(items[1..], key, eligible, ledger, key(it), attempt(it).value);
      }
    }
  }
}

=== FILE: script_status.dfy ===
/**
 The status classification of `run_scenario_debug` in batch_scenarios_xodr.py:
 how the captured stdout and return code of the per-scenario debug script
 become the status string stored in the ledger. The subprocess itself is an
 oracle; its result is a `RunOutcome`.
 */
module ScriptStatus {
  import opened Common
  import opened Strings

  const Tag := "FINAL_STATUS:"
  const UnknownOutput := "UNKNOWN_SCRIPT_OUTPUT"
  const CompletedNoStatus := "COMPLETED_NO_STATUS_PARSE"
  const ErrorCodePrefix := "SCRIPT_ERROR_CODE_"
  const ScriptNotFound := "SCRIPT_NOT_FOUND"
  const ProcessingError := "BATCH_PROCESSING_ERROR"

  /**
   The characters `str.isspace()` accepts, which is also what `\s` matches in
   a `str` pattern: ASCII whitespace, the four information separators, and
   the Unicode space separators and line breaks.
   */
  predicate IsSpace(c: char) {
    || c == ' ' || ('\t' <= c <= '\r') || ('\U{1c}' <= c <= '\U{1f}')
    || c == '\U{85}' || c == '\U{a0}' || c == '\U{1680}' || ('\U{2000}' <= c <= '\U{200a}')
    || c == '\U{2028}' || c == '\U{2029}' || c == '\U{202f}' || c == '\U{205f}' || c == '\U{3000}'
  }

  predicate AllSpace(s: string) {
    forall i :: 0 <= i < |s| ==> IsSpace(s[i])
  }

  // ---------------------------------------------------------------------
  // `str.strip()`

  function StripLeft(s: string): (r: string)
    ensures |r| <= |s| && r == s[|s| - |r|..]
    ensures AllSpace(s[..|s| - |r|])
    ensures |r| > 0 ==> !IsSpace(r[0])
    decreases |s|
  {
    if |s| > 0 && IsSpace(s[0]) then
      var t := StripLeft(s[1..]);
      assert s[..|s| - |t|] == [s[0]] + s[1..][..|s[1..]| - |t|];
      t
    else s
  }

  function StripRight(s: string): (r: string)
    ensures |r| <= |s| && r == s[..|r|]
    ensures AllSpace(s[|r|..])
    ensures |r| > 0 ==> !IsSpace(r[|r| - 1])
    decreases |s|
  {
    if |s| > 0 && IsSpace(s[|s| - 1]) then
      var t := StripRight(s[..|s| - 1]);
      assert s[|t|..] == s[..|s| - 1][|t|..] + [s[|s| - 1]];
      t
    else s
  }

  /**
   Python's `str.strip()`: the longest slice of `s` that neither starts nor
   ends with whitespace, with only whitespace cut off on either side.
   */
  function Strip(s: string): (r: string)
    ensures |r| > 0 ==> !IsSpace(r[0]) && !IsSpace(r[|r| - 1])
    ensures Trimmed(s, r, |s| - |StripLeft(s)|)
  {
    var l := StripLeft(s);
    var r := StripRight(l);
    SliceOfSuffix(s, l, r);
    r
  }

  /** `r` is the slice of `s` at `i`, with only whitespace before and after it. */
  predicate Trimmed(s: string, r: string, i: int) {
    0 <= i <= |s| - |r| && r == s[i..i + |r|] && AllSpace(s[..i]) && AllSpace(s[i + |r|..])
  }

  /** Cutting whitespace off the front and then the back leaves a trimmed slice of the original. */
  lemma SliceOfSuffix(s: string, l: string, r: string)
    requires |l| <= |s| && l == s[|s| - |l|..] && AllSpace(s[..|s| - |l|])
    requires |l| > 0 ==> !IsSpace(l[0])
    requires |r| <= |l| && r == l[..|r|] && AllSpace(l[|r|..])
    requires |r| > 0 ==> !IsSpace(r[|r| - 1])
    ensures |r| > 0 ==> !IsSpace(r[0]) && !IsSpace(r[|r| - 1])
    ensures Trimmed(s, r, |s| - |l|)
  {
    var i := |s| - |l|;
    assert |r| > 0 ==> r[0] == l[0];
    assert s[i + |r|..] == l[|r|..];
  }

  /** Stripping only cuts characters off, so a character absent from `s` is absent from the result. */
  lemma StripKeepsAbsent(s: string, c: char)
    requires c !in s
    ensures c !in Strip(s)
  {
    var r := Strip(s);
    var i := |s| - |StripLeft(s)|;
    assert forall j :: 0 <= j < |r| ==> r[j] == s[i + j];
  }

  /** Text already stripped is left as it is, so stripping twice is stripping once. */
  lemma StripFixedPoint(s: string)
    requires |s| > 0 ==> !IsSpace(s[0]) && !IsSpace(s[|s| - 1])
    ensures Strip(s) == s
  {
  }

  lemma StripIdempotent(s: string)
    ensures Strip(Strip(s)) == Strip(s)
  {
    StripFixedPoint(Strip(s));
  }

  // ---------------------------------------------------------------------
  // `re.search(r"FINAL_STATUS:\s*(.+)", stdout)`

  /**
   Where group 1 can begin when `\s*` is tried at `p`: after whitespace only,
   on a character that `.` matches (anything but a newline).
   */
  predicate GroupCanStart(s: string, p: int, k: int) {
    0 <= p <= k < |s| && AllSpace(s[p..k]) && s[k] != '\n'
  }

  /** Where the whitespace run starting at `p` ends. */
  function SpaceEnd(s: string, p: nat): (q: nat)
    requires p <= |s|
    ensures p <= q <= |s| && AllSpace(s[p..q])
    ensures q < |s| ==> !IsSpace(s[q])
    decreases |s| - p
  {
    if p < |s| && IsSpace(s[p]) then
      var q := SpaceEnd(s, p + 1);
      assert s[p..q] == [s[p]] + s[p + 1..q];
      q
    else p
  }

  /** The last index in `[lo, hi)` that is not a newline. */
  function LastNonNewline(s: string, lo: nat, hi: nat): (r: Option<nat>)
    requires lo <= hi <= |s|
    ensures r.Some? ==> lo <= r.value < hi && s[r.value] != '\n' && forall k :: r.value < k < hi ==> s[k] == '\n'
    ensures r.None? ==> forall k :: lo <= k < hi ==> s[k] == '\n'
    decreases hi - lo
  {
    if hi == lo then None
    else if s[hi - 1] != '\n' then Some(hi - 1)
    else LastNonNewline(s, lo, hi - 1)
  }

  /**
   The start of group 1 when the pattern's tail is tried at `p`: `\s*` is
   greedy, so it takes as much whitespace as it can and gives back only what
   `.+` needs. The result is the greatest possible start, and there is none
   exactly when no start is possible.
   */
  function GroupStart(s: string, p: nat): (r: Option<nat>)
    requires p <= |s|
    ensures r.Some? ==> GroupCanStart(s, p, r.value) && forall k :: GroupCanStart(s, p, k) ==> k <= r.value
    ensures r.None? <==> forall k :: !GroupCanStart(s, p, k)
  {
    var q := SpaceEnd(s, p);
    assert forall k :: GroupCanStart(s, p, k) ==> k <= q;
    if q < |s| then Some(q)
    else
      var r := LastNonNewline(s, p, q);
      assert r.Some? ==> s[p..r.value] == s[p..q][..r.value - p];
      r
  }

  /** The first newline at or after `k`, or the end of `s`: where `.+` stops. */
  function LineEnd(s: string, k: nat): (e: nat)
    requires k <= |s|
    ensures k <= e <= |s|
    ensures forall j :: k <= j < e ==> s[j] != '\n'
    ensures e < |s| ==> s[e] == '\n'
    decreases |s| - k
  {
    if k == |s| || s[k] == '\n' then k else LineEnd(s, k + 1)
  }

  /** Group 1 can begin somewhere when `\s*` is tried at `p`. */
  ghost predicate GroupPossible(s: string, p: int) {
    exists k :: GroupCanStart(s, p, k)
  }

  /** The whole pattern matches starting at index `i`. */
  ghost predicate MatchesAt(s: string, i: int) {
    OccursAt(s, Tag, i) && GroupPossible(s, i + |Tag|)
  }

  /** `re.search` scans left to right: the first index where the pattern matches, at or after `i`. */
  function Search(s: string, i: nat): (r: Option<nat>)
    requires i <= |s|
    ensures r.Some? ==> i <= r.value && MatchesAt(s, r.value) && forall j :: i <= j < r.value ==> !MatchesAt(s, j)
    ensures r.None? ==> forall j :: i <= j ==> !MatchesAt(s, j)
    decreases |s| - i
  {
    if OccursAt(s, Tag, i) && GroupStart(s, i + |Tag|).Some? then Some(i)
    else if i == |s| then None
    else Search(s, i + 1)
  }

  /** `match.group(1).strip()` for the first match, if any. */
  function FinalStatus(s: string): (r: Option<string>)
    ensures r.Some? ==> '\n' !in r.value
  {
    match Search(s, 0)
    case None => None
    case Some(i) => Some(Captured(s, i + |Tag|))
  }

  /** A status is read exactly when the pattern matches somewhere in the output. */
  lemma FinalStatusIffMatch(s: string)
    ensures FinalStatus(s).None? <==> forall j :: !MatchesAt(s, j)
  {
    if FinalStatus(s).None? {
      forall j ensures !MatchesAt(s, j) {
        if j < 0 {
          assert !OccursAt(s, Tag, j);
        }
      }
    }
  }

  /**
   Group 1, stripped, when `\s*` is tried at `p`: the captured text runs from
   the group's start up to the end of that line.
   */
  function Captured(s: string, p: nat): (r: string)
    requires p <= |s| && GroupStart(s, p).Some?
    ensures '\n' !in r
  {
    var k := GroupStart(s, p).value;
    var e := LineEnd(s, k);
    assert '\n' !in s[k..e];
    StripKeepsAbsent(s[k..e], '\n');
    Strip(s[k..e])
  }

  // ---------------------------------------------------------------------
  // The classifier

  /** What running the debug script produced. */
  datatype RunOutcome =
    | Completed(stdout: string, returncode: int)
    | ExecutableNotFound      // `subprocess.run` raised `FileNotFoundError`
    | OtherError              // any other exception

  /** The status `run_scenario_debug` returns. */
  function Classify(o: RunOutcome): (r: string)
    ensures o.ExecutableNotFound? ==> r == ScriptNotFound
    ensures o.OtherError? ==> r == ProcessingError
    ensures o.Completed? && |o.stdout| > 0 && FinalStatus(o.stdout).None? ==> r == UnknownOutput
    ensures o.Completed? && |o.stdout| > 0 && FinalStatus(o.stdout).Some? ==> '\n' !in r
    ensures o.Completed? && |o.stdout| == 0 ==> (o.returncode == 0 <==> r == CompletedNoStatus)
    ensures o.Completed? && |o.stdout| == 0 && o.returncode != 0 ==>
              |r| > |ErrorCodePrefix| && r[..|ErrorCodePrefix|] == ErrorCodePrefix && IsIntText(r[|ErrorCodePrefix|..])
  {
    match o
    case ExecutableNotFound => ScriptNotFound
    case OtherError => ProcessingError
    case Completed(out, rc) =>
      if |out| > 0 then
        match FinalStatus(out)
        case Some(st) => st
        case None => UnknownOutput
      else if rc == 0 then CompletedNoStatus
      else
        var r := ErrorCodePrefix + IntToString(rc);
        assert r[|ErrorCodePrefix|..] == IntToString(rc);
        r
  }

  /** Output with text but no match of the pattern anywhere, and only such output, is reported as unknown. */
  lemma UnknownIffNoMatch(out: string, rc: int)
    requires |out| > 0
    ensures (forall j :: !MatchesAt(out, j)) <==> Classify(Completed(out, rc)) == UnknownOutput && FinalStatus(out).None?
  {
    FinalStatusIffMatch(out);
  }

  /**
   The error-code status can be read back: after the prefix comes the
   return code, so distinct non-zero codes give distinct statuses, and a
   signal-killed script (negative code) keeps its sign.
   */
  lemma ErrorCodeRoundTrip(rc: int)
    requires rc != 0
    ensures var r := Classify(Completed("", rc));
      r[..|ErrorCodePrefix|] == ErrorCodePrefix && ParseInt(r[|ErrorCodePrefix|..]) == rc
  {
    var r := Classify(Completed("", rc));
    assert r[|ErrorCodePrefix|..] == IntToString(rc);
    IntRoundTrip(rc);
  }

  /** The tag does not occur at any index before `n`. */
  predicate NoTagBefore(s: string, n: int) {
    forall j :: 0 <= j < n ==> !OccursAt(s, Tag, j)
  }

  /** The pattern cannot match at any index before `n` when the tag does not occur there. */
  lemma NoEarlierMatch(s: string, n: nat)
    requires NoTagBefore(s, n)
    ensures forall j :: 0 <= j < n ==> !MatchesAt(s, j)
  {
  }

  /** With no tag before `i` and a match at `i`, the search stops at `i`. */
  lemma FirstMatchFound(s: string, i: nat)
    requires i <= |s| && MatchesAt(s, i)
    requires NoTagBefore(s, i)
    ensures Search(s, 0) == Some(i)
  {
    NoEarlierMatch(s, i);
  }

  /** One space and then a non-space character: group 1 starts right after the space. */
  lemma GroupAfterOneSpace(s: string, p: nat)
    requires p + 1 < |s| && s[p] == ' ' && !IsSpace(s[p + 1])
    ensures GroupStart(s, p) == Some(p + 1)
  {
    assert GroupCanStart(s, p, p + 1) by { assert s[p..p + 1] == [' ']; }
  }

  /**
   A script that prints `FINAL_STATUS: <st>` on a line, with no earlier
   occurrence of the tag, gets exactly `st` as its status, whatever follows
   and whatever the return code.
   */
  lemma PrintedStatusIsRecovered(pre: string, st: string, post: string, rc: int)
    requires |st| > 0 && !IsSpace(st[0]) && !IsSpace(st[|st| - 1]) && '\n' !in st
    requires NoTagBefore(pre + Tag + " " + st + "\n" + post, |pre|)
    ensures Classify(Completed(pre + Tag + " " + st + "\n" + post, rc)) == st
  {
    PrintedStatusRead(pre, st, post);
    ClassifyFirstMatch(pre + Tag + " " + st + "\n" + post, rc, st);
  }

  /** The status read from such an output is the printed one. */
  lemma PrintedStatusRead(pre: string, st: string, post: string)
    requires |st| > 0 && !IsSpace(st[0]) && !IsSpace(st[|st| - 1]) && '\n' !in st
    requires NoTagBefore(pre + Tag + " " + st + "\n" + post, |pre|)
    ensures |pre + Tag + " " + st + "\n" + post| > 0
    ensures FinalStatus(pre + Tag + " " + st + "\n" + post) == Some(st)
  {
    var s := pre + Tag + " " + st + "\n" + post;
    PrintedLineFound(pre, st, post);
    PrintedCaptured(pre, st, post);
    FinalStatusAt(s, |pre|, st);
  }

  /** The case of a script whose whole output is the status line. */
  lemma PrintedStatusAlone(st: string, rc: int)
    requires |st| > 0 && !IsSpace(st[0]) && !IsSpace(st[|st| - 1]) && '\n' !in st
    ensures Classify(Completed(Tag + " " + st + "\n", rc)) == st
  {
    assert [] + Tag + " " + st + "\n" + [] == Tag + " " + st + "\n";
    assert NoTagBefore([] + Tag + " " + st + "\n" + [], 0);
    PrintedStatusIsRecovered([], st, [], rc);
  }

  /** Group 1 of the printed line starts right after the space that follows the tag. */
  lemma PrintedGroupStart(pre: string, st: string, post: string)
    requires |st| > 0 && !IsSpace(st[0])
    ensures var s := pre + Tag + " " + st + "\n" + post;
      GroupStart(s, |pre| + |Tag|) == Some(|pre| + |Tag| + 1)
  {
    var s := pre + Tag + " " + st + "\n" + post;
    PrintedLayout(pre, st, post);
    GroupAfterOneSpace(s, |pre| + |Tag|);
  }

  /** The search stops at the printed tag. */
  lemma PrintedLineFound(pre: string, st: string, post: string)
    requires |st| > 0 && !IsSpace(st[0])
    requires NoTagBefore(pre + Tag + " " + st + "\n" + post, |pre|)
    ensures var s := pre + Tag + " " + st + "\n" + post;
      Search(s, 0) == Some(|pre|) && GroupStart(s, |pre| + |Tag|) == Some(|pre| + |Tag| + 1)
  {
    var s := pre + Tag + " " + st + "\n" + post;
    var p := |pre| + |Tag|;
    PrintedLayout(pre, st, post);
    PrintedGroupStart(pre, st, post);
    assert GroupCanStart(s, p, p + 1);
    FirstMatchFound(s, |pre|);
  }

  /** The captured text of the printed line, stripped, is the status itself. */
  lemma PrintedCaptured(pre: string, st: string, post: string)
    requires |st| > 0 && !IsSpace(st[0]) && !IsSpace(st[|st| - 1]) && '\n' !in st
    ensures var s := pre + Tag + " " + st + "\n" + post;
      |pre| + |Tag| <= |s| && GroupStart(s, |pre| + |Tag|).Some? && Captured(s, |pre| + |Tag|) == st
  {
    var s := pre + Tag + " " + st + "\n" + post;
    var k := |pre| + |Tag| + 1;
    PrintedGroupStart(pre, st, post);
    PrintedLineEnd(pre, st, post);
    StripFixedPoint(st);
    CapturedIs(s, k - 1, k, k + |st|, st);
  }

  /** Group 1 runs to the newline printed after the status. */
  lemma PrintedLineEnd(pre: string, st: string, post: string)
    requires '\n' !in st
    ensures var s := pre + Tag + " " + st + "\n" + post;
      var k := |pre| + |Tag| + 1;
      LineEnd(s, k) == k + |st| && s[k..k + |st|] == st
  {
    var s := pre + Tag + " " + st + "\n" + post;
    var k := |pre| + |Tag| + 1;
    PrintedLayout(pre, st, post);
    assert forall j :: k <= j < k + |st| ==> s[j] == st[j - k];
  }

  /** Where the pieces of a printed status line sit in the output. */
  lemma PrintedLayout(pre: string, st: string, post: string)
    ensures var s := pre + Tag + " " + st + "\n" + post;
      var p := |pre| + |Tag|;
      && s[|pre|..p] == Tag && s[p] == ' ' && s[p + 1..p + 1 + |st|] == st && s[p + 1 + |st|] == '\n'
  {
    var s := pre + Tag + " " + st + "\n" + post;
    var p := |pre| + |Tag|;
    var tail := " " + st + "\n" + post;
    assert s == pre + Tag + tail;
    assert s[p..] == tail;
    assert tail[1..1 + |st|] == st;
  }

  /** A completed script with output gets the status read from that output. */
  lemma ClassifyFirstMatch(s: string, rc: int, st: string)
    requires |s| > 0 && FinalStatus(s) == Some(st)
    ensures Classify(Completed(s, rc)) == st
  {
  }

  /** The status read from a known first match. */
  lemma FinalStatusAt(s: string, i: nat, st: string)
    requires i + |Tag| <= |s| && Search(s, 0) == Some(i) && GroupStart(s, i + |Tag|).Some?
    requires Captured(s, i + |Tag|) == st
    ensures FinalStatus(s) == Some(st)
  {
  }

  /** The captured text for a known group start and line end. */
  lemma CapturedIs(s: string, p: nat, k: nat, e: nat, st: string)
    requires p <= |s| && GroupStart(s, p) == Some(k) && k <= |s| && LineEnd(s, k) == e
    requires Strip(s[k..e]) == st
    ensures Captured(s, p) == st
  {
  }

  /**
   A match whose captured text is only whitespace yields the empty status:
   `FINAL_STATUS:` followed by spaces and nothing else.
   */
  lemma BlankStatusIsEmpty()
    ensures Classify(Completed(Tag + "  ", 1)) == ""
  {
    var s := Tag + "  ";
    var p := |Tag|;
    assert OccursAt(s, Tag, 0) by { assert s[0..|Tag|] == Tag; }
    assert GroupCanStart(s, p, p + 1) by { assert s[p..p + 1] == [' ']; }
    assert Search(s, 0) == Some(0);
    var k := GroupStart(s, p).value;
    assert k == p + 1;
    assert LineEnd(s, k) == |s|;
    assert s[k..|s|] == " ";
  }
}

=== FILE: spawn_cleanup.dfy ===
/**
 The pure part of `clean_spawn_points_in_file` in
 helper/cleanup_spawn_points.py: drop incomplete entries, keep one entry per
 pose (the one with the lowest id, the earliest on a tie), and sort the
 result by id. Reading and writing the files is left to the caller.
 */
module SpawnCleanup {
  import opened Common

  /** The six numbers that make up the deduplication key. */
  datatype Pose = Pose(x: real, y: real, z: real, pitch: real, yaw: real, roll: real)

  /**
   One spawn point object. `pose` is absent when `location` or `rotation` is
   missing, is not an object, or lacks one of its components; `rest` stands
   for every other field, which the cleanup carries along untouched.
   */
  datatype Entry = Entry(id: Option<int>, pose: Option<Pose>, rest: string)

  /** The entry has an id and a complete pose; every other entry is skipped. */
  predicate Complete(e: Entry) { e.id.Some? && e.pose.Some? }

  /**
   Index `i` holds the entry the cleanup keeps for its pose among the first
   `n` entries: complete, with the lowest id of that pose, and the earliest
   of those with that id.
   */
  predicate KeptAmong(entries: seq<Entry>, n: nat, i: int)
    requires n <= |entries|
  {
    && 0 <= i < n && Complete(entries[i])
    && forall k :: 0 <= k < n && Complete(entries[k]) && entries[k].pose == entries[i].pose ==>
         entries[i].id.value < entries[k].id.value || (entries[i].id.value == entries[k].id.value && i <= k)
  }

  /** `e` is the entry the cleanup keeps for its pose among all of `entries`. */
  ghost predicate KeptFrom(entries: seq<Entry>, e: Entry) {
    exists i :: KeptAmong(entries, |entries|, i) && e == entries[i]
  }

  /** No two entries share a pose. */
  predicate DistinctPoses(s: seq<Entry>) {
    forall a, b :: 0 <= a < b < |s| ==> s[a].pose != s[b].pose
  }

  /** The number of complete entries. */
  function CompleteCount(s: seq<Entry>): (n: nat)
    ensures n <= |s|
  {
    if |s| == 0 then 0 else CompleteCount(s[..|s| - 1]) + (if Complete(s[|s| - 1]) then 1 else 0)
  }

  /** The position of the kept entry with pose `p`, if there is one. */
  function FindPose(kept: seq<Entry>, p: Pose): (r: Option<nat>)
    ensures r.Some? ==> r.value < |kept| && kept[r.value].pose == Some(p)
    ensures r.None? ==> forall j :: 0 <= j < |kept| ==> kept[j].pose != Some(p)
  {
    if |kept| == 0 then None
    else if kept[|kept| - 1].pose == Some(p) then Some(|kept| - 1)
    else FindPose(kept[..|kept| - 1], p)
  }

  /** The loop invariant of the dedup loop after `i` entries, with `idx` the input positions of the kept entries. */
  ghost predicate DedupInv(entries: seq<Entry>, i: nat, kept: seq<Entry>, idx: seq<nat>) {
    && i <= |entries|
    && |idx| == |kept| <= CompleteCount(entries[..i])
    && DistinctPoses(kept)
    && (forall j :: 0 <= j < |kept| ==> KeptAmong(entries, i, idx[j]) && kept[j] == entries[idx[j]])
    && (forall k :: 0 <= k < i && Complete(entries[k]) ==> exists j :: 0 <= j < |kept| && kept[j].pose == entries[k].pose)
  }

  lemma CompleteCountStep(entries: seq<Entry>, i: nat)
    requires i < |entries|
    ensures CompleteCount(entries[..i + 1]) == CompleteCount(entries[..i]) + (if Complete(entries[i]) then 1 else 0)
  {
    assert entries[..i + 1][..i] == entries[..i];
  }

  /** An incomplete entry is skipped. */
  lemma StepSkip(entries: seq<Entry>, i: nat, kept: seq<Entry>, idx: seq<nat>)
    requires i < |entries| && DedupInv(entries, i, kept, idx) && !Complete(entries[i])
    ensures DedupInv(entries, i + 1, kept, idx)
  {
    CompleteCountStep(entries, i);
  }

  /** Appending an entry whose pose no kept entry has keeps the poses distinct. */
  lemma AppendKeepsDistinct(kept: seq<Entry>, e: Entry)
    requires DistinctPoses(kept) && forall j :: 0 <= j < |kept| ==> kept[j].pose != e.pose
    ensures DistinctPoses(kept + [e])
  {
    var kept' := kept + [e];
    forall a, b | 0 <= a < b < |kept'| ensures kept'[a].pose != kept'[b].pose {
      assert kept'[a] == kept[a];
      if b < |kept| { assert kept'[b] == kept[b]; }
    }
  }

  /** A complete entry whose pose nothing before it had is the kept entry of that pose. */
  lemma FirstOfPoseKept(entries: seq<Entry>, i: nat)
    requires i < |entries| && Complete(entries[i])
    requires forall k :: 0 <= k < i && Complete(entries[k]) ==> entries[k].pose != entries[i].pose
    ensures KeptAmong(entries, i + 1, i)
  {
  }

  /** The previous kept entries stay kept, and the new one joins them. */
  lemma AppendKeeps(entries: seq<Entry>, i: nat, kept: seq<Entry>, idx: seq<nat>, kept': seq<Entry>, idx': seq<nat>)
    requires i < |entries| && |idx| == |kept| && Complete(entries[i])
    requires kept' == kept + [entries[i]] && idx' == idx + [i]
    requires forall t :: 0 <= t < |kept| ==> KeptAmong(entries, i, idx[t]) && kept[t] == entries[idx[t]]
    requires forall t :: 0 <= t < |kept| ==> kept[t].pose != entries[i].pose
    requires KeptAmong(entries, i + 1, i)
    ensures forall t :: 0 <= t < |kept'| ==> KeptAmong(entries, i + 1, idx'[t]) && kept'[t] == entries[idx'[t]]
  {
    forall t | 0 <= t < |kept'| ensures KeptAmong(entries, i + 1, idx'[t]) && kept'[t] == entries[idx'[t]] {
      if t < |kept| {
        assert idx'[t] == idx[t] && kept'[t] == kept[t];
        KeptStays(entries, i, idx[t]);
      }
    }
  }

  /** Every complete pose seen so far, including the new one, is covered after the append. */
  lemma AppendCovers(entries: seq<Entry>, i: nat, kept: seq<Entry>, kept': seq<Entry>)
    requires i < |entries| && kept' == kept + [entries[i]]
    requires forall k :: 0 <= k < i && Complete(entries[k]) ==> exists t :: 0 <= t < |kept| && kept[t].pose == entries[k].pose
    ensures forall k :: 0 <= k < i + 1 && Complete(entries[k]) ==> exists t :: 0 <= t < |kept'| && kept'[t].pose == entries[k].pose
  {
    forall k | 0 <= k < i + 1 && Complete(entries[k]) ensures exists t :: 0 <= t < |kept'| && kept'[t].pose == entries[k].pose {
      if k == i {
        assert kept'[|kept|].pose == entries[k].pose;
      } else {
        var t :| 0 <= t < |kept| && kept[t].pose == entries[k].pose;
        assert kept'[t] == kept[t];
      }
    }
  }

  /** A complete entry with a new pose is appended. */
  lemma StepAppend(entries: seq<Entry>, i: nat, kept: seq<Entry>, idx: seq<nat>)
    requires i < |entries| && DedupInv(entries, i, kept, idx) && Complete(entries[i])
    requires forall j :: 0 <= j < |kept| ==> kept[j].pose != entries[i].pose
    ensures DedupInv(entries, i + 1, kept + [entries[i]], idx + [i])
  {
    CompleteCountStep(entries, i);
    forall k | 0 <= k < i && Complete(entries[k]) ensures entries[k].pose != entries[i].pose {
      var j :| 0 <= j < |kept| && kept[j].pose == entries[k].pose;
    }
    FirstOfPoseKept(entries, i);
    AppendKeepsDistinct(kept, entries[i]);
    AppendKeeps(entries, i, kept, idx, kept + [entries[i]], idx + [i]);
    AppendCovers(entries, i, kept, kept + [entries[i]]);
  }

  /** The other kept entries have poses other than the one kept at `j`. */
  lemma OthersDiffer(kept: seq<Entry>, j: nat)
    requires DistinctPoses(kept) && j < |kept|
    ensures forall t :: 0 <= t < |kept| && t != j ==> kept[t].pose != kept[j].pose
  {
    forall t | 0 <= t < |kept| && t != j ensures kept[t].pose != kept[j].pose {
      if t < j { assert kept[t].pose != kept[j].pose; } else { assert kept[j].pose != kept[t].pose; }
    }
  }

  /** Replacing the entry kept for a pose by another entry with that pose keeps the poses distinct. */
  lemma ReplaceKeepsDistinct(kept: seq<Entry>, j: nat, e: Entry)
    requires DistinctPoses(kept) && j < |kept| && kept[j].pose == e.pose
    ensures DistinctPoses(kept[j := e])
  {
    var kept' := kept[j := e];
    forall a, b | 0 <= a < b < |kept'| ensures kept'[a].pose != kept'[b].pose {
      assert kept'[a].pose == kept[a].pose && kept'[b].pose == kept[b].pose;
    }
  }

  /** The entry kept at `p` among `i` entries stays kept when entry `i` does not beat it. */
  lemma KeptStays(entries: seq<Entry>, i: nat, p: int)
    requires i < |entries| && KeptAmong(entries, i, p)
    requires Complete(entries[i]) && entries[i].pose == entries[p].pose ==> entries[p].id.value <= entries[i].id.value
    ensures KeptAmong(entries, i + 1, p)
  {
  }

  /** Entry `i` beats the entry kept for its pose, so it is kept among the first `i + 1`. */
  lemma NewKept(entries: seq<Entry>, i: nat, p: int)
    requires i < |entries| && KeptAmong(entries, i, p) && Complete(entries[i])
    requires entries[i].pose == entries[p].pose && entries[i].id.value < entries[p].id.value
    ensures KeptAmong(entries, i + 1, i)
  {
    forall k | 0 <= k < i + 1 && Complete(entries[k]) && entries[k].pose == entries[i].pose
      ensures entries[i].id.value < entries[k].id.value || (entries[i].id.value == entries[k].id.value && i <= k)
    {
      if k < i {
        assert entries[p].id.value <= entries[k].id.value;
      }
    }
  }

  /** Every complete pose seen so far, including that of entry `i`, is still covered after the replacement at `j`. */
  lemma ReplaceCovers(entries: seq<Entry>, i: nat, kept: seq<Entry>, j: nat, kept': seq<Entry>)
    requires i < |entries| && j < |kept| && kept[j].pose == entries[i].pose && kept' == kept[j := entries[i]]
    requires forall k :: 0 <= k < i && Complete(entries[k]) ==> exists t :: 0 <= t < |kept| && kept[t].pose == entries[k].pose
    ensures forall k :: 0 <= k < i + 1 && Complete(entries[k]) ==> exists t :: 0 <= t < |kept'| && kept'[t].pose == entries[k].pose
  {
    forall k | 0 <= k < i + 1 && Complete(entries[k]) ensures exists t :: 0 <= t < |kept'| && kept'[t].pose == entries[k].pose {
      if k == i {
        assert kept'[j].pose == entries[k].pose;
      } else {
        var t :| 0 <= t < |kept| && kept[t].pose == entries[k].pose;
        assert kept'[t].pose == kept[t].pose;
      }
    }
  }

  /** The replacement at `j` leaves every kept position the kept entry of its pose among the first `i + 1`. */
  lemma ReplaceKeeps(entries: seq<Entry>, i: nat, kept: seq<Entry>, idx: seq<nat>, j: nat, kept': seq<Entry>, idx': seq<nat>)
    requires i < |entries| && |idx| == |kept| && j < |kept| && Complete(entries[i]) && Complete(kept[j])
    requires kept' == kept[j := entries[i]] && idx' == idx[j := i]
    requires forall t :: 0 <= t < |kept| ==> KeptAmong(entries, i, idx[t]) && kept[t] == entries[idx[t]]
    requires forall t :: 0 <= t < |kept| && t != j ==> kept[t].pose != kept[j].pose
    requires kept[j].pose == entries[i].pose && entries[i].id.value < kept[j].id.value
    ensures forall t :: 0 <= t < |kept'| ==> KeptAmong(entries, i + 1, idx'[t]) && kept'[t] == entries[idx'[t]]
  {
    NewKept(entries, i, idx[j]);
    forall t | 0 <= t < |kept'| ensures KeptAmong(entries, i + 1, idx'[t]) && kept'[t] == entries[idx'[t]] {
      if t != j {
        KeptStays(entries, i, idx[t]);
      }
    }
  }

  /** A complete entry with a lower id than the kept entry of its pose replaces it. */
  lemma StepReplace(entries: seq<Entry>, i: nat, kept: seq<Entry>, idx: seq<nat>, j: nat)
    requires i < |entries| && DedupInv(entries, i, kept, idx) && Complete(entries[i])
    requires j < |kept| && kept[j].pose == entries[i].pose
    requires entries[i].id.value < kept[j].id.value
    ensures DedupInv(entries, i + 1, kept[j := entries[i]], idx[j := i])
  {
    CompleteCountStep(entries, i);
    OthersDiffer(kept, j);
    ReplaceKeepsDistinct(kept, j, entries[i]);
    assert KeptAmong(entries, i, idx[j]);
    ReplaceKeeps(entries, i, kept, idx, j, kept[j := entries[i]], idx[j := i]);
    ReplaceCovers(entries, i, kept, j, kept[j := entries[i]]);
  }

  /** A complete entry whose id is not lower than the kept entry of its pose is dropped. */
  lemma StepDrop(entries: seq<Entry>, i: nat, kept: seq<Entry>, idx: seq<nat>, j: nat)
    requires i < |entries| && DedupInv(entries, i, kept, idx) && Complete(entries[i])
    requires j < |kept| && kept[j].pose == entries[i].pose
    requires entries[i].id.value >= kept[j].id.value
    ensures DedupInv(entries, i + 1, kept, idx)
  {
    CompleteCountStep(entries, i);
    assert KeptAmong(entries, i, idx[j]);
    OthersDiffer(kept, j);
    forall t | 0 <= t < |kept| ensures KeptAmong(entries, i + 1, idx[t]) {
      KeptStays(entries, i, idx[t]);
    }
  }

  /**
   One iteration of the dedup loop: an incomplete entry is skipped; a
   complete one is added under a new pose, replaces the entry kept for its
   pose when its id is lower, and is dropped otherwise.
   */
  function Absorb(kept: seq<Entry>, e: Entry): seq<Entry> {
    if !Complete(e) then kept
    else match FindPose(kept, e.pose.value)
      case None => kept + [e]
      case Some(j) => if e.id.value < Key(kept[j]) then kept[j := e] else kept
  }

  lemma AbsorbCases(kept: seq<Entry>, e: Entry)
    ensures !Complete(e) ==> Absorb(kept, e) == kept
    ensures Complete(e) && FindPose(kept, e.pose.value).None? ==> Absorb(kept, e) == kept + [e]
    ensures Complete(e) && FindPose(kept, e.pose.value).Some? ==>
      var j := FindPose(kept, e.pose.value).value;
      Absorb(kept, e) == if e.id.value < Key(kept[j]) then kept[j := e] else kept
  {
  }

  /** Absorbing entry `n` keeps the loop invariant, with `idx'` the updated positions. */
  lemma AbsorbStep(entries: seq<Entry>, n: nat, kept: seq<Entry>, idx: seq<nat>) returns (idx': seq<nat>)
    requires n < |entries| && DedupInv(entries, n, kept, idx)
    ensures DedupInv(entries, n + 1, Absorb(kept, entries[n]), idx')
  {
    var e := entries[n];
    AbsorbCases(kept, e);
    if !Complete(e) {
      StepSkip(entries, n, kept, idx);
      idx' := idx;
    } else {
      match FindPose(kept, e.pose.value)
      case None =>
        StepAppend(entries, n, kept, idx);
        idx' := idx + [n];
      case Some(j) =>
        assert KeptAmong(entries, n, idx[j]) && kept[j] == entries[idx[j]];
        assert Key(kept[j]) == kept[j].id.value;
        if e.id.value < kept[j].id.value {
          StepReplace(entries, n, kept, idx, j);
          idx' := idx[j := n];
        } else {
          StepDrop(entries, n, kept, idx, j);
          idx' := idx;
        }
    }
  }

  /** The invariant over all the entries gives the dedup loop's result its properties. */
  lemma DedupDone(entries: seq<Entry>, kept: seq<Entry>, idx: seq<nat>)
    requires DedupInv(entries, |entries|, kept, idx)
    ensures DistinctPoses(kept)
    ensures |kept| <= CompleteCount(entries)
    ensures forall j :: 0 <= j < |kept| ==> KeptFrom(entries, kept[j])
    ensures forall k :: 0 <= k < |entries| && Complete(entries[k]) ==> exists j :: 0 <= j < |kept| && kept[j].pose == entries[k].pose
  {
    assert entries[..|entries|] == entries;
    forall j | 0 <= j < |kept| ensures KeptFrom(entries, kept[j]) {
      assert KeptAmong(entries, |entries|, idx[j]) && kept[j] == entries[idx[j]];
    }
  }

  /**
   The `unique_poses` dictionary after the loop, as its values in insertion
   order: one entry per pose of a complete entry, and that entry is the one
   with the lowest id (the earliest on a tie).
   */
  method Deduplicate(entries: seq<Entry>) returns (kept: seq<Entry>)
    ensures DistinctPoses(kept)
    ensures |kept| <= CompleteCount(entries)
    ensures forall j :: 0 <= j < |kept| ==> KeptFrom(entries, kept[j])
    ensures forall k :: 0 <= k < |entries| && Complete(entries[k]) ==> exists j :: 0 <= j < |kept| && kept[j].pose == entries[k].pose
  {
    kept := [];
    ghost var idx: seq<nat> := [];
    var n := 0;
    while n < |entries|
      invariant DedupInv(entries, n, kept, idx)
    {
      idx := AbsorbStep(entries, n, kept, idx);
      kept := Absorb(kept, entries[n]);
      n := n + 1;
    }
    DedupDone(entries, kept, idx);
  }

  /** The sort key; only entries with an id are ever sorted. */
  function Key(e: Entry): int {
    if e.id.Some? then e.id.value else 0
  }

  /** Ids never decrease along the list. */
  predicate SortedById(s: seq<Entry>) {
    forall a, b :: 0 <= a < b < |s| ==> Key(s[a]) <= Key(s[b])
  }

  /** Places `e` before the first entry with a strictly larger id, so after any ties. */
  function InsertById(e: Entry, s: seq<Entry>): (r: seq<Entry>)
    requires SortedById(s)
    ensures SortedById(r)
    ensures |r| == |s| + 1
    ensures forall x :: x in r <==> x == e || x in s
    ensures multiset(r) == multiset(s) + multiset{e}
  {
    if |s| == 0 then [e]
    else if Key(e) < Key(s[0]) then [e] + s
    else
      var rest := InsertById(e, s[1..]);
      SortedHead(s);
      ConsSorted(s[0], rest);
      assert s == [s[0]] + s[1..];
      [s[0]] + rest
  }

  /** The head of a sorted list has the smallest id. */
  lemma SortedHead(s: seq<Entry>)
    requires SortedById(s) && |s| > 0
    ensures forall x :: x in s[1..] ==> Key(s[0]) <= Key(x)
  {
    forall x | x in s[1..] ensures Key(s[0]) <= Key(x) {
      var j :| 0 <= j < |s[1..]| && s[1..][j] == x;
      assert s[j + 1] == x;
    }
  }

  /** Prepending an entry whose id is no larger than any in a sorted list keeps it sorted. */
  lemma ConsSorted(h: Entry, t: seq<Entry>)
    requires SortedById(t) && forall x :: x in t ==> Key(h) <= Key(x)
    ensures SortedById([h] + t)
  {
    var r := [h] + t;
    forall a, b | 0 <= a < b < |r| ensures Key(r[a]) <= Key(r[b]) {
      assert r[b] == t[b - 1] && r[b] in t;
      if a > 0 { assert r[a] == t[a - 1]; }
    }
  }

  /** Prepending an entry whose pose the list lacks keeps the poses distinct. */
  lemma ConsDistinct(x: Entry, t: seq<Entry>)
    requires DistinctPoses(t) && forall k :: 0 <= k < |t| ==> t[k].pose != x.pose
    ensures DistinctPoses([x] + t)
  {
    var r := [x] + t;
    forall a, b | 0 <= a < b < |r| ensures r[a].pose != r[b].pose {
      assert r[b] == t[b - 1];
      if a > 0 { assert r[a] == t[a - 1]; }
    }
  }

  /** No entry of `s` has the pose of `x`. */
  predicate PoseAbsent(x: Entry, s: seq<Entry>) {
    forall k :: 0 <= k < |s| ==> s[k].pose != x.pose
  }

  /** Inserting an entry with a new pose into a list of distinct poses keeps them distinct. */
  lemma {:induction false} InsertByIdDistinct(e: Entry, s: seq<Entry>)
    requires SortedById(s) && DistinctPoses(s) && PoseAbsent(e, s)
    ensures DistinctPoses(InsertById(e, s))
  {
    if |s| == 0 {
    } else if Key(e) < Key(s[0]) {
      ConsDistinct(e, s);
    } else {
      var rest := InsertById(e, s[1..]);
      assert DistinctPoses(s[1..]);
      InsertByIdDistinct(e, s[1..]);
      forall k | 0 <= k < |rest| ensures rest[k].pose != s[0].pose {
        assert rest[k] in rest;
        if rest[k] == e {
          assert s[0].pose != e.pose;
        } else {
          var j :| 0 <= j < |s[1..]| && s[1..][j] == rest[k];
          assert s[0].pose != s[j + 1].pose;
        }
      }
      ConsDistinct(s[0], rest);
    }
  }

  /** `list.sort(key=lambda x: x['id'])`: the same entries, in non-decreasing id order. */
  function SortById(s: seq<Entry>): (r: seq<Entry>)
    ensures SortedById(r)
    ensures |r| == |s|
    ensures forall x :: x in r <==> x in s
    ensures multiset(r) == multiset(s)
  {
    if |s| == 0 then []
    else
      var init := s[..|s| - 1];
      assert s == init + [s[|s| - 1]];
      InsertById(s[|s| - 1], SortById(init))
  }

  /** `r` is `s` with `e` at index `i`, after exactly the entries whose ids are no larger. */
  predicate PlacedAfterTies(e: Entry, s: seq<Entry>, r: seq<Entry>, i: int) {
    0 <= i <= |s| && r == s[..i] + [e] + s[i..]
    && (forall k :: 0 <= k < i ==> Key(s[k]) <= Key(e))
    && (forall k :: i <= k < |s| ==> Key(e) < Key(s[k]))
  }

  /** `e` lands right after the prefix of entries whose ids are no larger than its own:
      entries with an equal id keep coming first, which is what makes the sort stable. */
  lemma {:induction false} InsertByIdAfterTies(e: Entry, s: seq<Entry>)
    requires SortedById(s)
    ensures exists i :: PlacedAfterTies(e, s, InsertById(e, s), i)
  {
    if |s| == 0 || Key(e) < Key(s[0]) {
      assert s[..0] + [e] + s[0..] == [e] + s;
      assert PlacedAfterTies(e, s, InsertById(e, s), 0);
    } else {
      var rest := InsertById(e, s[1..]);
      InsertByIdAfterTies(e, s[1..]);
      var j :| PlacedAfterTies(e, s[1..], rest, j);
      PlacedBehindHead(e, s, rest, j);
      assert InsertById(e, s) == [s[0]] + rest;
    }
  }

  /** Putting an entry with no larger id in front keeps `e` placed after all ties, one further on. */
  lemma PlacedBehindHead(e: Entry, s: seq<Entry>, rest: seq<Entry>, j: int)
    requires |s| > 0 && Key(s[0]) <= Key(e) && PlacedAfterTies(e, s[1..], rest, j)
    ensures PlacedAfterTies(e, s, [s[0]] + rest, j + 1)
  {
    var t := s[1..];
    var i := j + 1;
    assert s[..i] == [s[0]] + t[..j];
    assert s[i..] == t[j..];
    assert [s[0]] + rest == s[..i] + [e] + s[i..];
    forall k | 0 <= k < i ensures Key(s[k]) <= Key(e) {
      if k > 0 { assert s[k] == t[k - 1]; }
    }
    forall k | i <= k < |s| ensures Key(e) < Key(s[k]) {
      assert s[k] == t[k - 1];
    }
  }

  /** Sorting a list with distinct poses keeps them distinct. */
  lemma {:induction false} SortByIdDistinct(s: seq<Entry>)
    requires DistinctPoses(s)
    ensures DistinctPoses(SortById(s))
  {
    if |s| > 0 {
      var init := s[..|s| - 1];
      var last := s[|s| - 1];
      assert DistinctPoses(init);
      SortByIdDistinct(init);
      var sortedInit := SortById(init);
      forall j | 0 <= j < |sortedInit| ensures sortedInit[j].pose != last.pose {
        assert sortedInit[j] in init;
        var t :| 0 <= t < |init| && init[t] == sortedInit[j];
        assert s[t] == init[t];
      }
      InsertByIdDistinct(last, sortedInit);
    }
  }

  predicate AllHaveIds(s: seq<Entry>) {
    forall j :: 0 <= j < |s| ==> s[j].id.Some?
  }

  /** The decoded file: a list of entries, or any other JSON value. */
  datatype SpawnFile = EntryList(entries: seq<Entry>) | NotAList

  /**
   The cleaned list, or `None` when the file does not hold a list (the
   function returns False without writing anything). The result has one
   entry per pose of a complete input entry; each is an unmodified input
   entry with the lowest id of its pose (the earliest on a tie); the list is
   sorted by id and no longer than the number of complete entries.
   */
  method Clean(f: SpawnFile) returns (r: Option<seq<Entry>>)
    ensures r.None? <==> f.NotAList?
    ensures r.Some? ==> AllHaveIds(r.value) && SortedById(r.value)
    ensures r.Some? ==> DistinctPoses(r.value)
    ensures r.Some? ==> |r.value| <= CompleteCount(f.entries)
    ensures r.Some? ==> forall j :: 0 <= j < |r.value| ==> KeptFrom(f.entries, r.value[j])
    ensures r.Some? ==> forall k :: 0 <= k < |f.entries| && Complete(f.entries[k]) ==>
              exists j :: 0 <= j < |r.value| && r.value[j].pose == f.entries[k].pose
  {
    match f
    case NotAList =>
      return None;
    case EntryList(entries) =>
      var kept := Deduplicate(entries);
      var sorted := SortById(kept);
      SortByIdDistinct(kept);
      SortKeepsKept(entries, kept, sorted);
      SortKeepsCover(entries, kept, sorted);
      return Some(sorted);
  }

  /** A kept entry is complete. */
  lemma KeptFromComplete(entries: seq<Entry>, e: Entry)
    requires KeptFrom(entries, e)
    ensures Complete(e)
  {
    var i :| KeptAmong(entries, |entries|, i) && e == entries[i];
  }

  /** Sorting moves entries without changing them, so each sorted entry is still a kept one, with an id. */
  lemma SortKeepsKept(entries: seq<Entry>, kept: seq<Entry>, sorted: seq<Entry>)
    requires forall x :: x in sorted <==> x in kept
    requires forall j :: 0 <= j < |kept| ==> KeptFrom(entries, kept[j])
    ensures AllHaveIds(sorted)
    ensures forall j :: 0 <= j < |sorted| ==> KeptFrom(entries, sorted[j])
  {
    forall j | 0 <= j < |sorted| ensures KeptFrom(entries, sorted[j]) && sorted[j].id.Some? {
      assert sorted[j] in kept;
      var t :| 0 <= t < |kept| && kept[t] == sorted[j];
      assert KeptFrom(entries, kept[t]);
      KeptFromComplete(entries, kept[t]);
    }
  }

  /** Sorting keeps every pose the kept list covered. */
  lemma SortKeepsCover(entries: seq<Entry>, kept: seq<Entry>, sorted: seq<Entry>)
    requires forall x :: x in sorted <==> x in kept
    requires forall k :: 0 <= k < |entries| && Complete(entries[k]) ==> exists j :: 0 <= j < |kept| && kept[j].pose == entries[k].pose
    ensures forall k :: 0 <= k < |entries| && Complete(entries[k]) ==> exists j :: 0 <= j < |sorted| && sorted[j].pose == entries[k].pose
  {
    forall k | 0 <= k < |entries| && Complete(entries[k])
      ensures exists j :: 0 <= j < |sorted| && sorted[j].pose == entries[k].pose
    {
      var t :| 0 <= t < |kept| && kept[t].pose == entries[k].pose;
      assert kept[t] in sorted;
      var j :| 0 <= j < |sorted| && sorted[j] == kept[t];
    }
  }
}

=== FILE: spawn_validation.dfy ===
/**
 The bookkeeping of helper/validate_spawn_routes.py: which distance files are
 worked on, how the top-level JSON shape is read, which status each spawn
 pair gets, and the per-map counters with the early stop once enough valid
 routes were found. Waypoint snapping, route planning, map loading and the
 file system are oracles.
 */
module SpawnValidation {
  import opened Common
  import opened Strings

  // ---------------------------------------------------------------------
  // Snapping

  datatype SnapFailure = Both | StartOnly | EndOnly

  /** `failure_type` of `_snap_points_to_road_waypoints`, from which of the two waypoints snapped. */
  function FailureType(startSnapped: bool, endSnapped: bool): (r: Option<SnapFailure>)
    ensures r.None? <==> startSnapped && endSnapped
    ensures r == Some(Both) <==> !startSnapped && !endSnapped
    ensures r == Some(StartOnly) <==> !startSnapped && endSnapped
    ensures r == Some(EndOnly) <==> startSnapped && !endSnapped
  {
    if !startSnapped && !endSnapped then Some(Both)
    else if !startSnapped then Some(StartOnly)
    else if !endSnapped then Some(EndOnly)
    else None
  }

  /** The failure type tells exactly which waypoints snapped. */
  lemma FailureTypeDetermines(a: bool, b: bool, c: bool, d: bool)
    requires FailureType(a, b) == FailureType(c, d)
    ensures a == c && b == d
  {
  }

  // ---------------------------------------------------------------------
  // Pairs and their statuses

  /**
   One element of the pairs list: something other than a JSON object, or an
   object whose two spawn point ids are given as what `int()` made of them
   (`None` when the key is missing or `int()` raises).
   */
  datatype PairInfo = NonObject | Obj(startId: Option<int>, endId: Option<int>)

  datatype SnapOutcome = Snapped(start: bool, end: bool) | SnapRaised
  datatype RouteOutcome = RouteFound | NoRoute | PlannerRaised

  /** The loaded map's spawn point count and the snapping and planning oracles, by spawn point index. */
  datatype PairEnv = PairEnv(spawnCount: nat, snap: (nat, nat) -> SnapOutcome, route: (nat, nat) -> RouteOutcome)

  datatype PairStatus =
    | Valid | InvalidNoRoute | InvalidGrpError
    | InvalidSnapFailStart | InvalidSnapFailEnd | InvalidSnapFailBoth
    | SkippedProcessingError

  /** The status string written to the detailed results. */
  function StatusName(s: PairStatus): string {
    match s
    case Valid => "VALID"
    case InvalidNoRoute => "INVALID_NO_ROUTE"
    case InvalidGrpError => "INVALID_GRP_ERROR"
    case InvalidSnapFailStart => "INVALID_SNAP_FAIL_START"
    case InvalidSnapFailEnd => "INVALID_SNAP_FAIL_END"
    case InvalidSnapFailBoth => "INVALID_SNAP_FAIL_BOTH"
    case SkippedProcessingError => "SKIPPED_PROCESSING_ERROR"
  }

  lemma StatusNamesDistinct(a: PairStatus, b: PairStatus)
    requires StatusName(a) == StatusName(b)
    ensures a == b
  {
  }

  /** `map_spawn_points[id]` succeeds: Python list indexing also accepts `-n <= id < 0`. */
  predicate InRange(id: int, n: nat) { -(n as int) <= id < n }

  /** The list position `map_spawn_points[id]` reads. */
  function Position(id: int, n: nat): (k: nat)
    requires InRange(id, n)
    ensures k < n
    ensures id >= 0 ==> k == id
    ensures id < 0 ==> k == n + id
  {
    if id < 0 then n + id else id
  }

  datatype PairResult = Processed(status: PairStatus) | PairCrash

  /** The pair is an object whose two ids are present and both index `map_spawn_points`. */
  predicate Indexed(p: PairInfo, env: PairEnv) {
    && p.Obj? && p.startId.Some? && p.endId.Some?
    && InRange(p.startId.value, env.spawnCount) && InRange(p.endId.value, env.spawnCount)
  }

  /** What snapping the pair's two spawn points gives. */
  function SnapOf(p: PairInfo, env: PairEnv): SnapOutcome
    requires Indexed(p, env)
  {
    env.snap(Position(p.startId.value, env.spawnCount), Position(p.endId.value, env.spawnCount))
  }

  /** What planning a route between the pair's two spawn points gives. */
  function RouteOf(p: PairInfo, env: PairEnv): RouteOutcome
    requires Indexed(p, env)
  {
    env.route(Position(p.startId.value, env.spawnCount), Position(p.endId.value, env.spawnCount))
  }

  /** Both spawn points of an indexed pair snapped to a road. */
  predicate BothSnap(p: PairInfo, env: PairEnv) {
    Indexed(p, env) && SnapOf(p, env) == Snapped(true, true)
  }

  /** Snapping an indexed pair reported the failure `f`. */
  predicate SnapFails(p: PairInfo, env: PairEnv, f: SnapFailure) {
    Indexed(p, env) && SnapOf(p, env).Snapped? && FailureType(SnapOf(p, env).start, SnapOf(p, env).end) == Some(f)
  }

  /**
   One pass of the pair loop's body. A pair that is not a JSON object makes
   the `except` handler itself raise (`.get` on a non-dict), which ends the
   whole script; every other exception before the counters are touched gives
   `SKIPPED_PROCESSING_ERROR`.
   */
  function ProcessPair(p: PairInfo, env: PairEnv): (r: PairResult)
    ensures r.PairCrash? <==> p.NonObject?
    ensures p.Obj? && (p.startId.None? || p.endId.None?) ==> r == Processed(SkippedProcessingError)
    ensures p.Obj? && p.startId.Some? && p.endId.Some?
              && !(InRange(p.startId.value, env.spawnCount) && InRange(p.endId.value, env.spawnCount)) ==>
              r == Processed(SkippedProcessingError)
    ensures r == Processed(SkippedProcessingError) <==>
              p.Obj? && (!Indexed(p, env) || SnapOf(p, env).SnapRaised?)
    ensures r == Processed(Valid) <==> BothSnap(p, env) && RouteOf(p, env) == RouteFound
    ensures r == Processed(InvalidNoRoute) <==> BothSnap(p, env) && RouteOf(p, env) == NoRoute
    ensures r == Processed(InvalidGrpError) <==> BothSnap(p, env) && RouteOf(p, env) == PlannerRaised
    ensures r == Processed(InvalidSnapFailStart) <==> SnapFails(p, env, StartOnly)
    ensures r == Processed(InvalidSnapFailEnd) <==> SnapFails(p, env, EndOnly)
    ensures r == Processed(InvalidSnapFailBoth) <==> SnapFails(p, env, Both)
  {
    match p
    case NonObject => PairCrash
    case Obj(startId, endId) =>
      if startId.None? || endId.None? then Processed(SkippedProcessingError)
      else if !InRange(startId.value, env.spawnCount) || !InRange(endId.value, env.spawnCount) then Processed(SkippedProcessingError)
      else
        var s := Position(startId.value, env.spawnCount);
        var e := Position(endId.value, env.spawnCount);
        match env.snap(s, e)
        case SnapRaised => Processed(SkippedProcessingError)
        case Snapped(a, b) =>
          if a && b then
            match env.route(s, e)
            case RouteFound => Processed(Valid)
            case NoRoute => Processed(InvalidNoRoute)
            case PlannerRaised => Processed(InvalidGrpError)
          else
            match FailureType(a, b).value
            case StartOnly => Processed(InvalidSnapFailStart)
            case EndOnly => Processed(InvalidSnapFailEnd)
            case Both => Processed(InvalidSnapFailBoth)
  }

  // ---------------------------------------------------------------------
  // The pair loop

  /** One entry of `map_detailed_results`. */
  datatype Detail = Detail(pairIndex: nat, status: PairStatus)

  /** The per-map summary counters. */
  datatype Summary = Summary(total: nat, valid: nat, invalid: nat, skippedBadFormat: nat, stoppedEarly: bool)

  datatype PairsRun = Finished(summary: Summary, details: seq<Detail>) | CrashedAt(index: nat)

  /** How many details record a valid route. */
  function CountValid(ds: seq<Detail>): (n: nat)
    ensures n <= |ds|
  {
    if |ds| == 0 then 0 else CountValid(ds[..|ds| - 1]) + (if ds[|ds| - 1].status == Valid then 1 else 0)
  }

  /** How many of the first `n` pairs `ProcessPair` marks valid. */
  function ValidIn(pairs: seq<PairInfo>, env: PairEnv, n: nat): (v: nat)
    requires n <= |pairs|
    ensures v <= n
  {
    if n == 0 then 0
    else ValidIn(pairs, env, n - 1) + (if ProcessPair(pairs[n - 1], env) == Processed(Valid) then 1 else 0)
  }

  /**
   Details that carry, in order, the statuses of the first pairs count as
   many valid routes as those pairs.
   */
  lemma {:induction false} CountValidMatches(pairs: seq<PairInfo>, env: PairEnv, ds: seq<Detail>, n: nat)
    requires n <= |ds| <= |pairs|
    requires forall j :: 0 <= j < |ds| ==> pairs[j].Obj? && ds[j] == Detail(j, ProcessPair(pairs[j], env).status)
    ensures CountValid(ds[..n]) == ValidIn(pairs, env, n)
    decreases n
  {
    if n > 0 {
      CountValidMatches(pairs, env, ds, n - 1);
      assert ds[..n][..n - 1] == ds[..n - 1];
    }
  }

  /** The loop stops after the pair that brings the valid count to the limit, when there is a limit. */
  predicate LimitReached(valid: nat, maxValid: int) {
    maxValid > 0 && valid >= maxValid
  }

  /**
   What a loop over `pairs` that ran to its end or to its early stop
   produced: one detail per processed pair, in order, with its index and the
   status `ProcessPair` gives it; valid + invalid == total; and with a
   positive limit the loop stops right after the valid count reaches it.
   */
  predicate FinishedRun(pairs: seq<PairInfo>, env: PairEnv, maxValid: int, s: Summary, ds: seq<Detail>) {
    && s.valid + s.invalid == s.total
    && |ds| == s.total <= |pairs|
    && (forall j :: 0 <= j < |ds| ==> pairs[j].Obj? && ds[j] == Detail(j, ProcessPair(pairs[j], env).status))
    && s.valid == CountValid(ds)
    && s.valid == ValidIn(pairs, env, s.total)
    && s.skippedBadFormat == 0
    && (s.stoppedEarly <==> LimitReached(s.valid, maxValid))
    && (maxValid > 0 ==> s.valid <= maxValid)
    && (!s.stoppedEarly ==> s.total == |pairs|)
    && (forall j :: 0 < j < |ds| ==> !LimitReached(CountValid(ds[..j]), maxValid))
  }

  /**
   The loop reached pair `i`, the first one that is not a JSON object: no
   prefix of the pairs before it brought the valid count to the limit, so
   the loop had not stopped early.
   */
  predicate CrashedRun(pairs: seq<PairInfo>, env: PairEnv, maxValid: int, i: nat) {
    && i < |pairs|
    && pairs[i].NonObject?
    && (forall j :: 0 <= j < i ==> pairs[j].Obj?)
    && (forall k :: 0 < k <= i ==> !LimitReached(ValidIn(pairs, env, k), maxValid))
  }

  /**
   The loop over the pairs of one map. Each processed pair gets exactly one
   detail, in order, with its index and the status `ProcessPair` gives it;
   valid + invalid == total; and with a positive limit the loop stops right
   after the valid count reaches it, so the count never exceeds it.
   */
  method ValidatePairs(pairs: seq<PairInfo>, env: PairEnv, maxValid: int) returns (r: PairsRun)
    ensures r.Finished? ==> FinishedRun(pairs, env, maxValid, r.summary, r.details)
    ensures r.CrashedAt? ==> CrashedRun(pairs, env, maxValid, r.index)
  {
    var total, valid, invalid := 0, 0, 0;
    var details: seq<Detail> := [];
    var stopped := false;
    var i := 0;
    while i < |pairs| && !stopped
      invariant 0 <= i <= |pairs|
      invariant total == i == |details|
      invariant valid + invalid == total
      invariant forall j :: 0 <= j < i ==> pairs[j].Obj? && details[j] == Detail(j, ProcessPair(pairs[j], env).status)
      invariant valid == ValidIn(pairs, env, i)
      invariant stopped <==> LimitReached(valid, maxValid)
      invariant maxValid > 0 ==> valid <= maxValid
      invariant forall k :: 0 < k < i ==> !LimitReached(ValidIn(pairs, env, k), maxValid)
    {
      match ProcessPair(pairs[i], env)
      case PairCrash =>
        return CrashedAt(i);
      case Processed(st) =>
        details := details + [Detail(i, st)];
        total := total + 1;
        if st == Valid {
          valid := valid + 1;
        } else {
          invalid := invalid + 1;
        }
        if st != SkippedProcessingError && LimitReached(valid, maxValid) {
          stopped := true;
        }
      i := i + 1;
    }
    CountValidMatches(pairs, env, details, |details|);
    assert details[..|details|] == details;
    forall j | 0 < j < |details| ensures !LimitReached(CountValid(details[..j]), maxValid) {
      CountValidMatches(pairs, env, details, j);
    }
    return Finished(Summary(total, valid, invalid, 0, stopped), details);
  }

  /**
   A finished run over a list holding a non-object pair stopped early,
   at the limit, before reaching that pair.
   */
  lemma FinishedBeforeNonObject(pairs: seq<PairInfo>, env: PairEnv, maxValid: int, s: Summary, ds: seq<Detail>, i: nat)
    requires FinishedRun(pairs, env, maxValid, s, ds)
    requires i < |pairs| && pairs[i].NonObject?
    ensures s.stoppedEarly && 0 < s.total <= i && LimitReached(ValidIn(pairs, env, s.total), maxValid)
  {
  }

  /**
   A list of pairs cannot both crash and finish: a finished run that left
   pairs unread stopped at the limit, which a crash rules out for every
   prefix before it.
   */
  lemma CrashExcludesFinish(pairs: seq<PairInfo>, env: PairEnv, maxValid: int, s: Summary, ds: seq<Detail>, i: nat)
    requires FinishedRun(pairs, env, maxValid, s, ds)
    ensures !CrashedRun(pairs, env, maxValid, i)
  {
    if i < |pairs| && pairs[i].NonObject? {
      FinishedBeforeNonObject(pairs, env, maxValid, s, ds, i);
    }
  }

  /** Two finished runs over the same pairs visited the same number of them. */
  lemma FinishedRunsSameLength(pairs: seq<PairInfo>, env: PairEnv, maxValid: int,
                               s1: Summary, ds1: seq<Detail>, s2: Summary, ds2: seq<Detail>)
    requires FinishedRun(pairs, env, maxValid, s1, ds1)
    requires FinishedRun(pairs, env, maxValid, s2, ds2)
    ensures |ds1| >= |ds2|
  {
    if |ds1| <= |ds2| {
      assert ds2[..|ds1|] == ds1;
    }
  }

  /** The pair loop's outcome is fixed by the pairs, the spawn points and the limit. */
  lemma FinishedRunUnique(pairs: seq<PairInfo>, env: PairEnv, maxValid: int,
                          s1: Summary, ds1: seq<Detail>, s2: Summary, ds2: seq<Detail>)
    requires FinishedRun(pairs, env, maxValid, s1, ds1)
    requires FinishedRun(pairs, env, maxValid, s2, ds2)
    ensures s1 == s2 && ds1 == ds2
  {
    FinishedRunsSameLength(pairs, env, maxValid, s1, ds1, s2, ds2);
    FinishedRunsSameLength(pairs, env, maxValid, s2, ds2, s1, ds1);
    assert ds1 == ds2;
  }

  // ---------------------------------------------------------------------
  // Top-level JSON shape

  /** The `sorted_spawn_point_distances` value of a top-level object. */
  datatype Field = FieldList(pairs: seq<PairInfo>) | FieldOther

  /** The decoded distance file, as far as the shape check looks at it. */
  datatype TopLevel =
    | Scalar                           // number, boolean or null
    | Text                             // a JSON string
    | Array(pairs: seq<PairInfo>)
    | Object(distances: Option<Field>) // the value under `sorted_spawn_point_distances`, if the key is there

  datatype BadFormat = FieldNotAList | UnexpectedStructure

  datatype Shape = Pairs(pairs: seq<PairInfo>) | Bad(kind: BadFormat) | ShapeCrash

  /**
   Reading the pairs out of the decoded file. `len()` on a number, boolean
   or null raises before the shape is looked at, ending the script.
   */
  function ReadShape(t: TopLevel): (r: Shape)
    ensures r.ShapeCrash? <==> t.Scalar?
    ensures r.Pairs? <==> t.Array? || (t.Object? && t.distances.Some? && t.distances.value.FieldList?)
    ensures r == Bad(FieldNotAList) <==> t.Object? && t.distances == Some(FieldOther)
    ensures r.Pairs? && t.Array? ==> r.pairs == t.pairs
    ensures r.Pairs? && t.Object? ==> r.pairs == t.distances.value.pairs
  {
    match t
    case Scalar => ShapeCrash
    case Text => Bad(UnexpectedStructure)
    case Array(pairs) => Pairs(pairs)
    case Object(None) => Bad(UnexpectedStructure)
    case Object(Some(FieldList(pairs))) => Pairs(pairs)
    case Object(Some(FieldOther)) => Bad(FieldNotAList)
  }

  // ---------------------------------------------------------------------
  // One distance file

  const DistancesSuffix := "_distances.json"
  const ResultsSuffix := "_validation_results.json"

  /** `filename.replace('_distances.json', '')`. */
  function MapName(filename: string): (m: string)
    ensures |m| <= |filename|
  {
    RemoveAll(filename, DistancesSuffix)
  }

  /** A file named `<map>_distances.json`, with no earlier occurrence of the suffix, yields `<map>`. */
  lemma MapNameRoundTrip(m: string)
    requires forall i :: 0 <= i < |m| ==> !OccursAt(m + DistancesSuffix, DistancesSuffix, i)
    ensures MapName(m + DistancesSuffix) == m
  {
    RemoveAppended(m, DistancesSuffix);
  }

  function ResultsFileName(filename: string): string {
    MapName(filename) + ResultsSuffix
  }

  /**
   How far bringing the map up got: not loaded covers every `continue` before
   the spawn points are read; a loaded map brings its spawn points.
   */
  datatype MapStage = NotLoaded | Loaded(env: PairEnv)

  /** The map is loaded and `map_spawn_points` is non-empty, so the distance file is read. */
  predicate Usable(stage: MapStage) {
    stage.Loaded? && stage.env.spawnCount > 0
  }

  datatype DistanceFile = DecodeFailed | ReadFailed | Decoded(top: TopLevel)

  datatype MapEnv = MapEnv(
    resultsExist: string -> bool,          // `<map>_validation_results.json` is already in the output directory
    stage: string -> MapStage,
    file: string -> DistanceFile,
    maxValid: int)

  /** What handling one distance file did. */
  datatype MapReport =
    | AlreadyDone                           // results file exists: nothing else happens
    | NotProcessed                          // map not loaded or without spawn points: nothing written
    | ErrorLogged                           // `<map>_error.json` written
    | Results(summary: Summary, details: seq<Detail>)  // `<map>_validation_results.json` written
    | Crashed

  /** A summary of a file whose shape is wrong: nothing processed, one bad-format mark. */
  const BadFormatSummary := Summary(0, 0, 0, 1, false)

  /**
   What handling the distance file `filename` must give, from the inputs:
   an existing results file, then the map, then reading and decoding the
   file, then its shape, and finally the pair loop (run to its end, or
   crashed at a pair that is not an object).
   */
  predicate Handled(filename: string, env: MapEnv, r: MapReport) {
    var m := MapName(filename);
    if env.resultsExist(m) then r == AlreadyDone
    else if !Usable(env.stage(m)) then r == NotProcessed
    else match env.file(m)
      case DecodeFailed => r == ErrorLogged
      case ReadFailed => r == ErrorLogged
      case Decoded(top) =>
        match ReadShape(top)
        case ShapeCrash => r == Crashed
        case Bad(_) => r == Results(BadFormatSummary, [])
        case Pairs(pairs) =>
          || (r.Results? && FinishedRun(pairs, env.stage(m).env, env.maxValid, r.summary, r.details))
          || (r.Crashed? && exists i :: 0 <= i < |pairs| && CrashedRun(pairs, env.stage(m).env, env.maxValid, i))
  }

  /** Handling a distance file has exactly one possible report. */
  lemma HandledDetermined(filename: string, env: MapEnv, r1: MapReport, r2: MapReport)
    requires Handled(filename, env, r1) && Handled(filename, env, r2)
    ensures r1 == r2
  {
    var m := MapName(filename);
    if !env.resultsExist(m) && Usable(env.stage(m)) && env.file(m).Decoded? {
      var pe := env.stage(m).env;
      match ReadShape(env.file(m).top)
      case ShapeCrash =>
      case Bad(_) =>
      case Pairs(pairs) =>
        if r1.Results? && r2.Results? {
          FinishedRunUnique(pairs, pe, env.maxValid, r1.summary, r1.details, r2.summary, r2.details);
        } else if r1.Results? && r2.Crashed? {
          var i :| 0 <= i < |pairs| && CrashedRun(pairs, pe, env.maxValid, i);
          CrashExcludesFinish(pairs, pe, env.maxValid, r1.summary, r1.details, i);
        } else if r1.Crashed? && r2.Results? {
          var i :| 0 <= i < |pairs| && CrashedRun(pairs, pe, env.maxValid, i);
          CrashExcludesFinish(pairs, pe, env.maxValid, r2.summary, r2.details, i);
        }
    }
  }

  /** Every pair of the list is a JSON object. */
  predicate AllObjects(pairs: seq<PairInfo>) {
    forall j :: 0 <= j < |pairs| ==> pairs[j].Obj?
  }

  method ProcessFile(filename: string, env: MapEnv) returns (r: MapReport)
    ensures r.AlreadyDone? <==> env.resultsExist(MapName(filename))
    ensures r.NotProcessed? <==> !env.resultsExist(MapName(filename)) && !Usable(env.stage(MapName(filename)))
    ensures r == ErrorLogged <==>
              !env.resultsExist(MapName(filename)) && Usable(env.stage(MapName(filename))) && !env.file(MapName(filename)).Decoded?
    ensures !env.resultsExist(MapName(filename)) && Usable(env.stage(MapName(filename)))
            && env.file(MapName(filename)).Decoded? && ReadShape(env.file(MapName(filename)).top).Bad? ==>
              r == Results(BadFormatSummary, [])
    ensures !env.resultsExist(MapName(filename)) && Usable(env.stage(MapName(filename)))
            && env.file(MapName(filename)).Decoded? && ReadShape(env.file(MapName(filename)).top).Pairs?
            && AllObjects(ReadShape(env.file(MapName(filename)).top).pairs) ==>
              r.Results?
    ensures Handled(filename, env, r)
    ensures r.Results? ==> r.summary.valid + r.summary.invalid == r.summary.total
    ensures r.Results? && r.summary.skippedBadFormat == 0 ==>
              && env.file(MapName(filename)).Decoded?
              && ReadShape(env.file(MapName(filename)).top).Pairs?
              && Usable(env.stage(MapName(filename)))
              && |r.details| == r.summary.total
              && (forall j :: 0 <= j < |r.details| ==>
                    r.details[j] == Detail(j, ProcessPair(ReadShape(env.file(MapName(filename)).top).pairs[j], env.stage(MapName(filename)).env).status))
              && (env.maxValid > 0 ==> r.summary.valid <= env.maxValid)
    ensures r.Results? && r.summary.skippedBadFormat > 0 ==> r.summary == BadFormatSummary
    ensures r.Crashed? ==> env.file(MapName(filename)).Decoded?
  {
    var m := MapName(filename);
    if env.resultsExist(m) {
      return AlreadyDone;
    }
    if !Usable(env.stage(m)) {
      return NotProcessed;
    }
    var pairEnv := env.stage(m).env;
    match env.file(m)
    case DecodeFailed =>
      return ErrorLogged;
    case ReadFailed =>
      return ErrorLogged;
    case Decoded(top) =>
      match ReadShape(top)
      case ShapeCrash =>
        return Crashed;
      case Bad(_) =>
        return Results(BadFormatSummary, []);
      case Pairs(pairs) =>
        var run := ValidatePairs(pairs, pairEnv, env.maxValid);
        match run
        case CrashedAt(i) =>
          assert CrashedRun(pairs, pairEnv, env.maxValid, i);
          return Crashed;
        case Finished(summary, details) =>
          return Results(summary, details);
  }

  /**
   The loop over the sorted distance files; an uncaught exception ends the
   script after the reports so far.
   */
  method ValidateAll(files: seq<string>, env: MapEnv) returns (reports: seq<MapReport>)
    ensures |reports| <= |files|
    ensures forall j :: 0 <= j < |reports| - 1 ==> !reports[j].Crashed?
    ensures |reports| < |files| ==> |reports| > 0 && reports[|reports| - 1].Crashed?
    ensures forall j :: 0 <= j < |reports| ==> (reports[j].AlreadyDone? <==> env.resultsExist(MapName(files[j])))
    ensures forall j :: 0 <= j < |reports| ==> Handled(files[j], env, reports[j])
  {
    reports := [];
    var i := 0;
    while i < |files|
      invariant 0 <= i <= |files| && |reports| == i
      invariant forall j :: 0 <= j < i ==> !reports[j].Crashed?
      invariant forall j :: 0 <= j < i ==> (reports[j].AlreadyDone? <==> env.resultsExist(MapName(files[j])))
      invariant forall j :: 0 <= j < i ==> Handled(files[j], env, reports[j])
    {
      var rep := ProcessFile(files[i], env);
      reports := reports + [rep];
      if rep.Crashed? {
        return;
      }
      i := i + 1;
    }
  }
}

=== FILE: strings.dfy ===
/**
 String utilities that the scripts take from Python's `str` type:
 suffix tests, `str.replace(pat, '')`, `str(int)`, and the code-point
 ordering that `sorted()` uses on strings.
 */
module Strings {

  predicate EndsWith(s: string, suffix: string) {
    |suffix| <= |s| && s[|s| - |suffix|..] == suffix
  }

  /** `pat` occurs in `s` starting at index `i`. */
  predicate OccursAt(s: string, pat: string, i: int) {
    0 <= i && i + |pat| <= |s| && s[i..i + |pat|] == pat
  }

  /** Python's `s.replace(pat, '')`: every leftmost, non-overlapping occurrence of `pat` is dropped. */
  function RemoveAll(s: string, pat: string): (r: string)
    requires |pat| > 0
    ensures |r| <= |s|
    ensures (forall i :: 0 <= i < |s| ==> !OccursAt(s, pat, i)) ==> r == s
    decreases |s|
  {
    if |s| < |pat| then s
    else if s[..|pat|] == pat then
      assert OccursAt(s, pat, 0);
      RemoveAll(s[|pat|..], pat)
    else
      OccursInTail(s, pat);
      [s[0]] + RemoveAll(s[1..], pat)
  }

  /** An occurrence in `s[1..]` is one in `s`, one index later. */
  lemma OccursInTail(s: string, pat: string)
    requires |s| > 0
    ensures forall i :: 0 <= i < |s[1..]| && OccursAt(s[1..], pat, i) ==> OccursAt(s, pat, i + 1)
  {
    forall i | 0 <= i < |s[1..]| && OccursAt(s[1..], pat, i) ensures OccursAt(s, pat, i + 1) {
      assert s[1..][i..i + |pat|] == s[i + 1..i + 1 + |pat|];
    }
  }

  /** When the only occurrence of `pat` in `base + pat` is the appended one, removing all occurrences gives back `base`. */
  lemma {:induction false} RemoveAppended(base: string, pat: string)
    requires |pat| > 0
    requires forall i :: 0 <= i < |base| ==> !OccursAt(base + pat, pat, i)
    ensures RemoveAll(base + pat, pat) == base
    decreases |base|
  {
    var s := base + pat;
    if |base| == 0 {
      assert s == pat;
      assert s[|pat|..] == [];
    } else {
      assert !OccursAt(s, pat, 0);
      assert s[..|pat|] != pat;
      assert s[1..] == base[1..] + pat;
      forall i | 0 <= i < |base[1..]|
        ensures !OccursAt(base[1..] + pat, pat, i)
      {
        assert !OccursAt(s, pat, i + 1);
        assert (base[1..] + pat)[i..i + |pat|] == s[i + 1..i + 1 + |pat|];
      }
      RemoveAppended(base[1..], pat);
      assert [s[0]] + base[1..] == base;
    }
  }

  // ---------------------------------------------------------------------
  // Decimal rendering of integers, as Python's f-string `{rc}` does it.

  predicate IsDigit(c: char) { '0' <= c <= '9' }

  function DigitChar(d: nat): (c: char)
    requires d < 10
    ensures IsDigit(c)
  {
    ['0', '1', '2', '3', '4', '5', '6', '7', '8', '9'][d]
  }

  function DigitValue(c: char): nat
    requires IsDigit(c)
  {
    (c as int - '0' as int) as nat
  }

  lemma DigitRoundTrip(d: nat)
    requires d < 10
    ensures DigitValue(DigitChar(d)) == d
  {
  }

  function NatToString(n: nat): (s: string)
    ensures |s| > 0
    ensures forall i :: 0 <= i < |s| ==> IsDigit(s[i])
    ensures |s| > 1 ==> s[0] != '0'
    decreases n
  {
    if n < 10 then [DigitChar(n)] else NatToString(n / 10) + [DigitChar(n % 10)]
  }

  /** Value of a string of decimal digits. */
  function ParseNat(s: string): nat
    requires forall i :: 0 <= i < |s| ==> IsDigit(s[i])
  {
    if |s| == 0 then 0 else ParseNat(s[..|s| - 1]) * 10 + DigitValue(s[|s| - 1])
  }

  /** Text that `ParseInt` can read: an optional minus sign followed by at least one digit. */
  predicate IsIntText(s: string) {
    && |s| > 0
    && (s[0] == '-' ==> |s| > 1)
    && forall i :: 0 <= i < |s| ==> (IsDigit(s[i]) || (i == 0 && s[i] == '-'))
  }

  /** Python's `str(n)` for an `int`: a minus sign for negative values, then the decimal digits. */
  function IntToString(n: int): (s: string)
    ensures IsIntText(s)
    ensures n < 0 <==> s[0] == '-'
  {
    if n < 0 then "-" + NatToString(-n) else NatToString(n)
  }

  /** Reads back what `IntToString` wrote. */
  function ParseInt(s: string): int
    requires IsIntText(s)
  {
    if s[0] == '-' then -(ParseNat(s[1..]) as int) else ParseNat(s)
  }

  lemma {:induction false} NatRoundTrip(n: nat)
    ensures ParseNat(NatToString(n)) == n
    decreases n
  {
    if n < 10 {
      DigitRoundTrip(n);
    } else {
      var s := NatToString(n);
      assert s[..|s| - 1] == NatToString(n / 10);
      NatRoundTrip(n / 10);
      DigitRoundTrip(n % 10);
    }
  }

  /** `IntToString` is injective: the decimal text determines the integer. */
  lemma IntRoundTrip(n: int)
    ensures ParseInt(IntToString(n)) == n
  {
    if n < 0 {
      NegativeRoundTrip(-n);
    } else {
      NonNegativeRoundTrip(n);
    }
  }

  lemma NegativeRoundTrip(m: nat)
    requires m > 0
    ensures ParseInt(IntToString(-(m as int))) == -(m as int)
  {
    var t := NatToString(m);
    var s := "-" + t;
    assert IntToString(-(m as int)) == s;
    assert s[0] == '-' && s[1..] == t;
    NatRoundTrip(m);
  }

  lemma NonNegativeRoundTrip(n: nat)
    ensures ParseInt(IntToString(n)) == n
  {
    var s := NatToString(n);
    assert IntToString(n) == s;
    assert IsDigit(s[0]);
    NatRoundTrip(n);
  }

  // ---------------------------------------------------------------------
  // Code-point order on strings, the order `sorted()` and `list.sort()` use.

  /** `a` sorts strictly before `b`. */
  predicate Less(a: string, b: string)
    decreases |a|
  {
    if |a| == 0 then |b| > 0
    else if |b| == 0 then false
    else a[0] < b[0] || (a[0] == b[0] && Less(a[1..], b[1..]))
  }

  predicate LessEq(a: string, b: string) {
    a == b || Less(a, b)
  }

  lemma {:induction false} LessIrreflexive(a: string)
    ensures !Less(a, a)
    decreases |a|
  {
    if |a| > 0 {
      LessIrreflexive(a[1..]);
    }
  }

  lemma {:induction false} LessTransitive(a: string, b: string, c: string)
    requires Less(a, b) && Less(b, c)
    ensures Less(a, c)
    decreases |a|
  {
    if |a| > 0 {
      assert |b| > 0 && |c| > 0;
      if a[0] == b[0] && b[0] == c[0] {
        LessTransitive(a[1..], b[1..], c[1..]);
      }
    }
  }

  lemma {:induction false} LessTotal(a: string, b: string)
    ensures a == b || Less(a, b) || Less(b, a)
    decreases |a|
  {
    if |a| > 0 && |b| > 0 && a[0] == b[0] {
      LessTotal(a[1..], b[1..]);
      if a[1..] == b[1..] {
        assert a == [a[0]] + a[1..] && b == [b[0]] + b[1..];
      }
    }
  }

  lemma LessAsymmetric(a: string, b: string)
    requires Less(a, b)
    ensures !Less(b, a)
  {
    if Less(b, a) {
      LessTransitive(a, b, a);
      LessIrreflexive(a);
    }
  }

  predicate Sorted(s: seq<string>) {
    forall i, j :: 0 <= i < j < |s| ==> LessEq(s[i], s[j])
  }

  predicate StrictlySorted(s: seq<string>) {
    forall i, j :: 0 <= i < j < |s| ==> Less(s[i], s[j])
  }

  /** Below the head of a sorted list is below all of it. */
  lemma BelowHead(x: string, s: seq<string>)
    requires Sorted(s) && |s| > 0 && Less(x, s[0])
    ensures forall j :: 0 <= j < |s| ==> Less(x, s[j])
  {
    forall j | 0 <= j < |s| ensures Less(x, s[j]) {
      if s[j] != s[0] { LessTransitive(x, s[0], s[j]); }
    }
  }

  /** The head of a sorted list is at most every element of the rest with `x` added, when it is at most `x`. */
  lemma HeadBelowRest(s: seq<string>, x: string, rest: seq<string>)
    requires Sorted(s) && |s| > 0 && LessEq(s[0], x)
    requires multiset(rest) == multiset(s[1..]) + multiset{x}
    ensures forall k :: 0 <= k < |rest| ==> LessEq(s[0], rest[k])
  {
    forall k | 0 <= k < |rest| ensures LessEq(s[0], rest[k]) {
      assert rest[k] in multiset(rest);
      assert rest[k] == x || rest[k] in multiset(s[1..]);
      if rest[k] != x {
        var j :| 0 <= j < |s[1..]| && s[1..][j] == rest[k];
        assert LessEq(s[0], s[j + 1]);
      }
    }
  }

  /** A sorted list stays sorted with an element at most all of it in front. */
  lemma SortedCons(h: string, s: seq<string>)
    requires Sorted(s) && forall k :: 0 <= k < |s| ==> LessEq(h, s[k])
    ensures Sorted([h] + s)
  {
    forall i, j | 0 <= i < j < |[h] + s| ensures LessEq(([h] + s)[i], ([h] + s)[j]) {
      if i > 0 { assert ([h] + s)[i] == s[i - 1]; }
      assert ([h] + s)[j] == s[j - 1];
    }
  }

  /** Inserts `x` into a sorted list after every element that is not greater than it. */
  function Insert(x: string, s: seq<string>): (r: seq<string>)
    requires Sorted(s)
    ensures Sorted(r)
    ensures multiset(r) == multiset(s) + multiset{x}
    decreases |s|
  {
    if |s| == 0 then [x]
    else if Less(x, s[0]) then
      BelowHead(x, s);
      [x] + s
    else
      var rest := Insert(x, s[1..]);
      LessTotal(x, s[0]);
      HeadBelowRest(s, x, rest);
      SortedCons(s[0], rest);
      assert s == [s[0]] + s[1..];
      [s[0]] + rest
  }

  /** Python's `list.sort()` on strings: a sorted rearrangement of the same elements. */
  function Sort(s: seq<string>): (r: seq<string>)
    ensures Sorted(r)
    ensures multiset(r) == multiset(s)
    decreases |s|
  {
    if |s| == 0 then []
    else
      assert s == s[..|s| - 1] + [s[|s| - 1]];
      Insert(s[|s| - 1], Sort(s[..|s| - 1]))
  }

  /** The set of elements of a list. */
  function Elems(s: seq<string>): set<string> {
    set k | k in s
  }

  lemma ElemsCons(a: string, t: seq<string>)
    ensures Elems([a] + t) == {a} + Elems(t)
  {
  }

  lemma BelowAll(a: string, x: string, t: seq<string>, rest: seq<string>)
    requires Less(a, x)
    requires forall j :: 0 <= j < |t| ==> Less(a, t[j])
    requires Elems(rest) == Elems(t) + {x}
    ensures forall k :: 0 <= k < |rest| ==> Less(a, rest[k])
  {
    forall k | 0 <= k < |rest| ensures Less(a, rest[k]) {
      assert rest[k] in Elems(rest);
      if rest[k] != x {
        assert rest[k] in Elems(t);
      }
    }
  }

  /** Adds `x` to a strictly sorted list unless it is already there: a sorted set insertion. */
  function InsertUnique(x: string, s: seq<string>): (r: seq<string>)
    requires StrictlySorted(s)
    ensures StrictlySorted(r)
    ensures Elems(r) == Elems(s) + {x}
    decreases |s|
  {
    if |s| == 0 then [x]
    else if x == s[0] then s
    else if Less(x, s[0]) then
      assert forall j :: 0 <= j < |s| ==> Less(x, s[j]) by {
        forall j | 0 <= j < |s| ensures Less(x, s[j]) {
          if j > 0 { LessTransitive(x, s[0], s[j]); }
        }
      }
      ElemsCons(x, s);
      [x] + s
    else
      var t := s[1..];
      var rest := InsertUnique(x, t);
      LessTotal(x, s[0]);
      BelowAll(s[0], x, t, rest);
      assert s == [s[0]] + t;
      ElemsCons(s[0], t);
      ElemsCons(s[0], rest);
      [s[0]] + rest
  }

  /** A strictly sorted list has no repeated element, so its length is the size of its element set. */
  lemma {:induction false} StrictlySortedCard(s: seq<string>)
    requires StrictlySorted(s)
    ensures |Elems(s)| == |s|
    decreases |s|
  {
    if |s| > 0 {
      var t := s[1..];
      StrictlySortedCard(t);
      assert s[0] !in Elems(t) by {
        if s[0] in Elems(t) {
          var j :| 0 <= j < |t| && t[j] == s[0];
          assert Less(s[0], s[j + 1]);
          LessIrreflexive(s[0]);
        }
      }
      assert s == [s[0]] + t;
      ElemsCons(s[0], t);
    }
  }
}
